=== FILE: README.md ===
# Dungeon Master dice tower — a Dafny model

This project models the dice tower of the Dungeon Master repository. It
covers the parts that hold real decisions:

- the ESP32-CAM's on-device die reader (`detectDiceFromRGB`): frame
  decimation to a grey grid, polarity and threshold choice, the foreground
  bounding box, the density gate, the wide-box two-digit split, the 3×3
  template classifier and the mapping back to frame coordinates;
- the camera firmware's overlay drawing (rectangle, scaled digit, value
  label) and its three small HTTP handlers that carry logic (the
  GPT-endpoint URL, the external-detection merge, camera settings);
- the Python ChatGPT fallback's reply sanitiser (`detect_with_chatgpt`
  after the request: code-fence removal, JSON decoding, clamping);
- the two ESP8266 sketches (the plain blink sketch and the NodeMCU sketch
  with strip modes and the access-point watchdog), and the breathing LED
  strip effect;
- the front end's Pinia stores: UI drawer state, roll broadcast, monsters,
  towers and the battle map.

Images are rows of RGB pixels; the flat RGB888 buffer the firmware reads is
related to them by `Frame.FlatOffset`. Floats are reals. The firmware's
unsigned `millis()` arithmetic is modelled with explicit 32-bit
wrap-around (`Ints.ElapsedU32`). JavaScript values are a small `Js`
datatype with JavaScript's truthiness, `||`, `??`, `?.` and object spread;
Python values are a `PyVal` datatype with Python's `int()`/`float()`
conversions. Parsers the code calls (`JSON.parse`, `json.loads`,
ArduinoJson's `deserializeJson`, Python's `int`/`float` of a string), the
clock and the hardware are parameters.

A consequence the model proves: the classifier's reference signatures for
every digit except 1 have squares summing to more than 1, so their squared
error to any normalised signature exceeds the 1.2 rejection gate
(`DigitClassifier.OnlyDigitOneWithinGate`). The classifier therefore
answers 1 or "no digit", and an accepted detection is always 1 or 11
(`Detector.Detect`).

Digits are the only reading: pip counting was removed from the
detector (dicetower/src/esp32cam/dice_detection.cpp:33), and the model
has no pip path either. A single digit is accepted only in 1..9, and
the rejection gate is 1.2, as in the code.

## Model

| member | source | states |
|---|---|---|
| Ints.Clamp | dicetower/src/esp32cam/dice_detection.cpp:24-28 | for a non-empty range the result lies in it, and a value already inside comes back unchanged |
| Ints.ClampMonotone | dicetower/src/esp32cam/main.cpp:84-88 | clamping preserves order, so a box's clamped corners stay ordered |
| Ints.ElapsedU32 | dicetower/src/main.cpp:87-88 | `now - last` on unsigned 32-bit millis is the true distance, or the distance across the wrap |
| Decimal.ShowNat | dicetower/src/esp32cam/main.cpp:137 | the decimal text of a number is non-empty, all digits, and starts with 0 only for zero |
| Decimal.ParseShowNat | dicetower/src/esp32cam/main.cpp:137 | reading back the decimal text of a number gives the number |
| Decimal.ShowInjective | frontend/src/stores/monsterStore.js:16 | different numbers have different decimal texts, so time-based ids differ when the times do |
| Frame.FlatOffset | dicetower/src/esp32cam/dice_detection.cpp:130-133 | byte `(y*width + x)*3 + c` of the RGB888 buffer is channel c of pixel (x, y), and it lies inside the buffer |
| DigitClassifier.Normalise | dicetower/src/esp32cam/dice_detection.cpp:68-71 | the nine shares are non-negative and sum to 1 when there is any ink, and to 0 otherwise |
| DigitClassifier.RemainderIgnored | dicetower/src/esp32cam/dice_detection.cpp:37-53 | two regions that agree on the 3·(w/3) × 3·(h/3) cell area classify alike: remainder rows and columns are not read |
| DigitClassifier.MatchFeatures | dicetower/src/esp32cam/dice_detection.cpp:55-83 | the answer is the first digit of least squared error when that error is within the gate, and "no digit" exactly when every error exceeds it |
| DigitClassifier.ClassifyDigit | dicetower/src/esp32cam/dice_detection.cpp:35-84 | regions narrower than 3 or shorter than 5 are rejected; otherwise the answer is the template match of the cell features |
| DigitClassifier.OnlyDigitOneWithinGate | dicetower/src/esp32cam/dice_detection.cpp:55-83 | every digit but 1 has an error above 1.2 whatever the input signature |
| DigitClassifier.ClassifierAnswersOneOrNothing | dicetower/src/esp32cam/dice_detection.cpp:35-84 | the classifier can only answer 1 or "no digit" |
| DigitClassifier.ReadsAsOneIff | dicetower/src/esp32cam/dice_detection.cpp:55-83 | a signature reads as 1 exactly when its error to the template for 1 is within the gate |
| DigitClassifier.MiddleBandReadsAsOne | dicetower/src/esp32cam/dice_detection.cpp:55-83 | ink evenly spread over the middle band of cells is read as 1 |
| DigitClassifier.Crop | dicetower/src/esp32cam/dice_detection.cpp:94-109 | the copied region has the requested width and height, and each cell is the grid cell it copies, inverted (255 minus it) when the polarity is bright |
| DigitClassifier.ClassifyDigitRegion | dicetower/src/esp32cam/dice_detection.cpp:86-113 | a region whose corners lie outside the grid or out of order, or that is smaller than 4×6, is rejected, and any answer is 1 or "no digit" |
| Detector.Luminance | dicetower/src/esp32cam/dice_detection.cpp:7-9 | the weighted grey level lies between the darkest and the brightest channel |
| Detector.GridSize | dicetower/src/esp32cam/dice_detection.cpp:119-122 | for frames of at least 32×32 the grid is non-empty, under 240×180 cells, and its sample points lie inside the frame |
| Detector.Decimate | dicetower/src/esp32cam/dice_detection.cpp:127-138 | cell (x, y) of the grid is the luminance of frame pixel (x·stepX, y·stepY) |
| Detector.Downsample | dicetower/src/esp32cam/dice_detection.cpp:127-138 | the loop builds exactly the decimated grid and a sum equal to the grid total, which fits in 32 bits |
| Detector.DecimationOverrun | dicetower/src/esp32cam/dice_detection.cpp:119-138 | the firmware's loop writes exactly w·h samples when the steps divide the frame size, and more than the w·h buffer holds otherwise |
| Detector.OverrunAt241By32 | dicetower/src/esp32cam/dice_detection.cpp:119-138 | a 241×32 frame gets a 3840-byte buffer and 3872 written samples |
| Detector.StreamMatchesGrid | dicetower/src/esp32cam/dice_detection.cpp:127-138 | when the steps divide the frame size, the firmware's sample stream is the decimated grid row by row |
| Detector.Offset | dicetower/src/esp32cam/dice_detection.cpp:141 | the threshold offset is between 20 and 60 |
| Detector.ThresholdsFor | dicetower/src/esp32cam/dice_detection.cpp:140-145 | the dark threshold is at least 25 and the bright one at most 230, each at least 20 from the mean unless capped, and dark < bright exactly when the mean exceeds 5 |
| Detector.CountZeroIffNoHit | dicetower/src/esp32cam/dice_detection.cpp:147-153 | the foreground count is zero exactly when no cell passes the threshold |
| Detector.CountPolarity | dicetower/src/esp32cam/dice_detection.cpp:147-154 | the loop's dark and bright counts are the numbers of cells below and above the thresholds, each at most w·h |
| Detector.MaskBoxIsBoundingBox | dicetower/src/esp32cam/dice_detection.cpp:157-173 | the box is empty exactly when no cell is foreground; otherwise it encloses every foreground cell and each edge touches one |
| Detector.BoundingBox | dicetower/src/esp32cam/dice_detection.cpp:157-169 | the nested loop computes the tight box of the foreground cells, inside the grid |
| Detector.FirstMinColumn | dicetower/src/esp32cam/dice_detection.cpp:189-199 | the split column has the least ink in the window and is the first such column |
| Detector.SplitColumn | dicetower/src/esp32cam/dice_detection.cpp:185-199 | there is no split exactly when the middle-half window is empty; otherwise the split lies in it |
| Detector.SplitWindowNonEmpty | dicetower/src/esp32cam/dice_detection.cpp:185-186 | a box at least two cells wide always has a non-empty split window |
| Detector.TwoDigitValue | dicetower/src/esp32cam/dice_detection.cpp:183-210 | a two-digit reading is "none" or 10..20, in fact only 11, and it is 11 exactly when the split column lies strictly inside the box and both halves read 1 |
| Detector.SplitValue | dicetower/src/esp32cam/dice_detection.cpp:200-210 | for a given split column the reading is 11 exactly when the column is strictly inside the box and both halves read 1, and "none" otherwise |
| Detector.Combine | dicetower/src/esp32cam/dice_detection.cpp:203-208 | with halves read as the classifier answers, the combination is kept exactly when both read 1, and then its tens digit is the left reading and its units the right |
| Detector.ResolveValue | dicetower/src/esp32cam/dice_detection.cpp:183-215 | the value is "none" or 1..20; a successful two-digit reading of a wide box is taken first; otherwise the value is the whole box read as one digit |
| Detector.FrameSpan | dicetower/src/esp32cam/dice_detection.cpp:217-231 | the reported span starts at or before the box's first cell, covers its last cell, has width at least 1 and stays inside the frame |
| Detector.Accept | dicetower/src/esp32cam/dice_detection.cpp:217-234 | an accepted detection carries the value, confidence 1, and a box inside the frame that starts at or before the grid box; the runner-up field is kept |
| Detector.Mean | dicetower/src/esp32cam/dice_detection.cpp:140 | the mean is the floor of the grid total over the cell count |
| Detector.Analyse | dicetower/src/esp32cam/dice_detection.cpp:119-177 | the analysis holds the decimated grid, bright polarity exactly when bright cells outnumber dark ones, the matching count and the tight box |
| Detector.BoxImpliesCount | dicetower/src/esp32cam/dice_detection.cpp:170-181 | a non-empty box implies a positive foreground count |
| Detector.Detect | dicetower/src/esp32cam/dice_detection.cpp:115-239 | a missing or under-32 frame is rejected; a frame is accepted exactly when its foreground box is non-empty, the density gate passes and the box reads as a value; an acceptance records that value (1 or 11) with the box mapped into the frame; a rejection leaves the reset record |
| Detector.DetectDiceFromRgb | dicetower/src/esp32cam/dice_detection.cpp:115-239 | the firmware procedure returns the reference result, and its flag always equals `detected` |
| Overlay.Paint | dicetower/src/esp32cam/main.cpp:90-108 | one pixel takes the colour and every other pixel is unchanged |
| Overlay.DrawRect | dicetower/src/esp32cam/main.cpp:90-108 | exactly the pixels on the clamped rectangle's outline take the colour, and the rest keep theirs |
| Overlay.RectInsideIsExact | dicetower/src/esp32cam/main.cpp:90-108 | for a rectangle inside the frame the drawn outline is exactly its border |
| Overlay.FillBlock | dicetower/src/esp32cam/main.cpp:116-124 | exactly the pixels of the scaled font cell that fall inside the frame take the colour |
| Overlay.DrawDigitScaled | dicetower/src/esp32cam/main.cpp:110-129 | exactly the pixels covered by a set bit of the digit's 5×7 glyph, scaled, take the colour |
| Overlay.LabelText | dicetower/src/esp32cam/main.cpp:132-138 | the label is non-empty, and all digits for a non-negative value |
| Overlay.DrawValueLabel | dicetower/src/esp32cam/main.cpp:131-149 | exactly the pixels of the label's glyphs, one every 6·scale columns, take the colour; glyphs past the frame's edge draw nothing |
| Overlay.LabelRoundTrip | dicetower/src/esp32cam/main.cpp:132-138 | the label of a non-negative value reads back as that value |
| CamService.Member | dicetower/src/esp32cam/main.cpp:743-751 | a member lookup yields the member when present and null otherwise |
| CamService.OrInt | dicetower/src/esp32cam/main.cpp:744-745 | a defaulted integer read yields the integer stored under the key, or the default when there is none |
| CamService.OrBool | dicetower/src/esp32cam/main.cpp:744 | a defaulted boolean read yields the boolean stored under the key, or the default otherwise |
| CamService.OrFloat | dicetower/src/esp32cam/main.cpp:746 | a defaulted float read yields the number stored under the key, or the default otherwise |
| CamService.LastIndexOf | dicetower/src/esp32cam/main.cpp:608 | the index is the last occurrence of the character, or -1 when it does not occur |
| CamService.GptUrl | dicetower/src/esp32cam/main.cpp:606-614 | the URL always ends in /gpt_detect, replacing what follows the last slash when that slash is not the first character |
| CamService.GptUrlOfDetect | dicetower/src/esp32cam/main.cpp:606-614 | a configured `<base>/detect` URL becomes `<base>/gpt_detect` |
| CamService.MergeExternal | dicetower/src/esp32cam/main.cpp:743-751 | a posted detection stores the `detected`, `value`, `confidence` and `second_most_likely` it carries, defaults `detected` to true and the runner-up to 0, keeps value and confidence otherwise, and clears the box |
| CamService.MergeIdempotent | dicetower/src/esp32cam/main.cpp:743-751 | posting the same document twice has the effect of posting it once |
| CamService.MergeEmpty | dicetower/src/esp32cam/main.cpp:743-751 | an empty document reports a detection with the previous value and confidence and no box |
| CamService.ExternalDetection | dicetower/src/esp32cam/main.cpp:718-758 | the reply is 200 exactly for a POST with a non-empty, parseable body, which alone changes the stored detection and timestamp; OPTIONS gets 204, other methods 405, bad bodies 400 |
| CamService.Report | dicetower/src/esp32cam/main.cpp:853-873 | the report carries the stored stream delay and frame-size mode |
| CamService.Setting | dicetower/src/esp32cam/main.cpp:892-935 | an integer setting is clamped into its range; a missing or non-integer one keeps the current value |
| CamService.ApplySettings | dicetower/src/esp32cam/main.cpp:875-940 | every one of the ten settings given as an integer is stored clamped to its range (the frame-size mode also selecting VGA), one absent or not an integer is unchanged, and in-range settings stay in range |
| CamService.ApplySettingsIdempotent | dicetower/src/esp32cam/main.cpp:875-940 | applying the same settings document twice equals applying it once |
| CamService.ApplySettingsIgnoresOthers | dicetower/src/esp32cam/main.cpp:875-940 | a document with none of the setting keys changes nothing |
| CamService.CameraSettings | dicetower/src/esp32cam/main.cpp:834-944 | OPTIONS gets 204; a missing camera or sensor gives 500; GET reports; only a successful POST changes the state, by applying the document; other methods get 405 |
| CamService.ReportAfterPost | dicetower/src/esp32cam/main.cpp:853-873 | a GET after a POST reports the new stream delay but the fixed sensor numbers |
| Text.LeadingSpaces | dicetower/gpt_dice_integration.py:193 | the count is the length of the run of whitespace that opens the string |
| Text.StripRight | dicetower/gpt_dice_integration.py:193 | the result is a prefix that ends in non-whitespace, and only whitespace was removed |
| Text.Strip | dicetower/gpt_dice_integration.py:193 | the result is the middle of the string with only whitespace removed at both ends, and does not start or end with whitespace |
| Text.StripTrimmed | dicetower/gpt_dice_integration.py:193 | a string with no whitespace at either end is unchanged |
| GptSanitiser.Trunc | dicetower/gpt_dice_integration.py:225 | `int()` of a float truncates toward zero |
| GptSanitiser.ToInt | dicetower/gpt_dice_integration.py:225 | `int()` raises on None, lists and dicts, keeps ints, maps booleans to 0/1 and truncates floats |
| GptSanitiser.ToFloat | dicetower/gpt_dice_integration.py:226 | `float()` raises on None, lists and dicts and keeps numbers |
| GptSanitiser.Split | dicetower/gpt_dice_integration.py:196 | `split("\n")` gives at least one piece and no piece holds a newline |
| GptSanitiser.JoinSplit | dicetower/gpt_dice_integration.py:196-197 | joining the pieces of a split with newlines gives back the text |
| GptSanitiser.SplitAtNewline | dicetower/gpt_dice_integration.py:196 | splitting `a + "\n" + b` gives the pieces of a followed by those of b |
| GptSanitiser.Unfence | dicetower/gpt_dice_integration.py:196-197 | a text of at most two lines is kept; a longer one is its first line, the result and its last line joined by newlines |
| GptSanitiser.JoinSnoc | dicetower/gpt_dice_integration.py:197 | joining one more line appends it after a newline |
| GptSanitiser.CleanText | dicetower/gpt_dice_integration.py:191-200 | an empty reply stays empty; the reply is stripped; a fenced reply of more than two lines loses exactly its first and last lines |
| GptSanitiser.FenceJsonBranchDead | dicetower/gpt_dice_integration.py:195-200 | any text starting with "```json" starts with "```", so the second branch is never taken |
| GptSanitiser.FencedReplyUnwrapped | dicetower/gpt_dice_integration.py:191-200 | a reply fenced as "```tag", body, "```" is cleaned to exactly the body |
| GptSanitiser.FailureWithBox | dicetower/gpt_dice_integration.py:50-61 | the availability and exception records report no detection, value 0, confidence 0, a zero box and the error |
| GptSanitiser.FailureWithDebug | dicetower/gpt_dice_integration.py:203-223 | the empty-reply and parse-error records report no detection with empty neighbours, runner-up 0 and the error |
| GptSanitiser.KeepNeighbours | dicetower/gpt_dice_integration.py:229-233 | every kept neighbour is a die face 1..20 and none are added |
| GptSanitiser.KeepNeighboursClean | dicetower/gpt_dice_integration.py:229-233 | a list of die faces passes the filter unchanged |
| GptSanitiser.KeepNeighboursOrdered | dicetower/gpt_dice_integration.py:229-233 | the filter keeps the surviving entries in their order |
| GptSanitiser.Neighbours | dicetower/gpt_dice_integration.py:228-233 | a non-list gives no neighbours, and every neighbour given is a die face |
| GptSanitiser.Sanitise | dicetower/gpt_dice_integration.py:224-259 | a non-dict reply, or one whose `value`, `confidence` or `second_most_likely` does not convert, ends in the exception record; otherwise the value is the converted entry when it is a face 1..20 and 0 if not, detection is the truthy `detected` entry and an in-range value, the confidence is the converted entry, the neighbours are the filtered list when non-empty, and the runner-up is the converted entry when in 1..20 |
| GptSanitiser.SanitiseIdempotent | dicetower/gpt_dice_integration.py:236-252 | the returned dict, sanitised again, gives the same reply |
| GptSanitiser.SanitiseWellFormed | dicetower/gpt_dice_integration.py:224-259 | a well-formed reply passes through unchanged |
| GptSanitiser.DetectWithChatGpt | dicetower/gpt_dice_integration.py:36-272 | a detection is 1..20 with no error; no library or no key gives the unavailable record; an exception from the call gives the exception record; the empty-reply record, with its empty debug fields, comes exactly from a reply that cleans to whitespace; otherwise a JSON decode error gives the parse-error record with its message and the first 200 characters, and a decoded reply is sanitised |
| LedStrip.EasedBrightness | dicetower/src/firmware/setup/led_strip.cpp:18-26 | for a phase up to 1024 the brightness is the square curve x²/255 of the folded phase scaled to 0..255 |
| LedStrip.LevelFits | dicetower/src/firmware/setup/led_strip.cpp:21-25 | up to phase 1024 the unsigned fold is the triangle and the squared level fits in eight bits |
| LedStrip.Triangle | dicetower/src/firmware/setup/led_strip.cpp:21 | the folded phase is at most 512 and at most the distance to either end |
| LedStrip.EasedUnwrapped | dicetower/src/firmware/setup/led_strip.cpp:18-26 | for phases up to 1024 the 16-bit wrap and the 8-bit cut never bite: brightness is the squared fold, at most 255 |
| LedStrip.EasedEnds | dicetower/src/firmware/setup/led_strip.cpp:18-26 | the curve is dark at both ends and full at the middle |
| LedStrip.EasedSymmetric | dicetower/src/firmware/setup/led_strip.cpp:18-26 | the curve is symmetric about phase 512 |
| LedStrip.EasedMonotone | dicetower/src/firmware/setup/led_strip.cpp:18-26 | the curve never dims on the way up to phase 512 |
| LedStrip.Initial | dicetower/src/firmware/setup/led_strip.cpp:7-15 | the start state has one colour per pixel of its count and a valid phase |
| LedStrip.Setup | dicetower/src/firmware/setup/led_strip.cpp:28-36 | a pixel count of 0 keeps the previous count; all pixels are off; the animation state is kept |
| LedStrip.Purple | dicetower/src/firmware/setup/led_strip.cpp:49-51 | red is 160/255 of the brightness rounded down, green is 0, blue is the brightness |
| LedStrip.Loop | dicetower/src/firmware/setup/led_strip.cpp:38-57 | within 8 ms nothing changes; otherwise the phase advances and every pixel shows the new shade; a valid phase stays valid |
| LedStrip.AdvanceClosed | dicetower/src/firmware/setup/led_strip.cpp:44 | k steps advance the phase by 2k modulo 1024 |
| LedStrip.BreathPeriod | dicetower/src/firmware/setup/led_strip.cpp:44 | 512 steps bring the phase back to where it started |
| BlinkSketch.Boot | dicetower/src/main.cpp:6-10 | the sketch starts blinking with the LED off and the pin high |
| BlinkSketch.StatusRoundTrip | dicetower/src/main.cpp:46-50 | the status body reads back as the blinking flag and the LED state |
| BlinkSketch.Handle | dicetower/src/main.cpp:20-50 | every route answers 200; on, off and toggle set blinking as named; off and toggling off darken the LED; root and status change nothing, and status answers with the status document; LED consistency is kept |
| BlinkSketch.ToggleTwice | dicetower/src/main.cpp:37-44 | toggling twice restores the blinking flag |
| BlinkSketch.Loop | dicetower/src/main.cpp:80-94 | when blinking is off or under 500 ms have passed nothing changes; otherwise the LED flips; consistency is kept |
| BlinkSketch.RunConsistent | dicetower/src/main.cpp:20-94 | any sequence of requests and loop ticks keeps the pin matching the LED and a non-blinking LED dark |
| BlinkSketch.BootRunConsistent | dicetower/src/main.cpp:52-94 | from boot, every reachable state is consistent |
| NodeMcuSketch.Boot | dicetower/src/NodeMCU/main.cpp:10-14 | the sketch starts with blinking off, the LED dark, the strip on and the access point up |
| NodeMcuSketch.NextMode | dicetower/src/NodeMCU/main.cpp:345-351 | the mode toggle goes from glow to chase and from anything else to glow, never to solid |
| NodeMcuSketch.ModeToggleTwice | dicetower/src/NodeMCU/main.cpp:345-351 | toggling twice restores glow and chase, and turns solid into chase |
| NodeMcuSketch.Handle | dicetower/src/NodeMCU/main.cpp:125-400 | each route changes only what it names: the status and strip-blink routes change nothing and status answers with the status document, `/led/on` and `/led/off` stop blinking and drive the LED and its active-low pin, the strip routes set the flag or mode; unknown routes get 404; `/ap/toggle` turns the access point off or on only when that changes it, touching neither the LED nor the strip; the pin keeps mirroring the LED |
| NodeMcuSketch.BlinkRoute | dicetower/src/NodeMCU/main.cpp:125-148 | the blink routes act on the LED as in the blink sketch |
| NodeMcuSketch.WatchdogAsWritten | dicetower/src/NodeMCU/main.cpp:415-437 | every 5 s the access point is brought back whenever it is down or has lost its address |
| NodeMcuSketch.ApOffUndoneAsWritten | dicetower/src/NodeMCU/main.cpp:202-209 | as written, an access point turned off through `/ap/toggle` is back on at the next check |
| NodeMcuSketch.Watchdog | dicetower/src/NodeMCU/main.cpp:415-437 | the corrected check leaves an access point the API turned off alone and otherwise acts as written |
| NodeMcuSketch.Loop | dicetower/src/NodeMCU/main.cpp:408-459 | one pass of the loop as written runs the blink step and keeps the strip state; more than 5 s after the last check the access point is on afterwards, whatever the API did; the pin keeps mirroring the LED |
| NodeMcuSketch.ApOffUndoneByLoop | dicetower/src/NodeMCU/main.cpp:415-437 | as written, a `/ap/toggle?action=off` followed by a loop pass past the 5 s interval leaves the access point on |
| NodeMcuSketch.CorrectedLoop | dicetower/src/NodeMCU/main.cpp:415-437 | the loop pass with the corrected check leaves an access point the API turned off alone and otherwise equals the pass as written |
| NodeMcuSketch.RunPinMirrors | dicetower/src/NodeMCU/main.cpp:125-459 | any run of requests and loop passes, with either check, keeps the pin mirroring the LED |
| NodeMcuSketch.ApOffStaysOff | dicetower/src/NodeMCU/main.cpp:415-437 | with the corrected check, an access point switched off through the API stays off over any number of loop passes |
| NodeMcuSketch.ManualLedHolds | dicetower/src/NodeMCU/main.cpp:373-387 | after `/led/on` or `/led/off` the LED holds its state over any number of loop passes, with either check |
| JsValues.Spread | frontend/src/stores/monsterStore.js:15-19 | spreading an object copies its fields, and spreading null, undefined, a boolean or a number adds nothing |
| JsValues.IndexKeys | frontend/src/stores/mapStore.js:55-57 | spreading a string or array yields its items under their decimal indices |
| JsValues.FindIndex | frontend/src/stores/monsterStore.js:25 | the index is the first element whose field equals the value, or -1 when none does |
| JsValues.FindAfterMisses | frontend/src/stores/monsterStore.js:25 | appending a match after non-matching elements makes it the one found |
| JsValues.RemoveFirst | frontend/src/stores/monsterStore.js:24-34 | the first matching element is removed and the others keep their order; no match leaves the list alone |
| JsValues.UpdateFirst | frontend/src/stores/monsterStore.js:36-41 | only the first matching element changes, by merging the updates into it |
| UiStore.LoadDrawerState | frontend/src/stores/uiStore.js:5-9 | without storage, or without the key, the drawer is not minimised; a stored text minimises it exactly when it is "true" |
| UiStore.PersistDrawerState | frontend/src/stores/uiStore.js:11-14 | persisting writes only the drawer key and leaves other keys alone |
| UiStore.PersistLoadRoundTrip | frontend/src/stores/uiStore.js:5-14 | loading after persisting a value gives that value's truthiness |
| UiStore.Init | frontend/src/stores/uiStore.js:16-19 | the initial state agrees with what storage holds |
| UiStore.SetDrawerMinimized | frontend/src/stores/uiStore.js:21-24 | the state takes the value and storage agrees with it afterwards |
| UiStore.ToggleDrawer | frontend/src/stores/uiStore.js:25-27 | the state becomes the boolean negation and storage agrees |
| UiStore.ToggleTwice | frontend/src/stores/uiStore.js:25-27 | toggling a boolean twice restores it, in memory and after a reload |
| RollBroadcast.DropSlash | frontend/src/stores/rollBroadcastStore.js:20 | a trailing slash is removed, exactly one; a URL without one is unchanged |
| RollBroadcast.BaseUrl | frontend/src/stores/rollBroadcastStore.js:17-21 | the base URL is a prefix of the configured URL; a URL ending in a slash loses exactly that slash; a URL with neither slash nor endpoint is its own base |
| RollBroadcast.BaseUrlTrailingSlash | frontend/src/stores/rollBroadcastStore.js:17-21 | any URL followed by a slash has that URL as its base |
| RollBroadcast.BaseUrlOfEndpoint | frontend/src/stores/rollBroadcastStore.js:17-21 | a URL ending in /detect or /detect/best yields what precedes it, without a trailing slash |
| RollBroadcast.BaseUrlPlain | frontend/src/stores/rollBroadcastStore.js:17-21 | a URL with neither suffix nor trailing slash is its own base |
| RollBroadcast.WsUrl | frontend/src/stores/rollBroadcastStore.js:24-28 | the socket URL is empty exactly when the base is, and otherwise ends in /ws/roll |
| RollBroadcast.WsUrlSchemes | frontend/src/stores/rollBroadcastStore.js:24-28 | https becomes wss and http becomes ws |
| RollBroadcast.SetServerUrl | frontend/src/stores/rollBroadcastStore.js:149-152 | a falsy URL is stored as the empty string, anything else as given |
| RollBroadcast.BaseOf | frontend/src/stores/rollBroadcastStore.js:17-21 | an unset server URL gives the empty base, and a string one its base URL |
| RollBroadcast.StartRolling | frontend/src/stores/rollBroadcastStore.js:154-172 | a new roll is "rolling" with a time-based id, no dice, no value and no flags; it always has a truthy mode (the payload's when truthy) and a non-nullish modifier (0 when the payload's is null or undefined) |
| RollBroadcast.StartRollingDefaults | frontend/src/stores/rollBroadcastStore.js:154-172 | mode, player name and label are the payload's when truthy and "normal", "" and "" otherwise; modifier and DC are the payload's unless null or undefined |
| RollBroadcast.ShowResult | frontend/src/stores/rollBroadcastStore.js:174-192 | the result keeps the current roll's id, and its chosen value falls back to the value |
| RollBroadcast.ResultContinuesRoll | frontend/src/stores/rollBroadcastStore.js:154-192 | a result after a start keeps the roll's id, names, modifier and DC when the result omits them |
| RollBroadcast.ClearRoll | frontend/src/stores/rollBroadcastStore.js:194-197 | clearing leaves no current roll |
| RollBroadcast.OnMessage | frontend/src/stores/rollBroadcastStore.js:94-107 | a "roll" message with data shows it, "clear" clears, and an unreadable message changes nothing |
| RollBroadcast.OtherMessagesIgnored | frontend/src/stores/rollBroadcastStore.js:94-107 | any other message changes nothing |
| MonsterStore.CountsTrackActions | frontend/src/stores/monsterStore.js:10-11 | `monsterCount` and `selectedCount` follow the actions: add grows the list by one, remove and deselect shrink by one where the id is found, select adds one only for a new id, clear empties the selection |
| MonsterStore.NewMonster | frontend/src/stores/monsterStore.js:14-19 | the new monster carries the given fields, a time-based id only when none is given, and the creation time |
| MonsterStore.AddMonster | frontend/src/stores/monsterStore.js:14-22 | the new monster is appended and the count grows by one |
| MonsterStore.RemoveMonster | frontend/src/stores/monsterStore.js:24-34 | the first monster with the id leaves both lists |
| MonsterStore.RemoveUnknownMonster | frontend/src/stores/monsterStore.js:24-34 | removing an unknown id changes nothing |
| MonsterStore.UpdateMonster | frontend/src/stores/monsterStore.js:36-41 | the updates are merged into the first monster in the list with the id; the rest of the list is unchanged |
| MonsterStore.SelectMonster | frontend/src/stores/monsterStore.js:43-47 | afterwards the monster's id is selected, and it is appended only if it was not already |
| MonsterStore.SelectIdempotent | frontend/src/stores/monsterStore.js:43-47 | selecting twice equals selecting once, and selection keeps ids distinct |
| MonsterStore.DeselectMonster | frontend/src/stores/monsterStore.js:49-54 | the first selected monster with the id is removed from the selection only |
| MonsterStore.DeselectUndoesSelect | frontend/src/stores/monsterStore.js:43-54 | deselecting a freshly selected monster restores the state |
| MonsterStore.ClearSelected | frontend/src/stores/monsterStore.js:56-58 | the selection is emptied and the monsters kept |
| MonsterStore.ImportItems | frontend/src/stores/monsterStore.js:63 | an array imports its items and anything else imports as one item |
| MonsterStore.AddEachAppends | frontend/src/stores/monsterStore.js:65-67 | adding each item in turn appends the new monsters in order |
| MonsterStore.ImportMonsters | frontend/src/stores/monsterStore.js:60-73 | import fails exactly on unparseable text and then changes nothing; otherwise the parsed text, or the value itself, is taken as its array or as one item, one new monster record per item is appended in order, and that count is reported |
| TowerStore.FindTower | frontend/src/stores/towerStore.js:13-15 | the index is the first tower with the id or the address, or -1 |
| TowerStore.TowerId | frontend/src/stores/towerStore.js:12 | the id is the given id, else the address, else a time-based id |
| TowerStore.NewTower | frontend/src/stores/towerStore.js:22-34 | a new tower has the id, the defaults for missing names and flags, and no status yet |
| TowerStore.AddOrUpdateTower | frontend/src/stores/towerStore.js:11-35 | a known tower is merged in place and stamped; an unknown one is appended |
| TowerStore.ReAddKeepsOne | frontend/src/stores/towerStore.js:11-35 | registering the same address again does not add a second tower |
| TowerStore.SetStatus | frontend/src/stores/towerStore.js:37-52 | an unknown id changes nothing; only the first tower with the id changes, taking the online flag, time and status, the dice only when present and the addresses only from a raw report; every other field of it is kept |
| TowerStore.StatusUpdate | frontend/src/stores/towerStore.js:39-51 | the found tower gets the online flag, time and status, the dice when present, and keeps the old addresses without a raw report and every field outside these six |
| TowerStore.SetStatusKeepsIds | frontend/src/stores/towerStore.js:37-52 | every tower keeps its id, so any id is found at the same index after the update |
| TowerStore.FindIndexSameKeys | frontend/src/stores/towerStore.js:38 | two lists agreeing on the id of every record find an id at the same index |
| TowerStore.NoteAddresses | frontend/src/stores/towerStore.js:43-48 | the station address is `wifi.sta.ip`, else `sta_ip`, and it and the access-point address are written only when truthy; nothing else changes |
| TowerStore.RemoveTower | frontend/src/stores/towerStore.js:54-57 | the tower with the id is removed, one fewer when it existed |
| TowerStore.KeepTowerIff | frontend/src/stores/towerStore.js:59-66 | a tower is kept exactly when its address is an http(s) URL; the trim is redundant |
| TowerStore.CleanInvalidTowers | frontend/src/stores/towerStore.js:59-66 | cleaning throws exactly when some address is a truthy non-string, and otherwise keeps exactly the valid towers |
| TowerStore.FilterAppend | frontend/src/stores/towerStore.js:59-66 | filtering a concatenation is the concatenation of the filtered parts, so kept towers keep their order |
| TowerStore.FilterOne | frontend/src/stores/towerStore.js:59-66 | a single tower is kept exactly when it passes the test |
| TowerStore.FilterKeepsValid | frontend/src/stores/towerStore.js:59-66 | a list of valid towers is kept whole |
| TowerStore.CleanIdempotent | frontend/src/stores/towerStore.js:59-66 | cleaning twice equals cleaning once |
| TowerStore.Load | frontend/src/stores/towerStore.js:68-81 | nothing stored gives no towers; a stored array is loaded; anything else gives no towers |
| TowerStore.AsTowers | frontend/src/stores/towerStore.js:68-81 | a loaded list is a list of tower records exactly when every element is an object, each record being that object's fields in order |
| MapStore.SetMap | frontend/src/stores/mapStore.js:15-17 | the map changes and tokens and settings do not |
| MapStore.NewToken | frontend/src/stores/mapStore.js:19-26 | a new token sits at the origin with size 40×40 and carries the given fields, with a time-based id only when none is given |
| MapStore.AddToken | frontend/src/stores/mapStore.js:19-28 | the new token is appended |
| MapStore.RemoveToken | frontend/src/stores/mapStore.js:30-35 | the first token with the id is removed |
| MapStore.RemoveUndoesAdd | frontend/src/stores/mapStore.js:19-35 | removing a just-added token with a fresh id restores the tokens |
| MapStore.SetTokenField | frontend/src/stores/mapStore.js:37-49 | `updateTokenPosition` and `updateTokenSize`: only the first token with the id takes the new field value, every other token and the rest of the state are unchanged, and an unknown id changes nothing |
| MapStore.MoveKeepsSize | frontend/src/stores/mapStore.js:37-42 | moving a token keeps its size |
| MapStore.ResizeKeepsPosition | frontend/src/stores/mapStore.js:44-49 | resizing a token keeps its position |
| MapStore.ClearTokens | frontend/src/stores/mapStore.js:51-53 | all tokens go and the map and settings stay |
| MapStore.UpdateMapSettings | frontend/src/stores/mapStore.js:55-57 | the given settings override, the others are kept, and no keys are lost |
| MapStore.LoadFromLocalStorage | frontend/src/stores/mapStore.js:72-88 | nothing stored changes nothing; a loaded state always has truthy tokens and settings, falling back to the defaults |

## Left out

- Hardware and I/O are not modelled: Wi-Fi set-up, the HTTP server's routing, CORS headers, LittleFS, camera capture and MJPEG streaming, serial logging, `delay`/`yield`, WebSocket connection management, `fetch` posts and the persistence watchers. Their effects on state are modelled where the handlers decide something.
- Allocation failure (`malloc` returning null in dice_detection.cpp) is not modelled; the model always has its scratch grid.
- `detectDiceFromJPEG` is only declared in dice_detection.h, and dice_detection.cpp's own copy of the digit font is unused; neither is modelled.
- Floating point is modelled as exact reals: `boxW > boxH * 1.4f` is `5·boxW > 7·boxH`, the 1.2 gate and the classifier's shares are reals, and NaN and infinities (which Python's `json` and `int()` can meet) are left out.
- Parsers are parameters: `JSON.parse`, `json.loads`, ArduinoJson's `deserializeJson`, and Python's `int()`/`float()` of a string. Exception messages are not modelled; a raise is the `Raised` failure.
- ArduinoJson's `doc[k] | d` is assumed to return the stored value when it has the default's type and the default otherwise (an integer read from an integer, a number read as a float, a boolean from a boolean).
- Text.Strip: treats only space, \t, \n, \r, \v and \f as whitespace. The further characters the sources' strips remove are left out: Python's `str.strip` also removes \x1c-\x1f and \x85, and both it and JavaScript's `trim` remove the no-break space and Unicode's other space and line-terminator characters. Strings holding them are stripped less by the model than by the program.
- The camera GET reports fixed sensor numbers; the sensor calls of the POST are not modelled, only the stored values.
- The NodeMCU sketch's provisioning, wipe, name, root-page and OPTIONS routes and `makeApSsid` are storage and HTML plumbing, and are left out. NodeMCU/setup/led_strip.cpp is not part of this model: the strip effects (`ledStripAllOff`, solid, blink-three) are not modelled; setting a mode is taken to store it, and the initial mode is a parameter.
- The NodeMCU `apOffByApi` flag is not a variable of the sketch: it records that the last `/ap/toggle` switched the access point off, which only the corrected check reads; the loop as written carries it unread.
- The NodeMCU loop's call into the strip effect is not linked to `LedStrip`, which models the firmware/setup variant of the strip driver.
- JavaScript object identity and aliasing are left out: objects are compared by content (so `selectMonster` storing the same object as the list is not distinguished from a copy). Properties of strings and arrays other than index keys (such as `length`) are left out of `Spread` and `?.`.
- MonsterStore.UpdateMonster: keeps the selected list unchanged. In the program a selected entry is the same object as the list's monster, so `Object.assign` also updates it there; the model does not promise that.
- `Date.now()` and ISO date strings are given as a `Stamp`; an import takes a clock indexed by the position of each added monster.
- `exportMonsters` and the stores' save functions only serialise and are left out.
- DigitClassifier.ClassifyDigitRegion: states that any answer is 1 or "no digit" rather than the region's exact template match.
- RollBroadcast.ShowResult: states the status, id and chosen value, not each of the other fallbacks; `RollBroadcast.ResultContinuesRoll` covers the names, modifier and DC.

## Findings

| source | as written | input that shows it | evidently intended | confidence | as-written member | corrected member |
|---|---|---|---|---|---|---|
| dicetower/src/esp32cam/dice_detection.cpp:119-138 | the sampling loops step through the whole frame (`y < height`, `x < width`) and write into a buffer of `(width/stepX)·(height/stepY)` bytes | a 241×32 frame: stepX = 2, so the buffer holds 120·32 = 3840 bytes but the loops write 121·32 = 3872 | sample exactly the `w × h` grid the buffer holds (`y < h·stepY`, `x < w·stepX`) | not executed | Detector.DecimationOverrun | Detector.StreamMatchesGrid |
| dicetower/src/NodeMCU/main.cpp:415-437 | the 5 s watchdog re-enables the access point whenever it is down, although its comment exempts an access point "explicitly disabled via API" | `/ap/toggle?action=off` switches to station mode (lines 202-209); the next check after 5 s turns the access point back on | leave an access point that the API switched off alone | not executed | NodeMcuSketch.ApOffUndoneAsWritten | NodeMcuSketch.ApOffStaysOff |

=== FILE: blink_sketch.dfy ===
/** The ESP8266 blink sketch: an HTTP API switches blinking of the
    on-board LED on and off, and `loop` toggles the LED every 500 ms while
    blinking is enabled. The LED is active-low: the pin is high when the
    LED is dark. */
module BlinkSketch {
  import opened Ints
  import opened Wrappers
  import opened Text

  const BLINK_INTERVAL_MS: nat := 500

  /** The sketch's statics and the LED pin level. */
  datatype Board = Board(blinkEnabled: bool, lastToggleMs: U32, ledOn: bool, pinHigh: bool)

  datatype Route = Root | BlinkOn | BlinkOff | BlinkToggle | Status

  datatype Reply = Reply(code: int, body: string)

  /** The state once `setup` has run: blinking, LED dark, pin high. */
  function Boot(): (b: Board)
    ensures b.blinkEnabled && !b.ledOn && Consistent(b)
  {
    Board(true, 0, false, true)
  }

  /** A disabled blinker never leaves the LED lit, and the active-low pin
      mirrors the logical state. */
  predicate Consistent(b: Board) {
    (!b.blinkEnabled ==> !b.ledOn) && b.pinHigh == !b.ledOn
  }

  function JsonBool(v: bool): string { if v then "true" else "false" }

  /** The two keys of the status reply, with their punctuation. */
  const STATUS_HEAD: string := "{\"blinking\":"
  const STATUS_MID: string := ",\"ledOn\":"

  function StatusBody(b: Board): string {
    STATUS_HEAD + JsonBool(b.blinkEnabled) + STATUS_MID + JsonBool(b.ledOn) + "}"
  }

  /** A JSON boolean at the head of `s`, with its length. */
  function ReadBool(s: string): Option<(bool, nat)> {
    if StartsWith(s, "true") then Some((true, 4))
    else if StartsWith(s, "false") then Some((false, 5))
    else None
  }

  lemma ReadBoolOf(v: bool, tail: string)
    ensures ReadBool(JsonBool(v) + tail) == Some((v, |JsonBool(v)|))
  {
    var s := JsonBool(v) + tail;
    if v {
      assert s[..4] == "true";
    } else {
      assert s[..5] == "false";
      assert s[..4] != "true" by { assert s[0] == 'f'; }
    }
  }

  /** A client's reading of the status reply. */
  function ReadStatus(body: string): Option<(bool, bool)> {
    if !StartsWith(body, STATUS_HEAD) then None
    else match ReadBool(body[|STATUS_HEAD|..])
      case None => None
      case Some((blinking, n)) =>
        var rest := body[|STATUS_HEAD| + n..];
        if !StartsWith(rest, STATUS_MID) then None
        else match ReadBool(rest[|STATUS_MID|..])
          case None => None
          case Some((on, _)) => Some((blinking, on))
  }

  /** The status reply reads back as the board's two flags. */
  lemma StatusRoundTrip(b: Board)
    ensures ReadStatus(StatusBody(b)) == Some((b.blinkEnabled, b.ledOn))
  {
    var v1, v2 := JsonBool(b.blinkEnabled), JsonBool(b.ledOn);
    assert StatusBody(b) == STATUS_HEAD + (v1 + (STATUS_MID + (v2 + "}")));
    ReadStatusOf(b.blinkEnabled, b.ledOn);
  }

  lemma ReadStatusOf(x: bool, y: bool)
    ensures ReadStatus(STATUS_HEAD + (JsonBool(x) + (STATUS_MID + (JsonBool(y) + "}")))) == Some((x, y))
  {
    var v1, v2 := JsonBool(x), JsonBool(y);
    var tail1 := STATUS_MID + (v2 + "}");
    var body := STATUS_HEAD + (v1 + tail1);
    SplitAt(STATUS_HEAD, v1 + tail1);
    SplitAt(v1, tail1);
    ReadBoolOf(x, tail1);
    assert body[|STATUS_HEAD| + |v1|..] == tail1;
    SplitAt(STATUS_MID, v2 + "}");
    ReadBoolOf(y, "}");
  }

  /** The two halves of a concatenation. */
  lemma SplitAt(p: string, q: string)
    ensures StartsWith(p + q, p)
    ensures (p + q)[..|p|] == p && (p + q)[|p|..] == q
  {}

  /** Switch the LED dark. */
  function Dark(b: Board): Board { b.(ledOn := false, pinHigh := true) }

  /** The route handlers: every one answers 200. */
  function Handle(b: Board, route: Route): (r: (Board, Reply))
    ensures r.1.code == 200
    ensures route == BlinkOn ==> r.0 == b.(blinkEnabled := true)
    ensures route == BlinkOff ==> !r.0.blinkEnabled && !r.0.ledOn && r.0.pinHigh
    ensures route == BlinkToggle ==>
      r.0.blinkEnabled == !b.blinkEnabled &&
      (if b.blinkEnabled then !r.0.ledOn && r.0.pinHigh else r.0.ledOn == b.ledOn)
    ensures route == BlinkToggle ==> r.1.body == "{\"ok\":true,\"blinking\":" + JsonBool(!b.blinkEnabled) + "}"
    ensures route == Root || route == Status ==> r.0 == b
    ensures route == Status ==> r.1.body == StatusBody(b)
    ensures r.0.lastToggleMs == b.lastToggleMs
    ensures Consistent(b) ==> Consistent(r.0)
  {
    match route
    case Root => (b, Reply(200, "DiceTower online. Use /blink/on or /blink/off or /status"))
    case BlinkOn => (b.(blinkEnabled := true), Reply(200, "{\"ok\":true,\"blinking\":true}"))
    case BlinkOff => (Dark(b.(blinkEnabled := false)), Reply(200, "{\"ok\":true,\"blinking\":false}"))
    case BlinkToggle =>
      var enabled := !b.blinkEnabled;
      var b' := if enabled then b.(blinkEnabled := true) else Dark(b.(blinkEnabled := false));
      (b', Reply(200, "{\"ok\":true,\"blinking\":" + JsonBool(enabled) + "}"))
    case Status => (b, Reply(200, StatusBody(b)))
  }

  /** Two toggles restore the blink flag. */
  lemma ToggleTwice(b: Board)
    ensures Handle(Handle(b, BlinkToggle).0, BlinkToggle).0.blinkEnabled == b.blinkEnabled
  {
  }

  /** One pass of `loop` at time `now`: when blinking and at least 500 ms
      have passed (modulo 2^32) the LED flips; otherwise nothing changes. */
  function Loop(b: Board, now: U32): (b': Board)
    ensures !b.blinkEnabled ==> b' == b
    ensures b.blinkEnabled && ElapsedU32(now, b.lastToggleMs) >= BLINK_INTERVAL_MS ==>
      b' == b.(lastToggleMs := now, ledOn := !b.ledOn, pinHigh := b.ledOn)
    ensures ElapsedU32(now, b.lastToggleMs) < BLINK_INTERVAL_MS ==> b' == b
    ensures Consistent(b) ==> Consistent(b')
  {
    if !b.blinkEnabled then b
    else if ElapsedU32(now, b.lastToggleMs) >= BLINK_INTERVAL_MS then
      var on := !b.ledOn;
      b.(lastToggleMs := now, ledOn := on, pinHigh := !on)
    else b
  }

  /** What happens to the board: a request, or a pass of `loop`. */
  datatype Event = Request(route: Route) | Tick(now: U32)

  function Step(b: Board, e: Event): Board {
    match e
    case Request(route) => Handle(b, route).0
    case Tick(now) => Loop(b, now)
  }

  function Run(b: Board, events: seq<Event>): Board
    decreases |events|
  {
    if |events| == 0 then b else Run(Step(b, events[0]), events[1..])
  }

  /** From boot, whatever requests arrive and however `loop` is scheduled,
      a disabled blinker keeps the LED dark and the pin mirrors the LED. */
  lemma {:induction false} RunConsistent(b: Board, events: seq<Event>)
    requires Consistent(b)
    ensures Consistent(Run(b, events))
    decreases |events|
  {
    if |events| > 0 {
      var b' := Step(b, events[0]);
      assert Consistent(b') by {
        match events[0]
        case Request(route) =>
        case Tick(now) =>
      }
      RunConsistent(b', events[1..]);
    }
  }

  lemma BootRunConsistent(events: seq<Event>)
    ensures Consistent(Run(Boot(), events))
  {
    RunConsistent(Boot(), events);
  }
}

=== FILE: cam_service.dfy ===
/** Request handling in the camera firmware that is pure logic once the
    HTTP plumbing is stripped: the `/gpt_detect` URL derived from the
    configured detection server, the merge of an externally posted
    detection into the last detection, and the camera-setting endpoint. */
module CamService {
  import opened Ints
  import opened Detector
  import opened Wrappers

  // ---------------------------------------------------------------------
  // ArduinoJson documents

  /** A parsed JSON value as ArduinoJson holds it. */
  datatype Json =
    | JNull
    | JBool(b: bool)
    | JInt(i: int)
    | JFloat(f: real)
    | JStr(s: string)
    | JArr(items: seq<Json>)
    | JObj(fields: map<string, Json>)

  const INT_MIN: int := -0x8000_0000
  const INT_MAX: int := 0x7FFF_FFFF

  /** `doc[key]`: a missing key, or a document that is not an object,
      gives null. */
  function Member(doc: Json, key: string): (v: Json)
    ensures doc.JObj? && key in doc.fields ==> v == doc.fields[key]
    ensures !(doc.JObj? && key in doc.fields) ==> v == JNull
  {
    if doc.JObj? && key in doc.fields then doc.fields[key] else JNull
  }

  /** `is<int>()`: an integer that fits a 32-bit `int`. */
  predicate IsInt(v: Json) {
    v.JInt? && INT_MIN <= v.i <= INT_MAX
  }

  /** `v | dflt` with an `int` default. */
  function OrInt(v: Json, dflt: int): (r: int)
    ensures IsInt(v) ==> r == v.i
    ensures !IsInt(v) ==> r == dflt
  {
    if IsInt(v) then v.i else dflt
  }

  /** `v | dflt` with a `bool` default: only a JSON boolean is taken. */
  function OrBool(v: Json, dflt: bool): (r: bool)
    ensures v.JBool? ==> r == v.b
    ensures !v.JBool? ==> r == dflt
  {
    if v.JBool? then v.b else dflt
  }

  /** `v | dflt` with a `float` default: any number is taken. */
  function OrFloat(v: Json, dflt: real): (r: real)
    ensures v.JFloat? ==> r == v.f
    ensures v.JInt? ==> r == v.i as real
    ensures !v.JFloat? && !v.JInt? ==> r == dflt
  {
    match v
    case JFloat(f) => f
    case JInt(i) => i as real
    case _ => dflt
  }

  // ---------------------------------------------------------------------
  // Responses

  datatype Method = Get | Post | Options | OtherMethod

  datatype Response =
    | NoContent                       // 204 to a CORS preflight
    | Failure(code: int, error: string)
    | Done                            // 200 {"ok":true}
    | Settings(report: SettingsReport)  // 200 with the settings document

  function Status(r: Response): int {
    match r
    case NoContent => 204
    case Failure(code, _) => code
    case Done => 200
    case Settings(_) => 200
  }

  // ---------------------------------------------------------------------
  // The `/gpt_detect` URL

  /** `String::lastIndexOf`: -1 when `c` does not occur. */
  function LastIndexOf(s: string, c: char): (k: int)
    ensures -1 <= k < |s|
    ensures k >= 0 ==> s[k] == c
    ensures forall i :: k < i < |s| ==> s[i] != c
  {
    if |s| == 0 then -1
    else if s[|s| - 1] == c then |s| - 1
    else LastIndexOf(s[..|s| - 1], c)
  }

  const GPT_PATH: string := "/gpt_detect"

  /** The GPT endpoint derived from the configured detection server: the
      last path segment (from the last '/') is replaced by "/gpt_detect";
      when the only '/' is the first character, or there is none, the
      suffix is appended instead. */
  function GptUrl(server: string): (u: string)
    ensures |u| >= |GPT_PATH| && u[|u| - |GPT_PATH|..] == GPT_PATH
    ensures var keep := u[..|u| - |GPT_PATH|];
      && keep <= server
      && (keep == server <==> forall i :: 0 < i < |server| ==> server[i] != '/')
      && (keep != server ==> |keep| > 0 && server[|keep|] == '/'
                             && forall i :: |keep| < i < |server| ==> server[i] != '/')
  {
    var slash := LastIndexOf(server, '/');
    if slash > 0 then server[..slash] + GPT_PATH else server + GPT_PATH
  }

  /** A configured ".../detect" endpoint becomes ".../gpt_detect" on the
      same server. */
  lemma GptUrlOfDetect(base: string)
    requires |base| > 0
    ensures GptUrl(base + "/detect") == base + GPT_PATH
  {
    var s := base + "/detect";
    assert s == (base + "/") + "detect";
    LastIndexOfAppend(base + "/", "detect", '/');
    assert (base + "/")[..|base|] == base;
  }

  /** Appending text without `c` does not move the last `c`. */
  lemma {:induction false} LastIndexOfAppend(a: string, b: string, c: char)
    requires forall i :: 0 <= i < |b| ==> b[i] != c
    ensures LastIndexOf(a + b, c) == LastIndexOf(a, c)
  {
    if |b| > 0 {
      assert (a + b)[..|a + b| - 1] == a + b[..|b| - 1];
      LastIndexOfAppend(a, b[..|b| - 1], c);
    } else {
      assert a + b == a;
    }
  }

  // ---------------------------------------------------------------------
  // handleExternalDetection

  /** The merge of a posted detection document into the last detection:
      `detected` is taken when it is a boolean and defaults to true;
      `value` and `confidence` keep their previous values unless the
      document supplies them; the box is zeroed; `second_most_likely`
      defaults to 0. */
  function MergeExternal(doc: Json, last: DiceDetection): (r: DiceDetection)
    ensures Member(doc, "detected").JBool? ==> r.detected == Member(doc, "detected").b
    ensures !Member(doc, "detected").JBool? ==> r.detected
    ensures IsInt(Member(doc, "value")) ==> r.value == Member(doc, "value").i
    ensures !IsInt(Member(doc, "value")) ==> r.value == last.value
    ensures !Member(doc, "confidence").JInt? && !Member(doc, "confidence").JFloat? ==>
              r.confidence == last.confidence
    ensures Member(doc, "confidence").JFloat? ==> r.confidence == Member(doc, "confidence").f
    ensures Member(doc, "confidence").JInt? ==> r.confidence == Member(doc, "confidence").i as real
    ensures r.x == 0 && r.y == 0 && r.w == 0 && r.h == 0
    ensures IsInt(Member(doc, "second_most_likely")) ==> r.secondMostLikely == Member(doc, "second_most_likely").i
    ensures !IsInt(Member(doc, "second_most_likely")) ==> r.secondMostLikely == 0
  {
    last.(detected := OrBool(Member(doc, "detected"), true),
          value := OrInt(Member(doc, "value"), last.value),
          confidence := OrFloat(Member(doc, "confidence"), last.confidence),
          x := 0, y := 0, w := 0, h := 0,
          secondMostLikely := OrInt(Member(doc, "second_most_likely"), 0))
  }

  /** Posting the same document twice has the effect of posting it once. */
  lemma MergeIdempotent(doc: Json, last: DiceDetection)
    ensures MergeExternal(doc, MergeExternal(doc, last)) == MergeExternal(doc, last)
  {
  }

  /** An empty document keeps the reading and confidence, reports a
      detection and clears the box and runner-up. */
  lemma MergeEmpty(last: DiceDetection)
    ensures var r := MergeExternal(JObj(map[]), last);
      r == last.(detected := true, x := 0, y := 0, w := 0, h := 0, secondMostLikely := 0)
  {
  }

  datatype DetectionState = DetectionState(last: DiceDetection, timestamp: int)

  /** `handleExternalDetection`. `parsed` is the outcome of
      `deserializeJson` on the body (None: a parse error); `now` is
      `millis()`. Only a successful POST changes the state. */
  function ExternalDetection(m: Method, body: string, parsed: Option<Json>, st: DetectionState, now: int)
    : (r: (Response, DetectionState))
    ensures Status(r.0) == 200 <==> m == Post && |body| > 0 && parsed.Some?
    ensures Status(r.0) != 200 ==> r.1 == st
    ensures Status(r.0) == 200 ==> r.1 == DetectionState(MergeExternal(parsed.value, st.last), now)
    ensures m == Options ==> r.0 == NoContent
    ensures m != Options && m != Post ==> Status(r.0) == 405
    ensures m == Post && (|body| == 0 || parsed.None?) ==> Status(r.0) == 400
  {
    if m == Options then (NoContent, st)
    else if m != Post then (Failure(405, "method not allowed"), st)
    else if |body| == 0 then (Failure(400, "empty body"), st)
    else if parsed.None? then (Failure(400, "invalid json"), st)
    else (Done, DetectionState(MergeExternal(parsed.value, st.last), now))
  }

  // ---------------------------------------------------------------------
  // handleCameraSettings

  /** The values last written to the sensor and the firmware's own
      settings. */
  datatype CameraState = CameraState(
    brightness: int, contrast: int, saturation: int, specialEffect: int,
    aeLevel: int, aecValue: int, agcGain: int, gainceiling: int,
    streamDelayMs: int, frameSizeMode: int, vga: bool)

  /** The document a GET returns: the sensor values are fixed numbers (the
      sensor has no getters); only the stream delay and frame-size mode
      are the live settings. */
  datatype SettingsReport = SettingsReport(
    brightness: int, contrast: int, saturation: int, specialEffect: int,
    aeLevel: int, aecValue: int, agcGain: int, gainceiling: int,
    streamDelayMs: int, frameSizeMode: int)

  function Report(st: CameraState): (r: SettingsReport)
    ensures r.streamDelayMs == st.streamDelayMs && r.frameSizeMode == st.frameSizeMode
  {
    SettingsReport(2, 1, 1, 2, 2, 600, 0, 2, st.streamDelayMs, st.frameSizeMode)
  }

  /** One setting: an `int` member is clamped into [lo, hi]; anything else
      leaves the old value. */
  function Setting(doc: Json, key: string, lo: int, hi: int, current: int): (r: int)
    requires lo <= hi
    ensures IsInt(Member(doc, key)) ==> lo <= r <= hi
    ensures IsInt(Member(doc, key)) && lo <= Member(doc, key).i <= hi ==> r == Member(doc, key).i
    ensures IsInt(Member(doc, key)) && Member(doc, key).i < lo ==> r == lo
    ensures IsInt(Member(doc, key)) && Member(doc, key).i > hi ==> r == hi
    ensures !IsInt(Member(doc, key)) ==> r == current
  {
    var v := Member(doc, key);
    if IsInt(v) then Clamp(v.i, lo, hi) else current
  }

  /** The ranges every setting is clamped to. */
  predicate InRanges(st: CameraState) {
    && -2 <= st.brightness <= 2 && -2 <= st.contrast <= 2 && -2 <= st.saturation <= 2
    && 0 <= st.specialEffect <= 6 && -2 <= st.aeLevel <= 2 && 0 <= st.aecValue <= 1200
    && 0 <= st.agcGain <= 30 && 0 <= st.gainceiling <= 6
    && 0 <= st.streamDelayMs <= 100 && 0 <= st.frameSizeMode <= 1
    && (st.vga <==> st.frameSizeMode == 1)
  }

  /** A POSTed settings document applied to the state. */
  function ApplySettings(doc: Json, st: CameraState): (r: CameraState)
    ensures InRanges(st) ==> InRanges(r)
    ensures r.brightness == Setting(doc, "brightness", -2, 2, st.brightness)
    ensures r.contrast == Setting(doc, "contrast", -2, 2, st.contrast)
    ensures r.saturation == Setting(doc, "saturation", -2, 2, st.saturation)
    ensures r.specialEffect == Setting(doc, "special_effect", 0, 6, st.specialEffect)
    ensures r.aeLevel == Setting(doc, "ae_level", -2, 2, st.aeLevel)
    ensures r.aecValue == Setting(doc, "aec_value", 0, 1200, st.aecValue)
    ensures r.agcGain == Setting(doc, "agc_gain", 0, 30, st.agcGain)
    ensures r.gainceiling == Setting(doc, "gainceiling", 0, 6, st.gainceiling)
    ensures r.streamDelayMs == Setting(doc, "stream_delay_ms", 0, 100, st.streamDelayMs)
    ensures IsInt(Member(doc, "stream_delay_ms")) ==>
              r.streamDelayMs == Clamp(Member(doc, "stream_delay_ms").i, 0, 100)
    ensures !IsInt(Member(doc, "stream_delay_ms")) ==> r.streamDelayMs == st.streamDelayMs
    ensures !IsInt(Member(doc, "frame_size_mode")) ==> r.frameSizeMode == st.frameSizeMode && r.vga == st.vga
    ensures IsInt(Member(doc, "frame_size_mode")) ==>
              r.frameSizeMode == Clamp(Member(doc, "frame_size_mode").i, 0, 1) &&
              (r.frameSizeMode == 1 <==> Member(doc, "frame_size_mode").i >= 1) && (r.vga <==> r.frameSizeMode == 1)
  {
    var mode := Setting(doc, "frame_size_mode", 0, 1, st.frameSizeMode);
    CameraState(
      Setting(doc, "brightness", -2, 2, st.brightness),
      Setting(doc, "contrast", -2, 2, st.contrast),
      Setting(doc, "saturation", -2, 2, st.saturation),
      Setting(doc, "special_effect", 0, 6, st.specialEffect),
      Setting(doc, "ae_level", -2, 2, st.aeLevel),
      Setting(doc, "aec_value", 0, 1200, st.aecValue),
      Setting(doc, "agc_gain", 0, 30, st.agcGain),
      Setting(doc, "gainceiling", 0, 6, st.gainceiling),
      Setting(doc, "stream_delay_ms", 0, 100, st.streamDelayMs),
      mode,
      if IsInt(Member(doc, "frame_size_mode")) then mode == 1 else st.vga)
  }

  /** Applying the same settings twice is the same as applying them once. */
  lemma ApplySettingsIdempotent(doc: Json, st: CameraState)
    ensures ApplySettings(doc, ApplySettings(doc, st)) == ApplySettings(doc, st)
  {
  }

  const SETTING_KEYS: seq<string> := [
    "brightness", "contrast", "saturation", "special_effect", "ae_level",
    "aec_value", "agc_gain", "gainceiling", "stream_delay_ms", "frame_size_mode"]

  /** A document with none of the known keys (or with non-`int` values)
      changes nothing. */
  lemma ApplySettingsIgnoresOthers(doc: Json, st: CameraState)
    requires forall k :: k in SETTING_KEYS ==> !IsInt(Member(doc, k))
    ensures ApplySettings(doc, st) == st
  {
  }

  /** `handleCameraSettings`. `cameraReady` and `sensorPresent` are the
      camera's state; `parsed` is the outcome of `deserializeJson`. */
  function CameraSettings(m: Method, cameraReady: bool, sensorPresent: bool, body: string,
                          parsed: Option<Json>, st: CameraState): (r: (Response, CameraState))
    ensures m == Options ==> r.0 == NoContent
    ensures m != Options && (!cameraReady || !sensorPresent) ==> Status(r.0) == 500
    ensures r.1 != st ==> m == Post && Status(r.0) == 200
    ensures r.0.Settings? <==> m == Get && cameraReady && sensorPresent
    ensures r.0.Settings? ==> r.0.report == Report(st)
    ensures m == Post && cameraReady && sensorPresent ==>
              (Status(r.0) == 200 <==> |body| > 0 && parsed.Some?)
    ensures Status(r.0) == 200 && m == Post ==> r.1 == ApplySettings(parsed.value, st)
    ensures m == OtherMethod && cameraReady && sensorPresent ==> Status(r.0) == 405
  {
    if m == Options then (NoContent, st)
    else if !cameraReady then (Failure(500, "camera not initialized"), st)
    else if !sensorPresent then (Failure(500, "sensor not available"), st)
    else if m == Get then (Settings(Report(st)), st)
    else if m == Post then
      if |body| == 0 then (Failure(400, "empty body"), st)
      else if parsed.None? then (Failure(400, "invalid json"), st)
      else (Done, ApplySettings(parsed.value, st))
    else (Failure(405, "method not allowed"), st)
  }

  /** A GET after a POST reports the stream delay and frame-size mode just
      stored, but the fixed sensor numbers whatever was written. */
  lemma ReportAfterPost(doc: Json, st: CameraState)
    ensures var st' := ApplySettings(doc, st);
      && Report(st').streamDelayMs == st'.streamDelayMs
      && Report(st').brightness == 2 && Report(st').aecValue == 600
  {
  }
}

=== FILE: decimal.dfy ===
/** Decimal rendering of integers, as done by `snprintf("%d")` in the
    firmware and by `Number.prototype.toString` / template strings in the
    frontend (for integers these agree). */
module Decimal {

  predicate IsDigit(c: char) { '0' <= c <= '9' }

  function DigitChar(d: int): (c: char)
    requires 0 <= d < 10
    ensures IsDigit(c) && c as int - '0' as int == d
  {
    ('0' as int + d) as char
  }

  /** Decimal digits of a natural number, most significant first, with no
      leading zero. */
  function ShowNat(n: nat): (s: string)
    ensures 1 <= |s|
    ensures forall i :: 0 <= i < |s| ==> IsDigit(s[i])
    ensures s[0] == '0' <==> n == 0
  {
    if n < 10 then [DigitChar(n)] else ShowNat(n / 10) + [DigitChar(n % 10)]
  }

  /** `%d`: a leading '-' for negative values. */
  function Show(n: int): (s: string)
    ensures 1 <= |s| && (n < 0 <==> s[0] == '-')
    ensures n >= 0 ==> forall i :: 0 <= i < |s| ==> IsDigit(s[i])
    ensures n < 0 ==> forall i :: 1 <= i < |s| ==> IsDigit(s[i])
  {
    if n < 0 then "-" + ShowNat(-n) else ShowNat(n)
  }

  /** Value of a string of decimal digits. */
  function ParseNat(s: string): nat
    requires forall i :: 0 <= i < |s| ==> IsDigit(s[i])
  {
    if |s| == 0 then 0
    else assert IsDigit(s[|s| - 1]); ParseNat(s[..|s| - 1]) * 10 + (s[|s| - 1] as int - '0' as int)
  }

  /** Reading the rendered digits back gives the number. */
  lemma {:induction false} ParseShowNat(n: nat)
    ensures ParseNat(ShowNat(n)) == n
  {
    if n >= 10 {
      var s := ShowNat(n);
      assert s[..|s| - 1] == ShowNat(n / 10);
      ParseShowNat(n / 10);
    }
  }

  /** Rendering is injective, so distinct numbers give distinct strings. */
  lemma ShowInjective(a: int, b: int)
    requires Show(a) == Show(b)
    ensures a == b
  {
    if a < 0 {
      assert Show(a)[1..] == ShowNat(-a);
      assert Show(b)[1..] == ShowNat(-b);
      ParseShowNat(-a);
      ParseShowNat(-b);
    } else {
      ParseShowNat(a);
      ParseShowNat(b);
    }
  }
}

=== FILE: detector.dfy ===
/** `detectDiceFromRGB`: reduce an RGB888 frame to a coarse grey grid, pick
    dark/bright cut-offs from the mean, take one bounding box over every
    foreground cell, split a wide box at its least-inked column and read the
    part(s) with the digit classifier. Only printed digits are read; there
    is no pip-counting path. */
module Detector {
  import opened Ints
  import opened Frame
  import opened DigitClassifier
  import opened Wrappers

  /** Frames narrower or shorter than this are rejected. */
  const MIN_SIDE: int := 32
  /** The grid aims at about 120 x 90 cells. */
  const TARGET_COLS: int := 120
  const TARGET_ROWS: int := 90
  /** Cells added around the box before it is reported. */
  const MARGIN: int := 2

  datatype DiceDetection = DiceDetection(
    detected: bool, value: int,
    x: int, y: int, w: int, h: int,
    confidence: real,
    secondMostLikely: int)

  /** What every call writes first; `second_most_likely` is not touched. */
  function Reset(prev: DiceDetection): DiceDetection {
    prev.(detected := false, value := 0, x := 0, y := 0, w := 0, h := 0, confidence := 0.0)
  }

  // ---------------------------------------------------------------------
  // Luminance and decimation

  /** Fixed-point luma (30 R + 59 G + 11 B) / 100. It is a weighted mean of
      the channels, so it lies between the smallest and largest channel and
      the cast to `uint8_t` never truncates. */
  function Luminance(p: Rgb): (l: Byte)
    ensures Min(Min(p.r, p.g), p.b) <= l <= Max(Max(p.r, p.g), p.b)
  {
    (30 * p.r + 59 * p.g + 11 * p.b) / 100
  }

  function StepX(width: int): int { Max(1, width / TARGET_COLS) }
  function StepY(height: int): int { Max(1, height / TARGET_ROWS) }
  function GridW(width: int): int { width / StepX(width) }
  function GridH(height: int): int { height / StepY(height) }

  /** Along one axis the grid has fewer than twice the target number of
      cells, whatever the frame size, and every sampled coordinate is inside
      the frame. */
  lemma AxisSize(size: int, target: int)
    requires size >= MIN_SIDE && target > 0
    ensures 1 <= size / Max(1, size / target) < 2 * target
    ensures (size / Max(1, size / target)) * Max(1, size / target) <= size
  {
    var q := size / target;
    var k := Max(1, q);
    var n := size / k;
    DivMulLe(size, k);
    if q == 0 {
      DivMulLe(size, target);
      assert k == 1 && n == size;
    } else {
      var qt := q * target;
      DivMulLe(size, target);
      assert qt <= size < qt + target;
      MulLeMono(1, q, target);
      assert k * (2 * target) == 2 * qt;
      DivLt(size, k, 2 * target);
      MulLeMono(1, target, q);
      assert k <= size;
    }
  }

  lemma GridSize(width: int, height: int)
    requires width >= MIN_SIDE && height >= MIN_SIDE
    ensures 1 <= GridW(width) < 2 * TARGET_COLS && 1 <= GridH(height) < 2 * TARGET_ROWS
    ensures GridW(width) * StepX(width) <= width && GridH(height) * StepY(height) <= height
  {
    AxisSize(width, TARGET_COLS);
    AxisSize(height, TARGET_ROWS);
  }

  /** Cell k of an axis with n cells and step s samples coordinate k*s. */
  lemma SampleInside(k: int, n: int, s: int, size: int)
    requires 0 <= k < n && s >= 1 && n * s <= size
    ensures 0 <= k * s < size
  {
    MulLeMono(k + 1, n, s);
  }

  /** Grid cell (x, y): the luminance of frame pixel (x*stepX, y*stepY). */
  function Sample(frame: Image, width: int, height: int, x: int, y: int): Byte
    requires IsFrame(frame, width, height) && width >= MIN_SIDE && height >= MIN_SIDE
    requires 0 <= x < GridW(width) && 0 <= y < GridH(height)
  {
    GridSize(width, height);
    SampleInside(x, GridW(width), StepX(width), width);
    SampleInside(y, GridH(height), StepY(height), height);
    Luminance(frame[y * StepY(height)][x * StepX(width)])
  }

  /** The grey grid (nearest-sample decimation). */
  function Decimate(frame: Image, width: int, height: int): (g: Grid)
    requires IsFrame(frame, width, height) && width >= MIN_SIDE && height >= MIN_SIDE
    ensures IsGrid(g, GridW(width), GridH(height))
    ensures forall y, x :: 0 <= y < GridH(height) && 0 <= x < GridW(width) ==>
              g[y][x] == Sample(frame, width, height, x, y)
  {
    seq(GridH(height), y requires 0 <= y < GridH(height) =>
      seq(GridW(width), x requires 0 <= x < GridW(width) => Sample(frame, width, height, x, y)))
  }

  function RowSum(row: seq<Byte>): nat
  {
    if |row| == 0 then 0 else RowSum(row[..|row| - 1]) + row[|row| - 1]
  }

  function GridSum(g: Grid): nat
  {
    if |g| == 0 then 0 else GridSum(g[..|g| - 1]) + RowSum(g[|g| - 1])
  }

  lemma {:induction false} RowSumBound(row: seq<Byte>)
    ensures RowSum(row) <= 255 * |row|
  {
    if |row| > 0 {
      RowSumBound(row[..|row| - 1]);
    }
  }

  lemma {:induction false} GridSumBound(g: Grid, w: int)
    requires forall y :: 0 <= y < |g| ==> |g[y]| == w
    ensures GridSum(g) <= 255 * (w * |g|)
  {
    if |g| > 0 {
      GridSumBound(g[..|g| - 1], w);
      RowSumBound(g[|g| - 1]);
    }
  }

  /** `downsample` (the decimation loop, sampling only the w x h cells of
      the grid): the grid and the `uint32_t` sum of its cells, which cannot
      wrap. */
  method Downsample(frame: Image, width: int, height: int) returns (gray: Grid, sum: nat)
    requires IsFrame(frame, width, height) && width >= MIN_SIDE && height >= MIN_SIDE
    ensures gray == Decimate(frame, width, height)
    ensures IsGrid(gray, GridW(width), GridH(height))
    ensures sum == GridSum(gray) && sum < U32_LIMIT
  {
    var h := GridH(height);
    ghost var d := Decimate(frame, width, height);
    gray := [];
    sum := 0;
    var y := 0;
    while y < h
      invariant 0 <= y <= h
      invariant gray == d[..y]
      invariant sum == GridSum(gray)
    {
      var row, rowSum := DownsampleRow(frame, width, height, y);
      PrefixExtend(d, y, row);
      GridSumAppend(gray, row);
      gray := gray + [row];
      sum := sum + rowSum;
      y := y + 1;
    }
    assert gray == d;
    DecimateSumFits(frame, width, height);
  }

  /** Extending the first `y` rows by row `y` gives the first `y + 1`. */
  lemma PrefixExtend(d: Grid, y: int, row: seq<Byte>)
    requires 0 <= y < |d| && row == d[y]
    ensures d[..y] + [row] == d[..y + 1]
  {}

  lemma GridSumAppend(g: Grid, row: seq<Byte>)
    ensures GridSum(g + [row]) == GridSum(g) + RowSum(row)
  {
    assert (g + [row])[..|g|] == g;
  }

  /** The grid's sum fits the `uint32_t` accumulator. */
  lemma DecimateSumFits(frame: Image, width: int, height: int)
    requires IsFrame(frame, width, height) && width >= MIN_SIDE && height >= MIN_SIDE
    ensures GridSum(Decimate(frame, width, height)) < U32_LIMIT
  {
    var w, h := GridW(width), GridH(height);
    GridSize(width, height);
    GridSumBound(Decimate(frame, width, height), w);
    MulLeMono(w, 2 * TARGET_COLS, h);
  }

  /** One grid row of the decimation loop and the sum of its cells. */
  method DownsampleRow(frame: Image, width: int, height: int, y: int) returns (row: seq<Byte>, rowSum: nat)
    requires IsFrame(frame, width, height) && width >= MIN_SIDE && height >= MIN_SIDE
    requires 0 <= y < GridH(height)
    ensures |row| == GridW(width)
    ensures forall x :: 0 <= x < GridW(width) ==> row[x] == Sample(frame, width, height, x, y)
    ensures row == Decimate(frame, width, height)[y]
    ensures rowSum == RowSum(row)
  {
    var w := GridW(width);
    row := [];
    rowSum := 0;
    var x := 0;
    while x < w
      invariant 0 <= x <= w && |row| == x
      invariant forall i :: 0 <= i < x ==> row[i] == Sample(frame, width, height, i, y)
      invariant rowSum == RowSum(row)
    {
      var lum := Sample(frame, width, height, x, y);
      assert (row + [lum])[..|row|] == row;
      row := row + [lum];
      rowSum := rowSum + lum;
      x := x + 1;
    }
  }

  // ---------------------------------------------------------------------
  // The decimation loop as written

  /** The samples the C loop writes for one frame row, from column x on:
      columns x, x+stepX, ... while below the row's width. */
  function WrittenRow(row: seq<Rgb>, x: nat, sx: nat): seq<Byte>
    requires sx >= 1
    decreases |row| - x
  {
    if x >= |row| then [] else [Luminance(row[x])] + WrittenRow(row, x + sx, sx)
  }

  /** The samples written for frame rows y, y+stepY, ... below the height. */
  function WrittenRows(frame: Image, y: nat, sx: nat, sy: nat): seq<Byte>
    requires sx >= 1 && sy >= 1
    decreases |frame| - y
  {
    if y >= |frame| then [] else WrittenRow(frame[y], 0, sx) + WrittenRows(frame, y + sy, sx, sy)
  }

  /** Everything the decimation loop at dice_detection.cpp writes through
      `gray[idx++]`, in order: ceil(height/stepY) rows of ceil(width/stepX)
      samples each, with no clipping to the w x h buffer. */
  function SampleStream(frame: Image, width: int, height: int): seq<Byte>
    requires IsFrame(frame, width, height) && width >= MIN_SIDE && height >= MIN_SIDE
  {
    WrittenRows(frame, 0, StepX(width), StepY(height))
  }

  /** How many of 0, s, 2s, ... are below n. */
  function Strides(n: int, s: nat): nat
    requires s >= 1
    decreases n
  {
    if n <= 0 then 0 else 1 + Strides(n - s, s)
  }

  lemma {:induction false} StridesCeil(n: nat, s: nat)
    requires s >= 1
    ensures Strides(n, s) == CeilDiv(n, s)
    decreases n
  {
    if n > 0 {
      if n >= s {
        StridesCeil(n - s, s);
        DivShift(n - s, s);
      } else {
        assert Strides(n - s, s) == 0;
      }
    }
  }

  lemma {:induction false} WrittenRowLength(row: seq<Rgb>, x: nat, sx: nat)
    requires sx >= 1 && x <= |row|
    ensures |WrittenRow(row, x, sx)| == Strides(|row| - x, sx)
    decreases |row| - x
  {
    if x < |row| {
      if x + sx <= |row| {
        WrittenRowLength(row, x + sx, sx);
      } else {
        assert Strides(|row| - x - sx, sx) == 0;
      }
    }
  }

  lemma MulSucc(m: int, c: int)
    ensures (m + 1) * c == m * c + c
  {
  }

  lemma {:induction false} WrittenRowsLength(frame: Image, width: nat, y: nat, sx: nat, sy: nat)
    requires sx >= 1 && sy >= 1 && y <= |frame|
    requires forall r :: 0 <= r < |frame| ==> |frame[r]| == width
    ensures |WrittenRows(frame, y, sx, sy)| == Strides(|frame| - y, sy) * Strides(width, sx)
    decreases |frame| - y
  {
    if y < |frame| {
      var c := Strides(width, sx);
      WrittenRowLength(frame[y], 0, sx);
      var m := Strides(|frame| - y - sy, sy);
      if y + sy <= |frame| {
        WrittenRowsLength(frame, width, y + sy, sx, sy);
      }
      assert |WrittenRows(frame, y + sy, sx, sy)| == m * c;
      MulSucc(m, c);
    }
  }

  /** The loop writes exactly w*h samples when stepX divides the width and
      stepY divides the height, and more than the w*h-byte buffer holds
      otherwise. */
  lemma DecimationOverrun(frame: Image, width: int, height: int)
    requires IsFrame(frame, width, height) && width >= MIN_SIDE && height >= MIN_SIDE
    ensures width % StepX(width) == 0 && height % StepY(height) == 0 ==>
              |SampleStream(frame, width, height)| == GridW(width) * GridH(height)
    ensures width % StepX(width) != 0 || height % StepY(height) != 0 ==>
              |SampleStream(frame, width, height)| > GridW(width) * GridH(height)
  {
    var sx, sy := StepX(width), StepY(height);
    WrittenRowsLength(frame, width, 0, sx, sy);
    StridesCeil(width, sx);
    StridesCeil(height, sy);
    assert |SampleStream(frame, width, height)| == CeilDiv(height, sy) * CeilDiv(width, sx);
    GridSize(width, height);
    CeilGrid(width, height, sx, sy);
  }

  /** Rounding both quotients up instead of down keeps the product when
      both divisions are exact and grows it otherwise. */
  lemma CeilGrid(width: nat, height: nat, sx: nat, sy: nat)
    requires sx >= 1 && sy >= 1 && width / sx >= 1 && height / sy >= 1
    ensures width % sx == 0 && height % sy == 0 ==>
              CeilDiv(height, sy) * CeilDiv(width, sx) == (width / sx) * (height / sy)
    ensures width % sx != 0 || height % sy != 0 ==>
              CeilDiv(height, sy) * CeilDiv(width, sx) > (width / sx) * (height / sy)
  {
    ProductGrows(width / sx, height / sy, CeilDiv(width, sx), CeilDiv(height, sy));
  }

  /** Growing either factor of a product of positive numbers grows it. */
  lemma ProductGrows(w: int, h: int, cw: int, ch: int)
    requires 1 <= w <= cw && 1 <= h <= ch
    ensures cw * ch >= w * h
    ensures cw > w || ch > h ==> cw * ch > w * h
  {
    MulLeMono(w, cw, h);
    MulLeMono(h, ch, cw);
    if cw > w {
      MulLeMono(w + 1, cw, h);
    }
  }

  /** The grid rows laid end to end, as in the `gray` buffer. */
  function Concat(g: Grid): seq<Byte>
  {
    if |g| == 0 then [] else g[0] + Concat(g[1..])
  }

  lemma {:induction false} WrittenRowMatches(frame: Image, width: int, height: int, y: int, k: int)
    requires IsFrame(frame, width, height) && width >= MIN_SIDE && height >= MIN_SIDE
    requires width % StepX(width) == 0
    requires 0 <= y < GridH(height) && 0 <= k <= GridW(width)
    ensures 0 <= y * StepY(height) < height
    ensures WrittenRow(frame[y * StepY(height)], k * StepX(width), StepX(width))
              == Decimate(frame, width, height)[y][k..]
    decreases GridW(width) - k
  {
    var sx, sy, w := StepX(width), StepY(height), GridW(width);
    GridSize(width, height);
    SampleInside(y, GridH(height), sy, height);
    var row := frame[y * sy];
    var d := Decimate(frame, width, height)[y];
    assert w * sx == width;
    if k < w {
      MulLeMono(k + 1, w, sx);
      MulSucc(k, sx);
      WrittenRowMatches(frame, width, height, y, k + 1);
      assert d[k] == Sample(frame, width, height, k, y);
      assert d[k..] == [d[k]] + d[k + 1..];
    }
  }

  lemma {:induction false} WrittenRowsMatch(frame: Image, width: int, height: int, j: int)
    requires IsFrame(frame, width, height) && width >= MIN_SIDE && height >= MIN_SIDE
    requires width % StepX(width) == 0 && height % StepY(height) == 0
    requires 0 <= j <= GridH(height)
    ensures WrittenRows(frame, j * StepY(height), StepX(width), StepY(height))
              == Concat(Decimate(frame, width, height)[j..])
    decreases GridH(height) - j
  {
    var sx, sy, h := StepX(width), StepY(height), GridH(height);
    var g := Decimate(frame, width, height);
    if j < h {
      NextRowStart(height, sy, j);
      WrittenRowsMatch(frame, width, height, j + 1);
      WrittenRowMatches(frame, width, height, j, 0);
      assert WrittenRows(frame, j * sy, sx, sy)
          == WrittenRow(frame[j * sy], 0, sx) + WrittenRows(frame, (j + 1) * sy, sx, sy);
      ConcatFrom(g, j);
    }
  }

  /** Row j of an exact decimation starts inside the frame, and row j + 1
      starts one step later. */
  lemma NextRowStart(height: int, sy: int, j: int)
    requires sy >= 1 && height >= 0 && height % sy == 0 && 0 <= j < height / sy
    ensures 0 <= j * sy < height && (j + 1) * sy == j * sy + sy
  {
    DivMulLe(height, sy);
    MulLeMono(j + 1, height / sy, sy);
  }

  lemma ConcatFrom(g: Grid, j: int)
    requires 0 <= j < |g|
    ensures Concat(g[j..]) == g[j] + Concat(g[j + 1..])
  {
    assert g[j..][0] == g[j];
    assert g[j..][1..] == g[j + 1..];
  }

  /** When both steps divide the frame size, the samples the loop writes
      are exactly the grid rows laid end to end: the corrected grid agrees
      with the code wherever the code stays in bounds. */
  lemma StreamMatchesGrid(frame: Image, width: int, height: int)
    requires IsFrame(frame, width, height) && width >= MIN_SIDE && height >= MIN_SIDE
    requires width % StepX(width) == 0 && height % StepY(height) == 0
    ensures SampleStream(frame, width, height) == Concat(Decimate(frame, width, height))
  {
    WrittenRowsMatch(frame, width, height, 0);
    assert Decimate(frame, width, height)[0..] == Decimate(frame, width, height);
  }

  /** A concrete frame size that overruns: a 241 x 32 frame has stepX = 2,
      so each row writes 121 samples into a 120-cell grid row. */
  lemma OverrunAt241By32(frame: Image)
    requires IsFrame(frame, 241, 32)
    ensures GridW(241) * GridH(32) == 3840
    ensures |SampleStream(frame, 241, 32)| == 3872
  {
    WrittenRowsLength(frame, 241, 0, 2, 1);
    StridesCeil(241, 2);
    StridesCeil(32, 1);
  }

  // ---------------------------------------------------------------------
  // Thresholds and polarity

  datatype Thresholds = Thresholds(dark: int, bright: int)

  /** `max(20, min(60, mean / 2))`. */
  function Offset(mean: int): (o: int)
    ensures 20 <= o <= 60
  {
    Max(20, Min(60, mean / 2))
  }

  /** The dark cut-off is the mean minus the offset, floored at 25; the
      bright cut-off is the mean plus the offset, capped at 230. */
  function ThresholdsFor(mean: Byte): (t: Thresholds)
    ensures 25 <= t.dark && t.bright <= 230
    ensures t.dark == 25 || t.dark <= mean - 20
    ensures t.bright == 230 || t.bright >= mean + 20
    ensures t.dark < t.bright <==> mean > 5
  {
    var offset := Offset(mean);
    var dark := if mean - offset < 25 then 25 else mean - offset;
    var bright := if mean + offset > 230 then 230 else mean + offset;
    Thresholds(dark, bright)
  }

  /** A cell is foreground for the chosen polarity. */
  predicate Hit(v: Byte, t: Thresholds, bright: bool) {
    if bright then v > t.bright else v < t.dark
  }

  function CountRowHits(row: seq<Byte>, t: Thresholds, bright: bool): nat
    ensures CountRowHits(row, t, bright) <= |row|
  {
    if |row| == 0 then 0
    else CountRowHits(row[..|row| - 1], t, bright) + (if Hit(row[|row| - 1], t, bright) then 1 else 0)
  }

  /** Number of foreground cells of `g` for a polarity. */
  function CountHits(g: Grid, t: Thresholds, bright: bool): nat
  {
    if |g| == 0 then 0 else CountHits(g[..|g| - 1], t, bright) + CountRowHits(g[|g| - 1], t, bright)
  }

  lemma {:induction false} CountRowZero(row: seq<Byte>, t: Thresholds, bright: bool)
    ensures CountRowHits(row, t, bright) == 0 <==> forall x :: 0 <= x < |row| ==> !Hit(row[x], t, bright)
  {
    if |row| > 0 {
      CountRowZero(row[..|row| - 1], t, bright);
      assert forall x :: 0 <= x < |row| - 1 ==> row[..|row| - 1][x] == row[x];
    }
  }

  /** The count is zero exactly when no cell is foreground. */
  lemma {:induction false} CountZeroIffNoHit(g: Grid, t: Thresholds, bright: bool)
    ensures CountHits(g, t, bright) == 0 <==>
              forall y, x :: 0 <= y < |g| && 0 <= x < |g[y]| ==> !Hit(g[y][x], t, bright)
  {
    if |g| > 0 {
      CountZeroIffNoHit(g[..|g| - 1], t, bright);
      CountRowZero(g[|g| - 1], t, bright);
      assert forall y :: 0 <= y < |g| - 1 ==> g[..|g| - 1][y] == g[y];
    }
  }

  /** The counting loop: dark cells (below the dark cut-off) and bright
      cells (above the bright cut-off). */
  method CountPolarity(gray: Grid, w: int, h: int, t: Thresholds) returns (dark: nat, bright: nat)
    requires IsGrid(gray, w, h)
    ensures dark == CountHits(gray, t, false) && bright == CountHits(gray, t, true)
    ensures dark <= w * h && bright <= w * h
  {
    dark, bright := 0, 0;
    var y := 0;
    while y < h
      invariant 0 <= y <= h
      invariant dark == CountHits(gray[..y], t, false) && bright == CountHits(gray[..y], t, true)
      invariant dark <= w * y && bright <= w * y
    {
      var rowDark, rowBright := CountRow(gray[y], t);
      CountHitsExtend(gray, y, t);
      dark, bright := dark + rowDark, bright + rowBright;
      y := y + 1;
    }
    assert gray[..y] == gray;
  }

  /** The inner counting loop over one grid row. */
  method CountRow(row: seq<Byte>, t: Thresholds) returns (dark: nat, bright: nat)
    ensures dark == CountRowHits(row, t, false) && bright == CountRowHits(row, t, true)
  {
    dark, bright := 0, 0;
    var x := 0;
    while x < |row|
      invariant 0 <= x <= |row|
      invariant dark == CountRowHits(row[..x], t, false)
      invariant bright == CountRowHits(row[..x], t, true)
    {
      assert row[..x + 1][..x] == row[..x];
      if row[x] < t.dark { dark := dark + 1; }
      if row[x] > t.bright { bright := bright + 1; }
      x := x + 1;
    }
    assert row[..x] == row;
  }

  /** Counting the first y + 1 rows adds row y's count to the first y's. */
  lemma CountHitsExtend(g: Grid, y: int, t: Thresholds)
    requires 0 <= y < |g|
    ensures CountHits(g[..y + 1], t, false) == CountHits(g[..y], t, false) + CountRowHits(g[y], t, false)
    ensures CountHits(g[..y + 1], t, true) == CountHits(g[..y], t, true) + CountRowHits(g[y], t, true)
  {
    assert g[..y + 1][..y] == g[..y];
  }

  // ---------------------------------------------------------------------
  // Bounding box of the foreground

  datatype Box = Box(minX: int, minY: int, maxX: int, maxY: int) {
    predicate Empty() { maxX < minX || maxY < minY }
    function Width(): int { maxX - minX + 1 }
    function Height(): int { maxY - minY + 1 }
  }

  /** Widen `b` to cover cell (x, y), one comparison per edge. */
  function Cover(b: Box, x: int, y: int): Box {
    Box(if x < b.minX then x else b.minX, if y < b.minY then y else b.minY,
        if x > b.maxX then x else b.maxX, if y > b.maxY then y else b.maxY)
  }

  /** The box after scanning the first n cells of row y. */
  function ScanRow(b: Box, row: seq<Byte>, y: int, n: int, t: Thresholds, bright: bool): Box
    requires 0 <= n <= |row|
  {
    if n == 0 then b
    else
      var b' := ScanRow(b, row, y, n - 1, t, bright);
      if Hit(row[n - 1], t, bright) then Cover(b', n - 1, y) else b'
  }

  /** The box after scanning the first k rows, starting from the empty box
      (w, h, -1, -1). */
  function ScanRows(g: Grid, w: int, h: int, k: int, t: Thresholds, bright: bool): Box
    requires IsGrid(g, w, h) && 0 <= k <= h
  {
    if k == 0 then Box(w, h, -1, -1)
    else ScanRow(ScanRows(g, w, h, k - 1, t, bright), g[k - 1], k - 1, w, t, bright)
  }

  /** The box scan of the whole grid. */
  function MaskBox(g: Grid, w: int, h: int, t: Thresholds, bright: bool): Box
    requires IsGrid(g, w, h)
  {
    ScanRows(g, w, h, h, t, bright)
  }

  /** No cell of the first k rows is foreground. */
  predicate NoHit(g: Grid, w: int, k: int, t: Thresholds, bright: bool)
    requires 0 <= k <= |g| && forall y :: 0 <= y < |g| ==> |g[y]| == w
  {
    forall y, x :: 0 <= y < k && 0 <= x < w ==> !Hit(g[y][x], t, bright)
  }

  /** Every foreground cell of the first k rows lies in `b`. */
  predicate Encloses(b: Box, g: Grid, w: int, k: int, t: Thresholds, bright: bool)
    requires 0 <= k <= |g| && forall y :: 0 <= y < |g| ==> |g[y]| == w
  {
    forall y, x :: 0 <= y < k && 0 <= x < w && Hit(g[y][x], t, bright) ==>
      b.minX <= x <= b.maxX && b.minY <= y <= b.maxY
  }

  /** Each edge of `b` lies inside the grid and is touched by a foreground
      cell. */
  ghost predicate Tight(b: Box, g: Grid, w: int, t: Thresholds, bright: bool)
    requires forall y :: 0 <= y < |g| ==> |g[y]| == w
  {
    && 0 <= b.minX <= b.maxX < w && 0 <= b.minY <= b.maxY < |g|
    && (exists y :: 0 <= y < |g| && Hit(g[y][b.minX], t, bright))
    && (exists y :: 0 <= y < |g| && Hit(g[y][b.maxX], t, bright))
    && (exists x :: 0 <= x < w && Hit(g[b.minY][x], t, bright))
    && (exists x :: 0 <= x < w && Hit(g[b.maxY][x], t, bright))
  }

  /** What scanning a row prefix does to each edge. */
  lemma {:induction false} ScanRowFacts(b: Box, row: seq<Byte>, y: int, n: int, t: Thresholds, bright: bool)
    requires 0 <= n <= |row|
    ensures var r := ScanRow(b, row, y, n, t, bright);
      && ((forall x :: 0 <= x < n ==> !Hit(row[x], t, bright)) ==> r == b)
      && r.minX <= b.minX && r.maxX >= b.maxX
      && (forall x :: 0 <= x < n && Hit(row[x], t, bright) ==> r.minX <= x <= r.maxX)
      && (r.minX == b.minX || (0 <= r.minX < n && Hit(row[r.minX], t, bright)))
      && (r.maxX == b.maxX || (0 <= r.maxX < n && Hit(row[r.maxX], t, bright)))
      && ((exists x :: 0 <= x < n && Hit(row[x], t, bright)) ==>
            r.minY == Min(b.minY, y) && r.maxY == Max(b.maxY, y))
      && ((forall x :: 0 <= x < n ==> !Hit(row[x], t, bright)) ==>
            r.minY == b.minY && r.maxY == b.maxY)
  {
    if n > 0 {
      ScanRowFacts(b, row, y, n - 1, t, bright);
    }
  }

  lemma {:induction false} ScanNoHit(g: Grid, w: int, h: int, k: int, t: Thresholds, bright: bool)
    requires IsGrid(g, w, h) && 0 <= k <= h
    ensures NoHit(g, w, k, t, bright) ==> ScanRows(g, w, h, k, t, bright) == Box(w, h, -1, -1)
  {
    if k > 0 {
      ScanNoHit(g, w, h, k - 1, t, bright);
      ScanRowFacts(ScanRows(g, w, h, k - 1, t, bright), g[k - 1], k - 1, w, t, bright);
    }
  }

  lemma {:induction false} ScanEncloses(g: Grid, w: int, h: int, k: int, t: Thresholds, bright: bool)
    requires IsGrid(g, w, h) && 0 <= k <= h
    ensures Encloses(ScanRows(g, w, h, k, t, bright), g, w, k, t, bright)
  {
    if k > 0 {
      ScanEncloses(g, w, h, k - 1, t, bright);
      var b := ScanRows(g, w, h, k - 1, t, bright);
      ScanRowFacts(b, g[k - 1], k - 1, w, t, bright);
    }
  }

  /** The left and right edges stay at their initial values or sit on a
      foreground cell. */
  lemma {:induction false} ScanColumns(g: Grid, w: int, h: int, k: int, t: Thresholds, bright: bool)
    requires IsGrid(g, w, h) && 0 <= k <= h
    ensures var r := ScanRows(g, w, h, k, t, bright);
      && (r.minX == w || (0 <= r.minX < w && exists y :: 0 <= y < k && Hit(g[y][r.minX], t, bright)))
      && (r.maxX == -1 || (0 <= r.maxX < w && exists y :: 0 <= y < k && Hit(g[y][r.maxX], t, bright)))
  {
    if k > 0 {
      ScanColumns(g, w, h, k - 1, t, bright);
      var b := ScanRows(g, w, h, k - 1, t, bright);
      ScanRowFacts(b, g[k - 1], k - 1, w, t, bright);
    }
  }

  /** The top and bottom edges stay at their initial values or sit on a
      row holding a foreground cell. */
  lemma {:induction false} ScanRowsEdges(g: Grid, w: int, h: int, k: int, t: Thresholds, bright: bool)
    requires IsGrid(g, w, h) && 0 <= k <= h
    ensures var r := ScanRows(g, w, h, k, t, bright);
      && (r.minY == h || (0 <= r.minY < k && exists x :: 0 <= x < w && Hit(g[r.minY][x], t, bright)))
      && (r.maxY == -1 || (0 <= r.maxY < k && exists x :: 0 <= x < w && Hit(g[r.maxY][x], t, bright)))
  {
    if k > 0 {
      ScanRowsEdges(g, w, h, k - 1, t, bright);
      var b := ScanRows(g, w, h, k - 1, t, bright);
      ScanRowFacts(b, g[k - 1], k - 1, w, t, bright);
    }
  }

  /** The scanned box is the bounding box of the foreground: empty, and
      still (w, h, -1, -1), exactly when no cell is foreground; otherwise
      it encloses every foreground cell and each of its edges touches one,
      so no smaller box encloses them. */
  lemma MaskBoxIsBoundingBox(g: Grid, w: int, h: int, t: Thresholds, bright: bool)
    requires IsGrid(g, w, h)
    ensures var b := MaskBox(g, w, h, t, bright);
      && (b.Empty() <==> NoHit(g, w, h, t, bright))
      && (b.Empty() ==> b == Box(w, h, -1, -1))
      && (!b.Empty() ==> Encloses(b, g, w, h, t, bright) && Tight(b, g, w, t, bright))
  {
    var b := MaskBox(g, w, h, t, bright);
    ScanNoHit(g, w, h, h, t, bright);
    ScanEncloses(g, w, h, h, t, bright);
    ScanColumns(g, w, h, h, t, bright);
    ScanRowsEdges(g, w, h, h, t, bright);
    if !NoHit(g, w, h, t, bright) {
      var y, x :| 0 <= y < h && 0 <= x < w && Hit(g[y][x], t, bright);
      assert b.minX <= x <= b.maxX && b.minY <= y <= b.maxY;
    }
  }

  /** The box loop of the detector. */
  method BoundingBox(gray: Grid, w: int, h: int, t: Thresholds, bright: bool) returns (b: Box)
    requires IsGrid(gray, w, h)
    ensures b == MaskBox(gray, w, h, t, bright)
    ensures b.Empty() <==> NoHit(gray, w, h, t, bright)
    ensures !b.Empty() ==> 0 <= b.minX <= b.maxX < w && 0 <= b.minY <= b.maxY < h
    ensures !b.Empty() ==> Encloses(b, gray, w, h, t, bright)
  {
    var minX, minY, maxX, maxY := w, h, -1, -1;
    var y := 0;
    while y < h
      invariant 0 <= y <= h
      invariant Box(minX, minY, maxX, maxY) == ScanRows(gray, w, h, y, t, bright)
    {
      var x := 0;
      while x < w
        invariant 0 <= x <= w
        invariant Box(minX, minY, maxX, maxY) == ScanRow(ScanRows(gray, w, h, y, t, bright), gray[y], y, x, t, bright)
      {
        var v := gray[y][x];
        var mask := if bright then v > t.bright else v < t.dark;
        if mask {
          if x < minX { minX := x; }
          if x > maxX { maxX := x; }
          if y < minY { minY := y; }
          if y > maxY { maxY := y; }
        }
        x := x + 1;
      }
      y := y + 1;
    }
    b := Box(minX, minY, maxX, maxY);
    MaskBoxIsBoundingBox(gray, w, h, t, bright);
  }

  // ---------------------------------------------------------------------
  // Splitting a wide box and reading the value

  /** `boxW > boxH * 1.4f`, as exact arithmetic. */
  predicate Wide(b: Box) { 5 * b.Width() > 7 * b.Height() }

  /** Ink of column x over rows [y0, y1]: the bright value itself for
      bright-on-dark marks, 255 minus it otherwise. */
  function ColumnInk(g: Grid, w: int, x: int, y0: int, y1: int, bright: bool): nat
    requires forall y :: 0 <= y < |g| ==> |g[y]| == w
    requires 0 <= x < w && 0 <= y0 && y1 < |g|
    decreases y1 - y0
  {
    if y1 < y0 then 0
    else ColumnInk(g, w, x, y0, y1 - 1, bright) + (if bright then g[y1][x] else 255 - g[y1][x])
  }

  /** The column the split loop keeps among [lo, hi]: a later column
      replaces the best only with strictly less ink, so it is the first
      column of minimum ink. */
  function FirstMinColumn(g: Grid, w: int, lo: int, hi: int, y0: int, y1: int, bright: bool): (c: int)
    requires forall y :: 0 <= y < |g| ==> |g[y]| == w
    requires 0 <= lo <= hi < w && 0 <= y0 && y1 < |g|
    ensures lo <= c <= hi
    ensures forall k :: lo <= k <= hi ==> ColumnInk(g, w, c, y0, y1, bright) <= ColumnInk(g, w, k, y0, y1, bright)
    ensures forall k :: lo <= k < c ==> ColumnInk(g, w, c, y0, y1, bright) < ColumnInk(g, w, k, y0, y1, bright)
    decreases hi - lo
  {
    if hi == lo then lo
    else
      var b := FirstMinColumn(g, w, lo, hi - 1, y0, y1, bright);
      if ColumnInk(g, w, hi, y0, y1, bright) < ColumnInk(g, w, b, y0, y1, bright) then hi else b
  }

  /** The search window is [minX + boxW/4, maxX - boxW/4]; -1 when empty. */
  function SplitColumn(g: Grid, w: int, h: int, b: Box, bright: bool): (c: int)
    requires IsGrid(g, w, h)
    requires 0 <= b.minX <= b.maxX < w && 0 <= b.minY <= b.maxY < h
    ensures c == -1 <==> b.minX + b.Width() / 4 > b.maxX - b.Width() / 4
    ensures c != -1 ==> b.minX + b.Width() / 4 <= c <= b.maxX - b.Width() / 4
  {
    var lo, hi := b.minX + b.Width() / 4, b.maxX - b.Width() / 4;
    if lo > hi then -1 else FirstMinColumn(g, w, lo, hi, b.minY, b.maxY, bright)
  }

  /** A box at least two cells wide always has a split candidate. */
  lemma SplitWindowNonEmpty(b: Box)
    requires b.Width() >= 2
    ensures b.minX + b.Width() / 4 <= b.maxX - b.Width() / 4
  {
  }

  /** The two-digit reading of a wide box: both halves are classified and
      `10*left + right` is kept when left > 0, right >= 0 and the value is
      1..20; otherwise -1. */
  function TwoDigitValue(g: Grid, w: int, h: int, b: Box, bright: bool): (v: int)
    requires IsGrid(g, w, h)
    requires 0 <= b.minX <= b.maxX < w && 0 <= b.minY <= b.maxY < h
    ensures v == -1 || 10 <= v <= 20
    ensures v == -1 || v == 11
    ensures var s := SplitColumn(g, w, h, b, bright);
      v == 11 <==>
        b.minX < s < b.maxX &&
        ClassifyDigitRegion(g, w, h, b.minX, b.minY, s, b.maxY, bright) == 1 &&
        ClassifyDigitRegion(g, w, h, s + 1, b.minY, b.maxX, b.maxY, bright) == 1
  {
    SplitValue(g, w, h, b, SplitColumn(g, w, h, b, bright), bright)
  }

  /** The two-digit reading for the split column `s`. */
  function SplitValue(g: Grid, w: int, h: int, b: Box, s: int, bright: bool): (v: int)
    requires IsGrid(g, w, h)
    ensures v == -1 || v == 11
    ensures v == 11 <==>
      b.minX < s < b.maxX &&
      ClassifyDigitRegion(g, w, h, b.minX, b.minY, s, b.maxY, bright) == 1 &&
      ClassifyDigitRegion(g, w, h, s + 1, b.minY, b.maxX, b.maxY, bright) == 1
  {
    if b.minX < s < b.maxX then
      var left := ClassifyDigitRegion(g, w, h, b.minX, b.minY, s, b.maxY, bright);
      var right := ClassifyDigitRegion(g, w, h, s + 1, b.minY, b.maxX, b.maxY, bright);
      Combine(left, right)
    else -1
  }

  /** `10*left + right` when left > 0, right >= 0 and the value is 1..20,
      for digits as the classifier answers them (1 or -1). */
  function Combine(left: int, right: int): (v: int)
    requires left == -1 || left == 1
    requires right == -1 || right == 1
    ensures v == -1 || v == 11
    ensures v == 11 <==> left == 1 && right == 1
    ensures v != -1 ==> v / 10 == left && v % 10 == right
  {
    if left > 0 && right >= 0 && 1 <= left * 10 + right <= 20 then left * 10 + right else -1
  }

  /** The value read from the box: the two-digit reading when the box is
      wide and that reading succeeds, otherwise the whole box read as one
      digit 1..9; -1 when neither works. */
  function ResolveValue(g: Grid, w: int, h: int, b: Box, bright: bool): (v: int)
    requires IsGrid(g, w, h)
    requires 0 <= b.minX <= b.maxX < w && 0 <= b.minY <= b.maxY < h
    ensures v == -1 || 1 <= v <= 20
    ensures v >= 10 ==> Wide(b) && v == TwoDigitValue(g, w, h, b, bright)
    ensures 1 <= v <= 9 ==> v == ClassifyDigitRegion(g, w, h, b.minX, b.minY, b.maxX, b.maxY, bright)
    ensures v == -1 || v == 1 || v == 11
    ensures Wide(b) && TwoDigitValue(g, w, h, b, bright) == 11 ==> v == 11
    ensures !(Wide(b) && TwoDigitValue(g, w, h, b, bright) == 11) ==>
              v == ClassifyDigitRegion(g, w, h, b.minX, b.minY, b.maxX, b.maxY, bright)
  {
    var two := if Wide(b) then TwoDigitValue(g, w, h, b, bright) else -1;
    if two >= 0 then two
    else
      var d := ClassifyDigitRegion(g, w, h, b.minX, b.minY, b.maxX, b.maxY, bright);
      if 1 <= d <= 9 then d else -1
  }

  // ---------------------------------------------------------------------
  // Reporting

  /** One axis of the reported box: widen the cell range [lo, hi] by the
      margin, clamp it to the grid, scale by the step and clamp to the
      frame. The result is a non-empty span inside the frame that starts at
      or before the first sampled pixel of the range and reaches at least
      the first pixel past it (or the frame's last pixel). */
  function FrameSpan(lo: int, hi: int, n: int, step: int, size: int): (r: (int, int))
    requires 0 <= lo <= hi < n && step >= 1 && n * step <= size
    ensures 0 <= r.0 && 1 <= r.1 && r.0 + r.1 <= size
    ensures r.0 <= lo * step
    ensures r.0 + r.1 >= Min((hi + 1) * step, size - 1)
  {
    var minC := Clamp(lo - MARGIN, 0, n - 1);
    var maxC := Clamp(hi + MARGIN, 0, n - 1);
    MulLeMono(minC, lo, step);
    MulLeMono(hi + 1, maxC + 1, step);
    SampleInside(lo, n, step, size);
    var pos := Clamp(minC * step, 0, size - 1);
    var end := Clamp((maxC + 1) * step, 0, size - 1);
    (pos, Max(1, end - pos))
  }

  /** The detection reported for value v found in box b. */
  function Accept(prev: DiceDetection, v: int, b: Box, width: int, height: int): (out: DiceDetection)
    requires width >= MIN_SIDE && height >= MIN_SIDE
    requires 0 <= b.minX <= b.maxX < GridW(width) && 0 <= b.minY <= b.maxY < GridH(height)
    ensures out.detected && out.value == v && out.confidence == 1.0
    ensures out.secondMostLikely == prev.secondMostLikely
    ensures 0 <= out.x && 1 <= out.w && out.x + out.w <= width
    ensures 0 <= out.y && 1 <= out.h && out.y + out.h <= height
    ensures out.x <= b.minX * StepX(width) && out.y <= b.minY * StepY(height)
  {
    GridSize(width, height);
    var xs := FrameSpan(b.minX, b.maxX, GridW(width), StepX(width), width);
    var ys := FrameSpan(b.minY, b.maxY, GridH(height), StepY(height), height);
    prev.(detected := true, value := v, x := xs.0, y := ys.0, w := xs.1, h := ys.1, confidence := 1.0)
  }

  // ---------------------------------------------------------------------
  // The whole pipeline

  /** The `uint8_t` mean of the grid cells (the sum truncated by the
      cell count). */
  function Mean(g: Grid, w: int, h: int): (m: Byte)
    requires IsGrid(g, w, h) && w >= 1 && h >= 1
    ensures m * (w * h) <= GridSum(g) < (m + 1) * (w * h)
  {
    GridSumBound(g, w);
    ByteQuotient(GridSum(g), w * h);
    GridSum(g) / (w * h)
  }

  /** A sum of at most 255 per cell, divided by the cell count, is a byte
      and the floor of the mean. */
  lemma ByteQuotient(sum: nat, total: int)
    requires total >= 1 && sum <= 255 * total
    ensures 0 <= sum / total < 256
    ensures (sum / total) * total <= sum < (sum / total + 1) * total
  {
    DivMulLe(sum, total);
    DivLt(sum, total, 256);
  }

  /** Intermediate results of one frame. */
  datatype Analysis = Analysis(
    gray: Grid, w: int, h: int, mean: Byte, t: Thresholds,
    dark: nat, bright: nat, useBright: bool, maskCount: nat, box: Box)

  function Analyse(frame: Image, width: int, height: int): (a: Analysis)
    requires IsFrame(frame, width, height) && width >= MIN_SIDE && height >= MIN_SIDE
    ensures IsGrid(a.gray, a.w, a.h) && a.w == GridW(width) && a.h == GridH(height)
    ensures a.gray == Decimate(frame, width, height)
    ensures a.useBright <==> a.bright > 0 && a.bright > a.dark
    ensures a.maskCount == CountHits(a.gray, a.t, a.useBright)
    ensures a.box == MaskBox(a.gray, a.w, a.h, a.t, a.useBright)
  {
    var g := Decimate(frame, width, height);
    var w, h := GridW(width), GridH(height);
    GridSize(width, height);
    var mean := Mean(g, w, h);
    var t := ThresholdsFor(mean);
    var dark, bright := CountHits(g, t, false), CountHits(g, t, true);
    var useBright := bright > 0 && bright > dark;
    Analysis(g, w, h, mean, t, dark, bright, useBright, if useBright then bright else dark,
             MaskBox(g, w, h, t, useBright))
  }

  /** A non-empty box means at least one foreground cell was counted. */
  lemma BoxImpliesCount(g: Grid, w: int, h: int, t: Thresholds, bright: bool)
    requires IsGrid(g, w, h)
    ensures var b := MaskBox(g, w, h, t, bright);
      !b.Empty() ==> CountHits(g, t, bright) > 0 && 0 <= b.minX <= b.maxX < w && 0 <= b.minY <= b.maxY < h
  {
    MaskBoxIsBoundingBox(g, w, h, t, bright);
    CountZeroIffNoHit(g, t, bright);
  }

  /** A box whose corners are cells of the w x h grid. */
  predicate BoxInside(b: Box, w: int, h: int) {
    0 <= b.minX <= b.maxX < w && 0 <= b.minY <= b.maxY < h
  }

  /** The density gate: between total/800 and total*3/5 foreground cells. */
  predicate DensityOk(a: Analysis) {
    a.w * a.h / 800 <= a.maskCount <= a.w * a.h * 3 / 5
  }

  /** The reference result of `detectDiceFromRGB` (Some frame = non-null
      buffer). The boolean returned is always `out.detected`; a rejected
      frame leaves the reset state; an accepted one carries a value of 1 or
      11 (the only values the classifier can produce) and a box inside the
      frame. */
  function Detect(rgb: Option<Image>, width: int, height: int, prev: DiceDetection): (r: (bool, DiceDetection))
    requires rgb.Some? && width >= MIN_SIDE && height >= MIN_SIDE ==> IsFrame(rgb.value, width, height)
    ensures r.0 == r.1.detected
    ensures r.1.secondMostLikely == prev.secondMostLikely
    ensures rgb.None? || width < MIN_SIDE || height < MIN_SIDE ==> !r.0
    ensures !r.0 ==> r.1 == Reset(prev)
    ensures r.0 ==> 1 <= r.1.value <= 20 && r.1.confidence == 1.0
    ensures r.0 ==> r.1.value == 1 || r.1.value == 11
    ensures r.0 ==> 0 <= r.1.x && 1 <= r.1.w && r.1.x + r.1.w <= width
    ensures r.0 ==> 0 <= r.1.y && 1 <= r.1.h && r.1.y + r.1.h <= height
    ensures r.0 ==> var a := Analyse(rgb.value, width, height);
      a.maskCount > 0 && DensityOk(a) && !a.box.Empty()
    ensures rgb.Some? && width >= MIN_SIDE && height >= MIN_SIDE ==>
      var a := Analyse(rgb.value, width, height);
      && (!a.box.Empty() <==> BoxInside(a.box, a.w, a.h))
      && (r.0 <==> BoxInside(a.box, a.w, a.h) && DensityOk(a) &&
                   ResolveValue(a.gray, a.w, a.h, a.box, a.useBright) != -1)
      && (r.0 ==> r.1 == Accept(prev, ResolveValue(a.gray, a.w, a.h, a.box, a.useBright), a.box, width, height))
  {
    if rgb.None? || width < MIN_SIDE || height < MIN_SIDE then (false, Reset(prev))
    else
      var a := Analyse(rgb.value, width, height);
      BoxImpliesCount(a.gray, a.w, a.h, a.t, a.useBright);
      if a.box.Empty() || !DensityOk(a) then (false, Reset(prev))
      else
        var v := ResolveValue(a.gray, a.w, a.h, a.box, a.useBright);
        if 1 <= v <= 20 then (true, Accept(prev, v, a.box, width, height))
        else (false, Reset(prev))
  }

  /** `detectDiceFromRGB`, step by step as the firmware runs it (with the
      decimation loop restricted to the w x h grid). */
  method DetectDiceFromRgb(rgb: Option<Image>, width: int, height: int, prev: DiceDetection)
    returns (ok: bool, out: DiceDetection)
    requires rgb.Some? && width >= MIN_SIDE && height >= MIN_SIDE ==> IsFrame(rgb.value, width, height)
    ensures (ok, out) == Detect(rgb, width, height, prev)
    ensures ok == out.detected && out.secondMostLikely == prev.secondMostLikely
    ensures !ok ==> out == Reset(prev)
    ensures ok ==> (out.value == 1 || out.value == 11) && out.x + out.w <= width && out.y + out.h <= height
  {
    out := Reset(prev);
    if rgb.None? || width < MIN_SIDE || height < MIN_SIDE {
      return false, out;
    }
    var frame := rgb.value;
    var w, h := GridW(width), GridH(height);
    GridSize(width, height);
    var gray, sum := Downsample(frame, width, height);
    var total := w * h;
    MulLeMono(1, w, h);
    var m := sum / total;
    assert m == Mean(gray, w, h);
    var mean: Byte := m;
    var t := ThresholdsFor(mean);
    var dark, bright := CountPolarity(gray, w, h, t);
    var useBright := bright > 0 && bright > dark;
    var box := BoundingBox(gray, w, h, t, useBright);
    var maskPixels := if useBright then bright else dark;
    ghost var a := Analysis(gray, w, h, mean, t, dark, bright, useBright, maskPixels, box);
    assert a == Analyse(frame, width, height);
    if box.Empty() {
      return false, out;
    }
    if maskPixels < total / 800 || maskPixels > total * 3 / 5 {
      assert !DensityOk(a);
      return false, out;
    }
    assert DensityOk(a);
    var value := ResolveValue(gray, w, h, box, useBright);
    if 1 <= value <= 20 {
      out := Accept(prev, value, box, width, height);
      return true, out;
    }
    return false, out;
  }


}

=== FILE: digit_classifier.dfy ===
/** The printed-digit classifier of the on-device detector: a 3x3 zonal
    ink-density signature matched against ten reference rows by squared
    error, with a rejection gate. Single-precision floats are modelled as
    exact reals. */
module DigitClassifier {
  import opened Ints

  /** A grey region, rows of bytes (0 = black, 255 = white). */
  type Grid = seq<seq<Byte>>

  predicate IsGrid(g: Grid, w: int, h: int) {
    |g| == h && forall y :: 0 <= y < h ==> |g[y]| == w
  }

  /** Best squared error above this rejects the match. */
  const REJECT_ERROR: real := 1.2

  /** Reference signatures, one row of nine cell densities per digit. */
  const Refs: seq<seq<real>> := [
    [0.9, 0.9, 0.9, 0.7, 0.1, 0.7, 0.9, 0.9, 0.9],
    [0.2, 0.3, 0.2, 0.8, 0.8, 0.8, 0.3, 0.3, 0.3],
    [0.9, 0.9, 0.9, 0.2, 0.8, 0.8, 0.9, 0.9, 0.2],
    [0.9, 0.9, 0.9, 0.2, 0.8, 0.8, 0.9, 0.9, 0.9],
    [0.7, 0.1, 0.7, 0.7, 0.9, 0.7, 0.2, 0.2, 0.7],
    [0.9, 0.9, 0.9, 0.9, 0.9, 0.2, 0.9, 0.9, 0.9],
    [0.8, 0.8, 0.8, 0.8, 0.9, 0.2, 0.9, 0.9, 0.9],
    [0.9, 0.9, 0.9, 0.2, 0.8, 0.4, 0.2, 0.8, 0.4],
    [0.9, 0.9, 0.9, 0.9, 0.9, 0.9, 0.9, 0.9, 0.9],
    [0.9, 0.9, 0.9, 0.9, 0.9, 0.9, 0.9, 0.9, 0.3]
  ]

  // ---------------------------------------------------------------------
  // Ink sums

  /** Ink (255 - v) of `row` over columns [x0, x1). */
  function RowInk(row: seq<Byte>, x0: int, x1: int): nat
    requires 0 <= x0 && x1 <= |row|
    decreases x1 - x0
  {
    if x1 <= x0 then 0 else RowInk(row, x0, x1 - 1) + (255 - row[x1 - 1])
  }

  /** Ink of the rectangle [x0, x1) x [y0, y1) of `g`. */
  function RectInk(g: Grid, w: int, x0: int, x1: int, y0: int, y1: int): nat
    requires |g| >= y1 && forall y :: 0 <= y < |g| ==> |g[y]| == w
    requires 0 <= x0 && x1 <= w && 0 <= y0
    decreases y1 - y0
  {
    if y1 <= y0 then 0 else RectInk(g, w, x0, x1, y0, y1 - 1) + RowInk(g[y1 - 1], x0, x1)
  }

  /** Two grids that agree on a rectangle have the same ink there. */
  lemma {:induction false} RectInkLocal(g1: Grid, g2: Grid, w: int, x0: int, x1: int, y0: int, y1: int)
    requires |g1| >= y1 && forall y :: 0 <= y < |g1| ==> |g1[y]| == w
    requires |g2| >= y1 && forall y :: 0 <= y < |g2| ==> |g2[y]| == w
    requires 0 <= x0 && x1 <= w && 0 <= y0
    requires forall y, x :: y0 <= y < y1 && x0 <= x < x1 ==> g1[y][x] == g2[y][x]
    ensures RectInk(g1, w, x0, x1, y0, y1) == RectInk(g2, w, x0, x1, y0, y1)
    decreases y1 - y0
  {
    if y1 > y0 {
      RectInkLocal(g1, g2, w, x0, x1, y0, y1 - 1);
      RowInkLocal(g1[y1 - 1], g2[y1 - 1], x0, x1);
    }
  }

  lemma {:induction false} RowInkLocal(r1: seq<Byte>, r2: seq<Byte>, x0: int, x1: int)
    requires 0 <= x0 && x1 <= |r1| && x1 <= |r2|
    requires forall x :: x0 <= x < x1 ==> r1[x] == r2[x]
    ensures RowInk(r1, x0, x1) == RowInk(r2, x0, x1)
    decreases x1 - x0
  {
    if x1 > x0 {
      RowInkLocal(r1, r2, x0, x1 - 1);
    }
  }

  // ---------------------------------------------------------------------
  // Zonal features

  /** Side of a cell: `max(1, n / 3)`. */
  function CellSize(n: int): int { Max(1, n / 3) }

  /** First coordinate of cell `k` (0..2). */
  function CellStart(k: int, size: int): int
    requires 0 <= k < 3
  {
    if k == 0 then 0 else if k == 1 then size else 2 * size
  }

  /** Ink of cell (cx, cy); its far edge is `min(n, (k+1)*size)`. */
  function CellInk(g: Grid, w: int, h: int, cx: int, cy: int): nat
    requires IsGrid(g, w, h) && w >= 3 && h >= 5
    requires 0 <= cx < 3 && 0 <= cy < 3
  {
    var cw := CellSize(w);
    var ch := CellSize(h);
    RectInk(g, w, CellStart(cx, cw), Min(w, CellStart(cx, cw) + cw),
                  CellStart(cy, ch), Min(h, CellStart(cy, ch) + ch))
  }

  /** The nine raw features, row-major (`feats[cy*3 + cx]`). */
  function Features(g: Grid, w: int, h: int): (feats: seq<nat>)
    requires IsGrid(g, w, h) && w >= 3 && h >= 5
    ensures |feats| == 9
  {
    [CellInk(g, w, h, 0, 0), CellInk(g, w, h, 1, 0), CellInk(g, w, h, 2, 0),
     CellInk(g, w, h, 0, 1), CellInk(g, w, h, 1, 1), CellInk(g, w, h, 2, 1),
     CellInk(g, w, h, 0, 2), CellInk(g, w, h, 1, 2), CellInk(g, w, h, 2, 2)]
  }

  function Sum9(f: seq<real>): real
    requires |f| == 9
  {
    f[0] + f[1] + f[2] + f[3] + f[4] + f[5] + f[6] + f[7] + f[8]
  }

  function Total(feats: seq<nat>): nat
    requires |feats| == 9
  {
    feats[0] + feats[1] + feats[2] + feats[3] + feats[4] + feats[5] + feats[6] + feats[7] + feats[8]
  }

  /** Each feature divided by the total ink (all zero when there is none). */
  function Normalise(feats: seq<nat>): (f: seq<real>)
    requires |feats| == 9
    ensures |f| == 9
    ensures forall i :: 0 <= i < 9 ==> 0.0 <= f[i]
    ensures Total(feats) > 0 ==> Sum9(f) == 1.0
    ensures Total(feats) == 0 ==> Sum9(f) == 0.0
  {
    var t := Total(feats);
    if t == 0 then [0.0, 0.0, 0.0, 0.0, 0.0, 0.0, 0.0, 0.0, 0.0]
    else
      var tr := t as real;
      SumOfRatios(feats[0] as real, feats[1] as real, feats[2] as real, feats[3] as real, feats[4] as real,
                  feats[5] as real, feats[6] as real, feats[7] as real, feats[8] as real, tr);
      [Share(feats[0], t), Share(feats[1], t), Share(feats[2], t),
       Share(feats[3], t), Share(feats[4], t), Share(feats[5], t),
       Share(feats[6], t), Share(feats[7], t), Share(feats[8], t)]
  }

  function Share(a: nat, t: nat): (q: real)
    requires t > 0
    ensures 0.0 <= q
  {
    a as real / t as real
  }

  lemma SumOfRatios(a0: real, a1: real, a2: real, a3: real, a4: real, a5: real, a6: real, a7: real, a8: real, t: real)
    requires t > 0.0 && t == a0 + a1 + a2 + a3 + a4 + a5 + a6 + a7 + a8
    ensures a0 / t + a1 / t + a2 / t + a3 / t + a4 / t + a5 / t + a6 / t + a7 / t + a8 / t == 1.0
  {
    var q := 1.0 / t;
    assert a0 / t == a0 * q && a1 / t == a1 * q && a2 / t == a2 * q;
    assert a3 / t == a3 * q && a4 / t == a4 * q && a5 / t == a5 * q;
    assert a6 / t == a6 * q && a7 / t == a7 * q && a8 / t == a8 * q;
    assert a0 * q + a1 * q + a2 * q + a3 * q + a4 * q + a5 * q + a6 * q + a7 * q + a8 * q == t * q;
  }

  // ---------------------------------------------------------------------
  // Template matching

  function Sq(x: real): real { x * x }

  /** Squared Euclidean distance between two nine-value signatures. */
  function SqErr(f: seq<real>, r: seq<real>): real
    requires |f| == 9 && |r| == 9
  {
    Sq(f[0] - r[0]) + Sq(f[1] - r[1]) + Sq(f[2] - r[2]) + Sq(f[3] - r[3]) + Sq(f[4] - r[4])
    + Sq(f[5] - r[5]) + Sq(f[6] - r[6]) + Sq(f[7] - r[7]) + Sq(f[8] - r[8])
  }

  function ErrorTo(f: seq<real>, d: int): real
    requires |f| == 9 && 0 <= d < 10
  {
    SqErr(f, Refs[d])
  }

  /** The digit the C loop keeps after scanning digits 0..n-1: a later digit
      replaces the best only when its error is strictly smaller, so ties go to
      the lowest digit. */
  function ArgMinBelow(f: seq<real>, n: int): (d: int)
    requires |f| == 9 && 1 <= n <= 10
    ensures 0 <= d < n
    ensures forall e :: 0 <= e < d ==> ErrorTo(f, d) < ErrorTo(f, e)
    ensures forall e :: d <= e < n ==> ErrorTo(f, d) <= ErrorTo(f, e)
  {
    if n == 1 then 0
    else
      var b := ArgMinBelow(f, n - 1);
      if ErrorTo(f, n - 1) < ErrorTo(f, b) then n - 1 else b
  }

  /** Matching a raw feature vector: the closest reference digit, or -1 when
      even the closest is further than `REJECT_ERROR`. */
  function MatchFeatures(feats: seq<nat>): (d: int)
    requires |feats| == 9
    ensures -1 <= d <= 9
    ensures d == -1 <==> forall e :: 0 <= e < 10 ==> ErrorTo(Normalise(feats), e) > REJECT_ERROR
    ensures d >= 0 ==> ErrorTo(Normalise(feats), d) <= REJECT_ERROR
    ensures d >= 0 ==> forall e :: 0 <= e < d ==> ErrorTo(Normalise(feats), d) < ErrorTo(Normalise(feats), e)
    ensures d >= 0 ==> forall e :: d <= e < 10 ==> ErrorTo(Normalise(feats), d) <= ErrorTo(Normalise(feats), e)
  {
    var f := Normalise(feats);
    var best := ArgMinBelow(f, 10);
    if ErrorTo(f, best) > REJECT_ERROR then -1 else best
  }

  /** `classifyDigit`: -1 for regions narrower than 3 or shorter than 5,
      otherwise the matched digit of the region's zonal signature. */
  function ClassifyDigit(g: Grid, w: int, h: int): (d: int)
    requires IsGrid(g, w, h)
    ensures -1 <= d <= 9
    ensures w < 3 || h < 5 ==> d == -1
    ensures w >= 3 && h >= 5 ==> d == MatchFeatures(Features(g, w, h))
  {
    if w < 3 || h < 5 then -1 else MatchFeatures(Features(g, w, h))
  }

  /** Only the top-left 3*cellW x 3*cellH block of the region is read: pixels
      in the right or bottom remainder never change the result. */
  lemma RemainderIgnored(g1: Grid, g2: Grid, w: int, h: int)
    requires IsGrid(g1, w, h) && IsGrid(g2, w, h)
    requires forall y, x :: 0 <= y < 3 * CellSize(h) && 0 <= x < 3 * CellSize(w) && y < h && x < w
               ==> g1[y][x] == g2[y][x]
    ensures ClassifyDigit(g1, w, h) == ClassifyDigit(g2, w, h)
  {
    if w >= 3 && h >= 5 {
      forall cx, cy | 0 <= cx < 3 && 0 <= cy < 3
        ensures CellInk(g1, w, h, cx, cy) == CellInk(g2, w, h, cx, cy)
      {
        var cw := CellSize(w);
        var ch := CellSize(h);
        RectInkLocal(g1, g2, w, CellStart(cx, cw), Min(w, CellStart(cx, cw) + cw),
                     CellStart(cy, ch), Min(h, CellStart(cy, ch) + ch));
      }
      assert Features(g1, w, h) == Features(g2, w, h);
    }
  }

  // ---------------------------------------------------------------------
  // Which digits can pass the gate

  /** One term of the lower bound: (f - r)^2 >= r^2 - 1.8*f when f >= 0 and
      r <= 0.9 (0.9 is the largest entry of every row but digit 1's). */
  lemma TermBound(f: real, r: real)
    requires 0.0 <= f && r <= 0.9
    ensures Sq(f - r) >= Sq(r) - 1.8 * f
  {
    assert Sq(f - r) == f * f - 2.0 * f * r + r * r;
    assert f * r <= f * 0.9;
  }

  function SumSq(r: seq<real>): real
    requires |r| == 9
  {
    Sq(r[0]) + Sq(r[1]) + Sq(r[2]) + Sq(r[3]) + Sq(r[4]) + Sq(r[5]) + Sq(r[6]) + Sq(r[7]) + Sq(r[8])
  }

  /** For a signature with non-negative entries summing to s, the error to a
      reference row whose entries are at most 0.9 is at least |r|^2 - 1.8*s. */
  lemma ErrorLowerBound(f: seq<real>, r: seq<real>)
    requires |f| == 9 && |r| == 9
    requires forall i :: 0 <= i < 9 ==> 0.0 <= f[i] && r[i] <= 0.9
    ensures SqErr(f, r) >= SumSq(r) - 1.8 * Sum9(f)
  {
    TermBound(f[0], r[0]); TermBound(f[1], r[1]); TermBound(f[2], r[2]);
    TermBound(f[3], r[3]); TermBound(f[4], r[4]); TermBound(f[5], r[5]);
    TermBound(f[6], r[6]); TermBound(f[7], r[7]); TermBound(f[8], r[8]);
  }

  /** Every reference row except digit 1's is more than 1.2 away from every
      normalised signature: the rows are not normalised (each sums to more
      than 1) while the signature sums to at most 1. */
  lemma {:induction false} OnlyDigitOneWithinGate(feats: seq<nat>, d: int)
    requires |feats| == 9 && 0 <= d < 10 && d != 1
    ensures ErrorTo(Normalise(feats), d) > REJECT_ERROR
    ensures Sum9(Refs[d]) > 1.0
  {
    var f := Normalise(feats);
    assert forall i :: 0 <= i < 9 ==> Refs[d][i] <= 0.9;
    ErrorLowerBound(f, Refs[d]);
  }

  /** Consequently the classifier only ever answers 1 or "no digit". */
  lemma ClassifierAnswersOneOrNothing(g: Grid, w: int, h: int)
    requires IsGrid(g, w, h)
    ensures ClassifyDigit(g, w, h) == -1 || ClassifyDigit(g, w, h) == 1
  {
    var d := ClassifyDigit(g, w, h);
    if d >= 0 && d != 1 {
      OnlyDigitOneWithinGate(Features(g, w, h), d);
    }
  }

  /** A signature reads as 1 exactly when its error to the reference row
      for 1 is within the gate. */
  lemma ReadsAsOneIff(feats: seq<nat>)
    requires |feats| == 9
    ensures MatchFeatures(feats) == 1 <==> ErrorTo(Normalise(feats), 1) <= REJECT_ERROR
  {
    var f := Normalise(feats);
    var best := ArgMinBelow(f, 10);
    if best != 1 {
      OnlyDigitOneWithinGate(feats, best);
    }
  }

  /** Digit 1 is reachable: ink spread evenly over the middle band of cells
      (a horizontal bar) is accepted as 1. */
  lemma MiddleBandReadsAsOne(k: nat)
    requires k > 0
    ensures MatchFeatures([0, 0, 0, k, k, k, 0, 0, 0]) == 1
  {
    var feats: seq<nat> := [0, 0, 0, k, k, k, 0, 0, 0];
    var third := 1.0 / 3.0;
    assert k as real / (3 * k) as real == third;
    var f := Normalise(feats);
    assert f == [0.0, 0.0, 0.0, third, third, third, 0.0, 0.0, 0.0];
    assert ErrorTo(f, 1) <= REJECT_ERROR;
    ReadsAsOneIff(feats);
  }

  // ---------------------------------------------------------------------
  // Regions of the detector's grid

  /** Copy of the region [x0, x1] x [y0, y1] of `g`, inverted (255 - v) when
      the marks are bright on a dark background. */
  function Crop(g: Grid, w: int, h: int, x0: int, y0: int, x1: int, y1: int, invert: bool): (roi: Grid)
    requires IsGrid(g, w, h)
    requires 0 <= x0 <= x1 < w && 0 <= y0 <= y1 < h
    ensures IsGrid(roi, x1 - x0 + 1, y1 - y0 + 1)
    ensures forall yy, xx :: 0 <= yy <= y1 - y0 && 0 <= xx <= x1 - x0 ==>
              roi[yy][xx] == if invert then 255 - g[y0 + yy][x0 + xx] else g[y0 + yy][x0 + xx]
  {
    seq(y1 - y0 + 1, yy requires 0 <= yy < y1 - y0 + 1 =>
      seq(x1 - x0 + 1, xx requires 0 <= xx < x1 - x0 + 1 =>
        var v := g[y0 + yy][x0 + xx];
        if invert then 255 - v else v))
  }

  /** A region is usable when its corners lie in the grid, are in order and
      span at least 4 x 6 cells. */
  predicate RegionOk(w: int, h: int, x0: int, y0: int, x1: int, y1: int) {
    && 0 <= x0 && 0 <= y0 && 0 <= x1 && 0 <= y1
    && x0 < w && x1 < w && y0 < h && y1 < h
    && x0 <= x1 && y0 <= y1
    && x1 - x0 + 1 >= 4 && y1 - y0 + 1 >= 6
  }

  /** `classifyDigitRegion`: -1 for corners outside the grid, reversed
      corners, or a region smaller than 4 x 6; otherwise the digit of the
      (possibly inverted) copy of the region. */
  function ClassifyDigitRegion(g: Grid, w: int, h: int, x0: int, y0: int, x1: int, y1: int, invert: bool): (d: int)
    requires IsGrid(g, w, h)
    ensures !RegionOk(w, h, x0, y0, x1, y1) ==> d == -1
    ensures d == -1 || d == 1
  {
    if !RegionOk(w, h, x0, y0, x1, y1) then -1
    else
      var roiW, roiH := x1 - x0 + 1, y1 - y0 + 1;
      var roi := Crop(g, w, h, x0, y0, x1, y1, invert);
      var d := ClassifyDigit(roi, roiW, roiH);
      assert d == -1 || d == 1 by {
        ClassifierAnswersOneOrNothing(roi, roiW, roiH);
      }
      d
  }
}

=== FILE: frame.dfy ===
/** RGB888 frames. The firmware passes frames as a flat byte buffer,
    row-major, three bytes (R, G, B) per pixel; the model works on rows of
    pixels and `FlatOffset` ties the two views together. */
module Frame {
  import opened Ints

  datatype Rgb = Rgb(r: Byte, g: Byte, b: Byte)

  /** Rows of pixels, top row first. */
  type Image = seq<seq<Rgb>>

  /** `img` is a `width` x `height` frame. */
  predicate IsFrame(img: Image, width: int, height: int) {
    |img| == height && forall y :: 0 <= y < height ==> |img[y]| == width
  }

  function Channel(p: Rgb, c: int): Byte
    requires 0 <= c < 3
  {
    if c == 0 then p.r else if c == 1 then p.g else p.b
  }

  function FlattenRow(row: seq<Rgb>): (bytes: seq<Byte>)
    ensures |bytes| == 3 * |row|
  {
    seq(3 * |row|, i requires 0 <= i < 3 * |row| => Channel(row[i / 3], i % 3))
  }

  /** The RGB888 buffer holding `img`. */
  function Flatten(img: Image): seq<Byte>
  {
    if |img| == 0 then [] else FlattenRow(img[0]) + Flatten(img[1..])
  }

  /** Byte `c` of pixel (x, y) sits at offset `(y*width + x)*3 + c` of the
      buffer, which is inside the `width*height*3` bytes of the frame. */
  lemma {:induction false} FlatOffset(img: Image, width: nat, height: nat, x: int, y: int, c: int)
    requires IsFrame(img, width, height)
    requires 0 <= x < width && 0 <= y < height && 0 <= c < 3
    ensures |Flatten(img)| == width * height * 3
    ensures (y * width + x) * 3 + c < width * height * 3
    ensures Flatten(img)[(y * width + x) * 3 + c] == Channel(img[y][x], c)
  {
    FlatLength(img, width, height);
    var row := FlattenRow(img[0]);
    assert Flatten(img) == row + Flatten(img[1..]);
    if y == 0 {
      ChannelSlot(x, c);
      assert row[x * 3 + c] == Channel(img[0][x], c);
    } else {
      FlatOffset(img[1..], width, height - 1, x, y - 1, c);
      OffsetNextRow(width, x, y, c);
    }
    OffsetInside(width, height, x, y, c);
  }

  lemma ChannelSlot(x: int, c: int)
    requires 0 <= x && 0 <= c < 3
    ensures (x * 3 + c) / 3 == x && (x * 3 + c) % 3 == c
  {
    DivUnique(x * 3 + c, 3, x, c);
  }

  lemma OffsetNextRow(width: int, x: int, y: int, c: int)
    ensures (y * width + x) * 3 + c == 3 * width + ((y - 1) * width + x) * 3 + c
  {}

  lemma OffsetInside(width: nat, height: nat, x: int, y: int, c: int)
    requires 0 <= x < width && 0 <= y < height && 0 <= c < 3
    ensures (y * width + x) * 3 + c < width * height * 3
  {
    assert y * width + x < (y + 1) * width;
    MulLeMono(y + 1, height, width);
  }

  lemma {:induction false} FlatLength(img: Image, width: nat, height: nat)
    requires IsFrame(img, width, height)
    ensures |Flatten(img)| == width * height * 3
  {
    if height > 0 {
      FlatLength(img[1..], width, height - 1);
    }
  }
}

=== FILE: gpt_sanitiser.dfy ===
/** The post-processing in `detect_with_chatgpt`: the reply text is
    trimmed and unwrapped from a Markdown code fence, parsed as JSON, and
    every field is converted and range-checked before the detection record
    is returned. The API call itself is an input: either the reply text or
    an exception. */
module GptSanitiser {
  import opened Wrappers
  import opened Text

  // ---------------------------------------------------------------------
  // Python values

  /** A value produced by `json.loads`. */
  datatype PyVal =
    | PNone
    | PBool(b: bool)
    | PInt(i: int)
    | PFloat(f: real)
    | PStr(s: string)
    | PList(items: seq<PyVal>)
    | PDict(entries: map<string, PyVal>)

  /** The outcome of a conversion that may raise. */
  datatype Conv<T> = Ok(v: T) | Raises

  /** `bool(v)`. */
  predicate Truthy(v: PyVal) {
    match v
    case PNone => false
    case PBool(b) => b
    case PInt(i) => i != 0
    case PFloat(f) => f != 0.0
    case PStr(s) => |s| > 0
    case PList(items) => |items| > 0
    case PDict(entries) => |entries| > 0
  }

  /** `int(f)` on a float: truncation toward zero. */
  function Trunc(f: real): (n: int)
    ensures 0.0 <= f ==> n as real <= f < n as real + 1.0
    ensures f < 0.0 ==> n as real - 1.0 < f <= n as real
  {
    if f >= 0.0 then f.Floor else -((-f).Floor)
  }

  /** `int(v)`; `parseInt` is `int` on strings (None when it raises). */
  function ToInt(v: PyVal, parseInt: string -> Option<int>): (r: Conv<int>)
    ensures v.PNone? || v.PList? || v.PDict? ==> r.Raises?
    ensures v.PInt? ==> r == Ok(v.i)
    ensures v.PBool? ==> r == Ok(if v.b then 1 else 0)
    ensures v.PFloat? ==> r == Ok(Trunc(v.f))
  {
    match v
    case PBool(b) => Ok(if b then 1 else 0)
    case PInt(i) => Ok(i)
    case PFloat(f) => Ok(Trunc(f))
    case PStr(s) => if parseInt(s).Some? then Ok(parseInt(s).value) else Raises
    case _ => Raises
  }

  /** `float(v)`; `parseFloat` is `float` on strings. */
  function ToFloat(v: PyVal, parseFloat: string -> Option<real>): (r: Conv<real>)
    ensures v.PNone? || v.PList? || v.PDict? ==> r.Raises?
    ensures v.PInt? ==> r == Ok(v.i as real)
    ensures v.PFloat? ==> r == Ok(v.f)
  {
    match v
    case PBool(b) => Ok(if b then 1.0 else 0.0)
    case PInt(i) => Ok(i as real)
    case PFloat(f) => Ok(f)
    case PStr(s) => if parseFloat(s).Some? then Ok(parseFloat(s).value) else Raises
    case _ => Raises
  }

  /** `d.get(key, dflt)`. */
  function Get(d: map<string, PyVal>, key: string, dflt: PyVal): PyVal {
    if key in d then d[key] else dflt
  }

  // ---------------------------------------------------------------------
  // Text handling

  /** `s.split("\n")`: always at least one piece, none holding a newline. */
  function Split(s: string): (lines: seq<string>)
    ensures |lines| >= 1
    ensures forall k, i :: 0 <= k < |lines| && 0 <= i < |lines[k]| ==> lines[k][i] != '\n'
  {
    if |s| == 0 then [""]
    else if s[0] == '\n' then [""] + Split(s[1..])
    else
      var rest := Split(s[1..]);
      [[s[0]] + rest[0]] + rest[1..]
  }

  /** `"\n".join(lines)`. */
  function Join(lines: seq<string>): string {
    if |lines| == 0 then ""
    else if |lines| == 1 then lines[0]
    else lines[0] + "\n" + Join(lines[1..])
  }

  /** Joining the pieces of a split gives the text back. */
  lemma {:induction false} JoinSplit(s: string)
    ensures Join(Split(s)) == s
  {
    if |s| > 0 {
      JoinSplit(s[1..]);
      var rest := Split(s[1..]);
      if s[0] != '\n' {
        if |rest| == 1 {
          assert s == [s[0]] + rest[0];
        } else {
          assert Join(rest) == rest[0] + "\n" + Join(rest[1..]);
          assert ([[s[0]] + rest[0]] + rest[1..])[1..] == rest[1..];
          assert s == [s[0]] + s[1..];
        }
      } else {
        assert s == "\n" + s[1..];
      }
    }
  }

  /** A newline splits the text into the pieces of each side. */
  lemma {:induction false} SplitAtNewline(a: string, b: string)
    ensures Split(a + "\n" + b) == Split(a) + Split(b)
  {
    var ab := a + "\n" + b;
    if |a| == 0 {
      assert ab == "\n" + b;
      assert ab[1..] == b;
    } else {
      assert ab[0] == a[0];
      assert ab[1..] == a[1..] + "\n" + b;
      SplitAtNewline(a[1..], b);
      if a[0] == '\n' {
        PrependAppend([""], Split(a[1..]), Split(b));
      } else {
        ExtendFirstAppend([a[0]], Split(a[1..]), Split(b));
      }
    }
  }

  /** Sequence algebra for the newline case of the split. */
  lemma PrependAppend(x: seq<string>, ra: seq<string>, rb: seq<string>)
    ensures x + (ra + rb) == (x + ra) + rb
  {
  }

  /** Sequence algebra for the character case of the split: extending the
      first piece commutes with appending more pieces. */
  lemma ExtendFirstAppend(c: string, ra: seq<string>, rb: seq<string>)
    requires |ra| >= 1
    ensures [c + (ra + rb)[0]] + (ra + rb)[1..] == ([c + ra[0]] + ra[1..]) + rb
  {
    assert (ra + rb)[0] == ra[0];
    assert (ra + rb)[1..] == ra[1..] + rb;
  }

  lemma {:induction false} SplitSingleLine(s: string)
    requires forall i :: 0 <= i < |s| ==> s[i] != '\n'
    ensures Split(s) == [s]
  {
    if |s| > 0 {
      SplitSingleLine(s[1..]);
      assert s == [s[0]] + s[1..];
    }
  }

  const FENCE: string := "```"

  /** Drop the first and last lines of a fenced reply that has more than
      two lines: the text is then its first line, the result and its last
      line, joined by newlines. */
  function Unfence(t: string): (u: string)
    ensures |Split(t)| <= 2 ==> u == t
    ensures |Split(t)| > 2 ==> t == Split(t)[0] + "\n" + u + "\n" + Split(t)[|Split(t)| - 1]
  {
    var lines := Split(t);
    if |lines| > 2 then
      var n := |lines|;
      var u := Join(lines[1..n - 1]);
      assert t == lines[0] + "\n" + u + "\n" + lines[n - 1] by {
        JoinSplit(t);
        assert lines[1..] == lines[1..n - 1] + [lines[n - 1]];
        JoinSnoc(lines[1..n - 1], lines[n - 1]);
      }
      u
    else t
  }

  /** Joining one more line appends it after a newline. */
  lemma {:induction false} JoinSnoc(xs: seq<string>, y: string)
    requires |xs| > 0
    ensures Join(xs + [y]) == Join(xs) + "\n" + y
  {
    if |xs| > 1 {
      assert (xs + [y])[1..] == xs[1..] + [y];
      JoinSnoc(xs[1..], y);
    } else {
      assert (xs + [y])[1..] == [y];
    }
  }

  /** The cleaning before `json.loads`: strip, then unwrap a code fence.
      (A "```json" prefix also starts with "```", so the second branch of
      the source is never taken; `FenceJsonBranchDead` records this.) */
  function CleanText(text: string): (r: string)
    ensures |text| == 0 ==> r == ""
    ensures |text| > 0 && !StartsWith(Strip(text), FENCE) ==> r == Strip(text)
    ensures var t := Strip(text);
      |text| > 0 && StartsWith(t, FENCE) && |Split(t)| <= 2 ==> r == t
    ensures var t := Strip(text);
      |text| > 0 && StartsWith(t, FENCE) && |Split(t)| > 2 ==>
        t == Split(t)[0] + "\n" + r + "\n" + Split(t)[|Split(t)| - 1]
  {
    if |text| == 0 then text
    else
      var t := Strip(text);
      if StartsWith(t, FENCE) then Unfence(t) else t
  }

  lemma FenceJsonBranchDead(t: string)
    requires StartsWith(t, "```json")
    ensures StartsWith(t, FENCE)
  {
    assert t[..3] == t[..7][..3];
  }

  /** A reply wrapped as "```tag", newline, body, newline, "```" is
      unwrapped to exactly the body. */
  lemma {:induction false} FencedReplyUnwrapped(tag: string, body: string)
    requires forall i :: 0 <= i < |tag| ==> tag[i] != '\n'
    ensures CleanText(FENCE + tag + "\n" + body + "\n" + FENCE) == body
  {
    var head := FENCE + tag;
    var t := head + "\n" + body + "\n" + FENCE;
    assert forall i :: 0 <= i < |head| ==> head[i] != '\n' by {
      forall i | 0 <= i < |head| ensures head[i] != '\n' {
        if i >= 3 { assert head[i] == tag[i - 3]; }
      }
    }
    StripTrimmed(t);
    assert t[..3] == FENCE;
    assert t == head + "\n" + (body + "\n" + FENCE);
    SplitAtNewline(head, body + "\n" + FENCE);
    SplitAtNewline(body, FENCE);
    SplitSingleLine(head);
    SplitSingleLine(FENCE);
    var lines := Split(t);
    assert lines == [head] + Split(body) + [FENCE];
    assert lines[1..|lines| - 1] == Split(body);
    JoinSplit(body);
  }

  // ---------------------------------------------------------------------
  // The reply record

  datatype Failure =
    | Unavailable                 // no client library or no API key
    | EmptyResponse
    | ParseFailure(detail: string, excerpt: string)
    | Raised                      // any other exception; its message is not modelled

  /** The dict returned. `box` says whether x, y, w, h (all 0) are present;
      `neighbors` and `second` are the optional debug keys. */
  datatype Reply = Reply(
    detected: bool, value: int, confidence: real, box: bool,
    neighbors: Option<seq<int>>, second: Option<int>, error: Option<Failure>)

  /** The record for a missing library or key, and for a caught exception. */
  function FailureWithBox(f: Failure): (r: Reply)
    ensures !r.detected && r.value == 0 && r.confidence == 0.0 && r.box
    ensures r.neighbors.None? && r.second.None? && r.error == Some(f)
  {
    Reply(false, 0, 0.0, true, None, None, Some(f))
  }

  /** The record for an empty reply or a JSON error: no box, empty
      neighbours, runner-up 0. */
  function FailureWithDebug(f: Failure): (r: Reply)
    ensures !r.detected && r.value == 0 && r.confidence == 0.0 && !r.box
    ensures r.neighbors == Some([]) && r.second == Some(0) && r.error == Some(f)
  {
    Reply(false, 0, 0.0, false, Some([]), Some(0), Some(f))
  }

  predicate InDieRange(n: int) { 1 <= n <= 20 }

  /** `isinstance(n, (int, float)) and 1 <= int(n) <= 20` (a bool is an
      int in Python). */
  predicate KeepNeighbour(n: PyVal) {
    (n.PBool? || n.PInt? || n.PFloat?) && InDieRange(NumberToInt(n))
  }

  function NumberToInt(n: PyVal): int
    requires n.PBool? || n.PInt? || n.PFloat?
  {
    match n
    case PBool(b) => if b then 1 else 0
    case PInt(i) => i
    case PFloat(f) => Trunc(f)
  }

  /** The neighbour list comprehension. */
  function KeepNeighbours(items: seq<PyVal>): (ns: seq<int>)
    ensures |ns| <= |items|
    ensures forall k :: 0 <= k < |ns| ==> InDieRange(ns[k])
  {
    if |items| == 0 then []
    else
      var rest := KeepNeighbours(items[1..]);
      if KeepNeighbour(items[0]) then [NumberToInt(items[0])] + rest else rest
  }

  /** A list of in-range integers is kept whole and in order. */
  lemma {:induction false} KeepNeighboursClean(ns: seq<int>)
    requires forall k :: 0 <= k < |ns| ==> InDieRange(ns[k])
    ensures KeepNeighbours(seq(|ns|, k requires 0 <= k < |ns| => PInt(ns[k]))) == ns
  {
    if |ns| > 0 {
      var items := seq(|ns|, k requires 0 <= k < |ns| => PInt(ns[k]));
      assert items[1..] == seq(|ns| - 1, k requires 0 <= k < |ns| - 1 => PInt(ns[1..][k]));
      KeepNeighboursClean(ns[1..]);
      assert ns == [ns[0]] + ns[1..];
    }
  }

  /** Every kept neighbour comes from an entry the filter accepts, and the
      kept values appear in the order of their entries. */
  lemma {:induction false} KeepNeighboursOrdered(items: seq<PyVal>, a: seq<PyVal>, n: PyVal, b: seq<PyVal>)
    requires items == a + [n] + b && KeepNeighbour(n)
    ensures KeepNeighbours(items) == KeepNeighbours(a) + [NumberToInt(n)] + KeepNeighbours(b)
  {
    if |a| == 0 {
      assert items[1..] == b;
    } else {
      assert items[1..] == a[1..] + [n] + b;
      KeepNeighboursOrdered(items[1..], a[1..], n, b);
    }
  }

  /** `neighbors`: a non-list becomes []. */
  function Neighbours(v: PyVal): (ns: seq<int>)
    ensures !v.PList? ==> ns == []
    ensures forall k :: 0 <= k < |ns| ==> InDieRange(ns[k])
  {
    if v.PList? then KeepNeighbours(v.items) else []
  }

  /** The conversions and range checks applied to the parsed reply. */
  function Sanitise(data: PyVal, parseInt: string -> Option<int>, parseFloat: string -> Option<real>)
    : (r: Reply)
    ensures r.detected ==> InDieRange(r.value)
    ensures !InDieRange(r.value) ==> r.value == 0
    ensures r.box
    ensures r.error.None? ==> r.neighbors != Some([]) && r.second != Some(0)
    ensures r.neighbors.Some? ==> forall k :: 0 <= k < |r.neighbors.value| ==> InDieRange(r.neighbors.value[k])
    ensures r.second.Some? ==> InDieRange(r.second.value)
    ensures !data.PDict? ==> r == FailureWithBox(Raised)
    ensures data.PDict? && ConversionRaises(data.entries, parseInt, parseFloat) ==> r == FailureWithBox(Raised)
    ensures data.PDict? && !ConversionRaises(data.entries, parseInt, parseFloat) ==>
      var d := data.entries;
      var v := ToInt(Get(d, "value", PInt(0)), parseInt).v;
      var s := ToInt(Get(d, "second_most_likely", PInt(0)), parseInt).v;
      var ns := Neighbours(Get(d, "neighbors", PList([])));
      && r.error.None?
      && r.value == (if InDieRange(v) then v else 0)
      && (r.detected <==> Truthy(Get(d, "detected", PBool(false))) && InDieRange(v))
      && r.confidence == ToFloat(Get(d, "confidence", PFloat(0.0)), parseFloat).v
      && r.neighbors == (if |ns| > 0 then Some(ns) else None)
      && r.second == (if InDieRange(s) then Some(s) else None)
  {
    if !data.PDict? then FailureWithBox(Raised)
    else
      var d := data.entries;
      var detected := Truthy(Get(d, "detected", PBool(false)));
      var value := ToInt(Get(d, "value", PInt(0)), parseInt);
      var confidence := ToFloat(Get(d, "confidence", PFloat(0.0)), parseFloat);
      var neighbours := Neighbours(Get(d, "neighbors", PList([])));
      var second := ToInt(Get(d, "second_most_likely", PInt(0)), parseInt);
      if value.Raises? || confidence.Raises? || second.Raises? then FailureWithBox(Raised)
      else
        var second' := if InDieRange(second.v) then second.v else 0;
        var inRange := InDieRange(value.v);
        Reply(detected && inRange, if inRange then value.v else 0, confidence.v, true,
              if |neighbours| > 0 then Some(neighbours) else None,
              if second' > 0 then Some(second') else None,
              None)
  }

  /** One of `int(value)`, `float(confidence)`, `int(second_most_likely)`
      raises. */
  predicate ConversionRaises(d: map<string, PyVal>, parseInt: string -> Option<int>,
                             parseFloat: string -> Option<real>) {
    || ToInt(Get(d, "value", PInt(0)), parseInt).Raises?
    || ToFloat(Get(d, "confidence", PFloat(0.0)), parseFloat).Raises?
    || ToInt(Get(d, "second_most_likely", PInt(0)), parseInt).Raises?
  }

  /** The dict `detect_with_chatgpt` returns for a reply without an error:
      the box keys, and the debug keys only when present. */
  function Render(r: Reply): (data: PyVal)
    ensures data.PDict?
  {
    var base := map["detected" := PBool(r.detected), "value" := PInt(r.value),
                    "confidence" := PFloat(r.confidence),
                    "x" := PInt(0), "y" := PInt(0), "w" := PInt(0), "h" := PInt(0)];
    var withNs := if r.neighbors.Some? then base["neighbors" := PList(AsInts(r.neighbors.value))] else base;
    PDict(if r.second.Some? then withNs["second_most_likely" := PInt(r.second.value)] else withNs)
  }

  function AsInts(ns: seq<int>): (items: seq<PyVal>)
    ensures |items| == |ns| && forall k :: 0 <= k < |ns| ==> items[k] == PInt(ns[k])
  {
    seq(|ns|, k requires 0 <= k < |ns| => PInt(ns[k]))
  }

  /** Sanitising is idempotent: a sanitised reply, returned as a dict and
      sanitised again, comes back unchanged. */
  lemma SanitiseIdempotent(data: PyVal, parseInt: string -> Option<int>, parseFloat: string -> Option<real>)
    requires Sanitise(data, parseInt, parseFloat).error.None?
    ensures Sanitise(Render(Sanitise(data, parseInt, parseFloat)), parseInt, parseFloat)
            == Sanitise(data, parseInt, parseFloat)
  {
    var r := Sanitise(data, parseInt, parseFloat);
    var d := Render(r).entries;
    assert Get(d, "detected", PBool(false)) == PBool(r.detected);
    assert Get(d, "value", PInt(0)) == PInt(r.value);
    assert Get(d, "confidence", PFloat(0.0)) == PFloat(r.confidence);
    if r.neighbors.Some? {
      assert Get(d, "neighbors", PList([])) == PList(AsInts(r.neighbors.value));
      KeepNeighboursClean(r.neighbors.value);
    } else {
      assert Get(d, "neighbors", PList([])) == PList([]);
    }
    if r.second.Some? {
      assert Get(d, "second_most_likely", PInt(0)) == PInt(r.second.value);
    } else {
      assert Get(d, "second_most_likely", PInt(0)) == PInt(0);
    }
  }

  /** A well-formed reply is passed through unchanged. */
  lemma SanitiseWellFormed(v: int, c: real, ns: seq<int>, s: int,
                           parseInt: string -> Option<int>, parseFloat: string -> Option<real>)
    requires InDieRange(v) && InDieRange(s) && |ns| > 0
    requires forall k :: 0 <= k < |ns| ==> InDieRange(ns[k])
    ensures var items := seq(|ns|, k requires 0 <= k < |ns| => PInt(ns[k]));
      Sanitise(PDict(map["detected" := PBool(true), "value" := PInt(v), "confidence" := PFloat(c),
                          "neighbors" := PList(items), "second_most_likely" := PInt(s)]),
               parseInt, parseFloat)
        == Reply(true, v, c, true, Some(ns), Some(s), None)
  {
    KeepNeighboursClean(ns);
  }

  // ---------------------------------------------------------------------
  // detect_with_chatgpt after the request

  /** What the API call produced: the reply text, or an exception. */
  datatype ApiOutcome = ApiText(text: string) | ApiRaised

  /** What `json.loads` produced. */
  datatype Parsed = Parsed(value: PyVal) | DecodeError(message: string)

  /** The first 200 characters (`text[:200]`). */
  function Excerpt(text: string): string {
    if |text| <= 200 then text else text[..200]
  }

  /** `detect_with_chatgpt` from the availability check on: the client
      library's presence and the two key variables decide whether a call
      is made; `loads`, `parseInt` and `parseFloat` are Python's parsers. */
  function DetectWithChatGpt(libraryPresent: bool, key: Option<string>, keyDice: Option<string>,
                             outcome: ApiOutcome, loads: string -> Parsed,
                             parseInt: string -> Option<int>, parseFloat: string -> Option<real>)
    : (r: Reply)
    ensures r.detected ==> InDieRange(r.value) && r.error.None?
    ensures r.error.None? ==> r.box
    ensures !libraryPresent ==> r == FailureWithBox(Unavailable)
    ensures (key.None? || key.value == "") && (keyDice.None? || keyDice.value == "") ==>
              r == FailureWithBox(Unavailable)
    ensures libraryPresent && outcome.ApiRaised? && key.Some? && key.value != "" ==> r == FailureWithBox(Raised)
    ensures r.error == Some(EmptyResponse) <==>
              libraryPresent && KeySet(key, keyDice) && outcome.ApiText? && |Strip(CleanText(outcome.text))| == 0
    ensures libraryPresent && KeySet(key, keyDice) && outcome.ApiRaised? ==> r == FailureWithBox(Raised)
    ensures libraryPresent && KeySet(key, keyDice) && outcome.ApiText? && |Strip(CleanText(outcome.text))| == 0 ==>
              r == FailureWithDebug(EmptyResponse)
    ensures libraryPresent && KeySet(key, keyDice) && outcome.ApiText? && |Strip(CleanText(outcome.text))| > 0 ==>
      var text := CleanText(outcome.text);
      && (loads(text).DecodeError? ==> r == FailureWithDebug(ParseFailure(loads(text).message, Excerpt(text))))
      && (loads(text).Parsed? ==> r == Sanitise(loads(text).value, parseInt, parseFloat))
  {
    if !libraryPresent || !KeySet(key, keyDice) then FailureWithBox(Unavailable)
    else if outcome.ApiRaised? then FailureWithBox(Raised)
    else
      var text := CleanText(outcome.text);
      if |text| == 0 || |Strip(text)| == 0 then FailureWithDebug(EmptyResponse)
      else
        match loads(text)
        case DecodeError(msg) => FailureWithDebug(ParseFailure(msg, Excerpt(text)))
        case Parsed(data) => Sanitise(data, parseInt, parseFloat)
  }

  /** `os.environ.get(A) or os.environ.get(B)` is a non-empty string. */
  predicate KeySet(key: Option<string>, keyDice: Option<string>) {
    (key.Some? && key.value != "") || (keyDice.Some? && keyDice.value != "")
  }
}

=== FILE: ints.dfy ===
/** Machine-integer helpers shared by the firmware models: bytes, the clamp
    used by both the detector and the camera service, and the unsigned
    wrap-around of the Arduino millisecond clock. */
module Ints {

  /** An `uint8_t`. */
  type Byte = x: int | 0 <= x < 256

  const U16_LIMIT: int := 0x1_0000
  const U32_LIMIT: int := 0x1_0000_0000

  /** An `unsigned long` on the ESP8266/ESP32 (32 bits). */
  type U32 = x: int | 0 <= x < U32_LIMIT

  function Max(a: int, b: int): int { if a > b then a else b }

  function Min(a: int, b: int): int { if a < b then a else b }

  function Abs(a: int): nat { if a < 0 then -a else a }

  /** `clampi` / `clampCoord`: the lower bound is checked first, so with an
      inverted range (lo > hi) values below lo give lo and all others hi. */
  function Clamp(v: int, lo: int, hi: int): (r: int)
    ensures lo <= hi ==> lo <= r <= hi
    ensures lo <= v <= hi ==> r == v
    ensures hi < lo ==> r == lo || r == hi
  {
    if v < lo then lo else if v > hi then hi else v
  }

  /** Clamping preserves the order of its inputs. */
  lemma ClampMonotone(a: int, b: int, lo: int, hi: int)
    requires a <= b && lo <= hi
    ensures Clamp(a, lo, hi) <= Clamp(b, lo, hi)
  {
  }

  /** `a - b` on `unsigned long`: the difference modulo 2^32. */
  function ElapsedU32(now: U32, since: U32): (d: U32)
    ensures since <= now ==> d == now - since
    ensures now < since ==> d == U32_LIMIT - since + now
  {
    (now - since) % U32_LIMIT
  }

  /** Ceiling division for positive divisors. */
  function CeilDiv(a: nat, b: nat): nat
    requires b > 0
  {
    a / b + (if a % b == 0 then 0 else 1)
  }

  lemma MulLeMono(a: int, b: int, k: nat)
    requires a <= b
    ensures a * k <= b * k
  {
  }

  lemma DivMulLe(a: nat, b: nat)
    requires b > 0
    ensures (a / b) * b <= a
    ensures a < (a / b) * b + b
  {
  }

  /** Quotient and remainder are the only pair with n == q*s + r, 0 <= r < s. */
  lemma DivUnique(n: int, s: int, q: int, r: int)
    requires s > 0 && 0 <= r < s && n == q * s + r
    ensures n / s == q && n % s == r
  {
    var q', r' := n / s, n % s;
    if q' > q {
      MulLeMono(q + 1, q', s);
      assert false;
    } else if q' < q {
      MulLeMono(q' + 1, q, s);
      assert false;
    }
  }

  /** a < b*c gives a/b < c. */
  lemma DivLt(a: nat, b: nat, c: int)
    requires b > 0 && a < b * c
    ensures a / b < c
  {
    DivMulLe(a, b);
    if a / b >= c {
      MulLeMono(c, a / b, b);
      assert false;
    }
  }

  lemma DivShift(a: nat, s: nat)
    requires s >= 1
    ensures (a + s) / s == a / s + 1 && (a + s) % s == a % s
  {
    DivUnique(a + s, s, a / s + 1, a % s);
  }

  /** Division by a positive constant is monotone. */
  lemma DivMono(a: nat, b: nat, d: nat)
    requires a <= b && d > 0
    ensures a / d <= b / d
  {
    DivMulLe(a, d);
    DivMulLe(b, d);
    if a / d > b / d {
      MulLeMono(b / d + 1, a / d, d);
      assert false;
    }
  }
}

=== FILE: js_values.dfy ===
/** JavaScript values as the front-end stores see them: plain data, with
    the truthiness that `||` and `!` use and the nullishness that `??` and
    `?.` use. Objects are compared by content (object identity is not part
    of this model). */
module JsValues {
  import opened Decimal

  datatype Js =
    | Undefined
    | Null
    | JBool(b: bool)
    | JNum(n: real)
    | JStr(s: string)
    | JArr(items: seq<Js>)
    | JObj(fields: map<string, Js>)

  /** A plain object's own properties. */
  type Obj = map<string, Js>

  predicate Nullish(v: Js) { v.Undefined? || v.Null? }

  /** `!!v`: false, 0, "", null and undefined are falsy; objects and arrays
      are always truthy. */
  predicate Truthy(v: Js) {
    match v
    case Undefined => false
    case Null => false
    case JBool(b) => b
    case JNum(n) => n != 0.0
    case JStr(s) => |s| > 0
    case JArr(_) => true
    case JObj(_) => true
  }

  /** `a || b`. */
  function Or(a: Js, b: Js): Js { if Truthy(a) then a else b }

  /** `a ?? b`. */
  function Coalesce(a: Js, b: Js): Js { if Nullish(a) then b else a }

  /** `o.key` on a plain object. */
  function Field(o: Obj, key: string): Js { if key in o then o[key] else Undefined }

  /** `v?.key`: undefined on null or undefined, the property on an object.
      Properties of primitives and arrays (such as `length`) are not part
      of this model. */
  function OptGet(v: Js, key: string): Js {
    if v.JObj? then Field(v.fields, key) else Undefined
  }

  /** The own enumerable properties `...v` copies: an object's fields, a
      string's or array's indices; nothing for other values. */
  function Spread(v: Js): (o: Obj)
    ensures v.JObj? ==> o == v.fields
    ensures !v.JObj? && !v.JStr? && !v.JArr? ==> o == map[]
  {
    match v
    case JObj(fields) => fields
    case JStr(s) => IndexKeys(seq(|s|, k requires 0 <= k < |s| => JStr([s[k]])))
    case JArr(items) => IndexKeys(items)
    case _ => map[]
  }

  /** The index-keyed properties "0", "1", ... of a list. */
  function IndexKeys(items: seq<Js>): (o: Obj)
    ensures forall k :: 0 <= k < |items| ==> ShowNat(k) in o && o[ShowNat(k)] == items[k]
  {
    if |items| == 0 then map[]
    else
      var last := |items| - 1;
      var o := IndexKeys(items[..last]);
      assert forall k :: 0 <= k < last ==> ShowNat(k) != ShowNat(last) by {
        forall k | 0 <= k < last ensures ShowNat(k) != ShowNat(last) {
          if ShowNat(k) == ShowNat(last) { ShowNatInjective(k, last); }
        }
      }
      o[ShowNat(last) := items[last]]
  }

  lemma ShowNatInjective(a: nat, b: nat)
    requires ShowNat(a) == ShowNat(b)
    ensures a == b
  {
    ParseShowNat(a);
    ParseShowNat(b);
  }

  /** `Date.now()` and `new Date().toISOString()` at one moment. */
  datatype Stamp = Stamp(ms: nat, iso: string)

  /** `Date.now().toString()`. */
  function NowId(t: Stamp): Js { JStr(ShowNat(t.ms)) }

  // ---------------------------------------------------------------------
  // Lists of records

  /** Whether record `o` has `o[key] === v`. */
  predicate Matches(o: Obj, key: string, v: Js) { Field(o, key) == v }

  /** `xs.findIndex(o => o[key] === v)`. */
  function FindIndex(xs: seq<Obj>, key: string, v: Js): (i: int)
    ensures -1 <= i < |xs|
    ensures i >= 0 ==> Matches(xs[i], key, v)
    ensures forall j :: 0 <= j < |xs| && (i < 0 || j < i) ==> !Matches(xs[j], key, v)
  {
    if |xs| == 0 then -1
    else if Matches(xs[0], key, v) then 0
    else
      var i := FindIndex(xs[1..], key, v);
      if i < 0 then -1 else i + 1
  }

  /** With no match, `findIndex` gives -1. */
  lemma NoMatchNotFound(xs: seq<Obj>, key: string, v: Js)
    requires forall j :: 0 <= j < |xs| ==> !Matches(xs[j], key, v)
    ensures FindIndex(xs, key, v) == -1
  {
  }

  /** A record appended after records that miss is the first match. */
  lemma {:induction false} FindAfterMisses(xs: seq<Obj>, o: Obj, key: string, v: Js)
    requires forall j :: 0 <= j < |xs| ==> !Matches(xs[j], key, v)
    requires Matches(o, key, v)
    ensures FindIndex(xs + [o], key, v) == |xs|
  {
    if |xs| > 0 {
      assert (xs + [o])[1..] == xs[1..] + [o];
      FindAfterMisses(xs[1..], o, key, v);
    }
  }

  /** `splice(i, 1)` at the first match, if any. */
  function RemoveFirst(xs: seq<Obj>, key: string, v: Js): (r: seq<Obj>)
    ensures FindIndex(xs, key, v) < 0 ==> r == xs
    ensures FindIndex(xs, key, v) >= 0 ==>
      var i := FindIndex(xs, key, v);
      |r| == |xs| - 1 && r[..i] == xs[..i] && r[i..] == xs[i + 1..]
  {
    var i := FindIndex(xs, key, v);
    if i < 0 then xs else xs[..i] + xs[i + 1..]
  }

  /** `Object.assign(xs.find(o => o[key] === v), updates)` on the first
      match, if any. */
  function UpdateFirst(xs: seq<Obj>, key: string, v: Js, updates: Obj): (r: seq<Obj>)
    ensures |r| == |xs|
    ensures FindIndex(xs, key, v) < 0 ==> r == xs
    ensures forall j :: 0 <= j < |xs| && j != FindIndex(xs, key, v) ==> r[j] == xs[j]
    ensures FindIndex(xs, key, v) >= 0 ==> r[FindIndex(xs, key, v)] == xs[FindIndex(xs, key, v)] + updates
  {
    var i := FindIndex(xs, key, v);
    if i < 0 then xs else xs[i := xs[i] + updates]
  }
}

=== FILE: led_strip.dfy ===
/** The breathing purple effect on the WS2813 strip driven by the NodeMCU:
    a phase counter advanced every 8 ms, folded into a triangle wave and
    squared for a gentle in-out brightness curve. */
module LedStrip {
  import opened Ints
  import opened Frame

  const DEFAULT_PIXELS: nat := 8
  const PHASE_MAX: nat := 1024
  const UPDATE_INTERVAL_MS: nat := 8

  type U16 = x: int | 0 <= x < U16_LIMIT

  /** `easedBrightness`, with the source's unsigned arithmetic written out:
      `1024 - phase` is taken modulo 2^16 and the result cut to eight bits.
      On a phase up to 1024 neither wraps: the level is the square curve of
      the folded phase. */
  function EasedBrightness(phase: U16): (b: Byte)
    ensures phase <= PHASE_MAX ==> b == Square255(Triangle(phase) * 255 / 512)
  {
    var tri := if phase <= 512 then phase else (1024 - phase) % U16_LIMIT;
    var level := Square255(tri * 255 / 512);
    assert phase <= PHASE_MAX ==> level % 256 == Square255(Triangle(phase) * 255 / 512) by {
      if phase <= PHASE_MAX {
        LevelFits(phase);
      }
    }
    level % 256
  }

  /** On a phase up to 1024 the unsigned fold is the triangle, and its
      square curve fits in eight bits. */
  lemma LevelFits(p: nat)
    requires p <= PHASE_MAX
    ensures (if p <= 512 then p else (1024 - p) % U16_LIMIT) == Triangle(p)
    ensures Square255(Triangle(p) * 255 / 512) <= 255
  {
    var t := Triangle(p);
    var x := t * 255 / 512;
    MulLeMono(t, 512, 255);
    DivMono(t * 255, 512 * 255, 512);
    Square255Bounded(x);
  }

  /** The folded phase: rises to 512 and falls back to 0 at 1024. */
  function Triangle(phase: nat): (t: nat)
    requires phase <= PHASE_MAX
    ensures t <= 512 && t <= phase && t <= PHASE_MAX - phase
  {
    if phase <= 512 then phase else 1024 - phase
  }

  lemma TriangleSymmetric(p: nat)
    requires p <= PHASE_MAX
    ensures Triangle(p) == Triangle(PHASE_MAX - p)
  {
  }

  /** Within one period the level is the square curve of the triangle,
      at most 255, so the eight-bit cut loses nothing. */
  lemma EasedUnwrapped(p: nat)
    requires p <= PHASE_MAX
    ensures EasedBrightness(p) == Square255(Triangle(p) * 255 / 512) <= 255
  {
    LevelFits(p);
  }

  /** x²/255, the gamma-like curve, for a level x in 0..255. */
  function Square255(x: nat): nat { x * x / 255 }

  lemma Square255Bounded(x: nat)
    requires x <= 255
    ensures Square255(x) <= 255
  {
    MulLeMono(x, 255, x);
    MulLeMono(x, 255, 255);
    DivMono(x * x, 255 * 255, 255);
  }

  /** The curve is dark at phase 0 and at full brightness half-way. */
  lemma EasedEnds()
    ensures EasedBrightness(0) == 0
    ensures EasedBrightness(512) == 255
    ensures EasedBrightness(1024) == 0
  {
  }

  /** Falling mirrors rising: phase p and 1024 - p give the same level. */
  lemma EasedSymmetric(p: nat)
    requires p <= PHASE_MAX
    ensures EasedBrightness(p) == EasedBrightness(PHASE_MAX - p)
  {
    EasedUnwrapped(p);
    EasedUnwrapped(PHASE_MAX - p);
    TriangleSymmetric(p);
  }

  /** Brightness never decreases on the rising half. */
  lemma {:induction false} EasedMonotone(p: nat, q: nat)
    requires p <= q <= 512
    ensures EasedBrightness(p) <= EasedBrightness(q)
  {
    var xp, xq := p * 255 / 512, q * 255 / 512;
    MulLeMono(p, q, 255);
    DivMono(p * 255, q * 255, 512);
    MulLeMono(q, 512, 255);
    DivMono(q * 255, 512 * 255, 512);
    Square255Bounded(xp);
    Square255Bounded(xq);
    MulLeMono(xp, xq, xp);
    MulLeMono(xp, xq, xq);
    DivMono(xp * xp, xq * xq, 255);
    EasedUnwrapped(p);
    EasedUnwrapped(q);
  }

  // ---------------------------------------------------------------------
  // Strip state

  /** The module's statics and the driver's pixel buffer. `pixels` holds
      the colours passed to `setPixelColor`, before the driver scales them
      by the global brightness of 32 set at setup. */
  datatype Strip = Strip(numPixels: U16, phase: U16, lastUpdate: U32, pixels: seq<Rgb>)

  /** The state before setup: eight pixels, phase 0, no update yet. */
  function Initial(): (s: Strip)
    ensures ValidPhase(s) && |s.pixels| == s.numPixels
  {
    Strip(DEFAULT_PIXELS, 0, 0, Off(DEFAULT_PIXELS))
  }

  function Off(n: nat): (px: seq<Rgb>)
    ensures |px| == n && forall i :: 0 <= i < n ==> px[i] == Rgb(0, 0, 0)
  {
    seq(n, _ => Rgb(0, 0, 0))
  }

  /** The phase is one of the even steps of a period. */
  predicate ValidPhase(s: Strip) {
    s.phase < PHASE_MAX && s.phase % 2 == 0
  }

  /** `ledStripSetup`: a zero count keeps the previous one; every pixel is
      switched off. */
  function Setup(s: Strip, numPixels: U16): (t: Strip)
    ensures numPixels > 0 ==> t.numPixels == numPixels
    ensures numPixels == 0 ==> t.numPixels == s.numPixels
    ensures |t.pixels| == t.numPixels
    ensures forall i :: 0 <= i < |t.pixels| ==> t.pixels[i] == Rgb(0, 0, 0)
    ensures t.phase == s.phase && t.lastUpdate == s.lastUpdate
  {
    var n := if numPixels > 0 then numPixels else s.numPixels;
    s.(numPixels := n, pixels := Off(n))
  }

  /** The purple shade at breathing level b: red 160·b/255, no green,
      blue b (the 16-bit products never overflow). */
  function Purple(b: Byte): (c: Rgb)
    ensures c.r <= 160 && c.r * 255 <= 160 * b < (c.r + 1) * 255
    ensures c.g == 0 && c.b == b
  {
    ScaleByte(b, 160);
    ScaleByte(b, 255);
    Rgb((160 * b % U16_LIMIT) / 255, 0, (255 * b % U16_LIMIT) / 255)
  }

  /** k·b/255 in 16-bit arithmetic: the product never wraps, so the
      quotient is the floor of k·b/255, at most k, and b itself for k = 255. */
  lemma ScaleByte(b: Byte, k: int)
    requires 0 <= k <= 255
    ensures (k * b % U16_LIMIT) / 255 <= k
    ensures ((k * b % U16_LIMIT) / 255) * 255 <= k * b < ((k * b % U16_LIMIT) / 255 + 1) * 255
    ensures k == 255 ==> (k * b % U16_LIMIT) / 255 == b
  {
    var p := k * b;
    MulLeMono(b, 255, k);
    assert p < U16_LIMIT;
    DivUnique(p, U16_LIMIT, 0, p);
    DivMono(p, k * 255, 255);
    DivUnique(k * 255, 255, k, 0);
    DivMulLe(p, 255);
    if k == 255 {
      DivUnique(p, 255, b, 0);
    }
  }

  /** An even phase below 1024 stays so after a step. */
  lemma PhaseStep(p: nat)
    requires p < PHASE_MAX && p % 2 == 0
    ensures (p + 2) % PHASE_MAX < PHASE_MAX && ((p + 2) % PHASE_MAX) % 2 == 0
  {
    DivUnique(p, 2, p / 2, 0);
    if p + 2 < PHASE_MAX {
      DivUnique(p + 2, PHASE_MAX, 0, p + 2);
      DivUnique(p + 2, 2, p / 2 + 1, 0);
    } else {
      DivUnique(p + 2, PHASE_MAX, 1, 0);
    }
  }

  lemma PhaseStepIfValid(s: Strip)
    ensures ValidPhase(s) ==> ValidPhase(s.(phase := (s.phase + 2) % PHASE_MAX))
  {
    if ValidPhase(s) { PhaseStep(s.phase); }
  }

  /** `ledStripLoop`: nothing happens until 8 ms have passed (measured
      modulo 2^32); then the phase advances by two and every pixel gets the
      new shade. */
  function Loop(s: Strip, now: U32): (t: Strip)
    ensures ElapsedU32(now, s.lastUpdate) < UPDATE_INTERVAL_MS ==> t == s
    ensures ElapsedU32(now, s.lastUpdate) >= UPDATE_INTERVAL_MS ==>
      t.lastUpdate == now && t.phase == (s.phase + 2) % PHASE_MAX && t.numPixels == s.numPixels &&
      |t.pixels| == s.numPixels &&
      forall i :: 0 <= i < |t.pixels| ==> t.pixels[i] == Purple(EasedBrightness(t.phase))
    ensures ValidPhase(s) ==> ValidPhase(t)
  {
    if ElapsedU32(now, s.lastUpdate) < UPDATE_INTERVAL_MS then s
    else
      var phase := (s.phase + 2) % PHASE_MAX;
      PhaseStepIfValid(s);
      var c := Purple(EasedBrightness(phase));
      Strip(s.numPixels, phase, now, seq(s.numPixels, _ => c))
  }

  /** Phase after k updates. */
  function Advance(phase: U16, k: nat): U16 {
    if k == 0 then phase else (Advance(phase, k - 1) + 2) % PHASE_MAX
  }

  /** The phase counts in steps of two modulo 1024, so the breath repeats
      every 512 updates (about four seconds at 8 ms). */
  lemma {:induction false} AdvanceClosed(phase: U16, k: nat)
    requires phase < PHASE_MAX
    ensures Advance(phase, k) == (phase + 2 * k) % PHASE_MAX
  {
    if k > 0 {
      AdvanceClosed(phase, k - 1);
      var a := phase + 2 * (k - 1);
      DivUnique(a, PHASE_MAX, a / PHASE_MAX, a % PHASE_MAX);
      var r := a % PHASE_MAX + 2;
      if r < PHASE_MAX {
        DivUnique(a + 2, PHASE_MAX, a / PHASE_MAX, r);
      } else {
        DivUnique(a + 2, PHASE_MAX, a / PHASE_MAX + 1, r - PHASE_MAX);
      }
    }
  }

  lemma BreathPeriod(phase: U16)
    requires phase < PHASE_MAX
    ensures Advance(phase, 512) == phase
  {
    AdvanceClosed(phase, 512);
    DivShift(phase, PHASE_MAX);
  }
}

=== FILE: map_store.dfy ===
/** The map store: the battle map on show, the tokens on it and the grid
    settings. */
module MapStore {
  import opened Wrappers
  import opened JsValues

  /** The grid settings before any are chosen or loaded. */
  const DEFAULT_SETTINGS: Obj := map["gridSize" := JNum(50.0), "showGrid" := JBool(true), "gridOpacity" := JNum(0.3)]

  const ORIGIN: Js := JObj(map["x" := JNum(0.0), "y" := JNum(0.0)])
  const TOKEN_SIZE: Js := JObj(map["width" := JNum(40.0), "height" := JNum(40.0)])

  datatype MapState = MapState(currentMap: Js, tokens: seq<Obj>, settings: Obj)

  function Initial(): MapState { MapState(Null, [], DEFAULT_SETTINGS) }

  /** `setMap`. */
  function SetMap(st: MapState, mapData: Js): (st': MapState)
    ensures st'.currentMap == mapData && st'.tokens == st.tokens && st'.settings == st.settings
  {
    st.(currentMap := mapData)
  }

  /** The token `addToken` builds: the input's properties over a generated
      id, then the fixed start position and size. */
  function NewToken(token: Js, t: Stamp): (o: Obj)
    ensures Field(o, "position") == ORIGIN && Field(o, "size") == TOKEN_SIZE
    ensures "id" in Spread(token) ==> Field(o, "id") == Spread(token)["id"]
    ensures "id" !in Spread(token) ==> Field(o, "id") == NowId(t)
    ensures forall k :: k in Spread(token) && k != "position" && k != "size" ==> Field(o, k) == Spread(token)[k]
  {
    (map["id" := NowId(t)] + Spread(token))["position" := ORIGIN]["size" := TOKEN_SIZE]
  }

  /** `addToken`: one token appended at the origin with size 40 × 40. */
  function AddToken(st: MapState, token: Js, t: Stamp): (r: (MapState, Obj))
    ensures r.0.tokens == st.tokens + [r.1] && r.1 == NewToken(token, t)
    ensures r.0.currentMap == st.currentMap && r.0.settings == st.settings
  {
    var o := NewToken(token, t);
    (st.(tokens := st.tokens + [o]), o)
  }

  /** `removeToken`. */
  function RemoveToken(st: MapState, id: Js): (st': MapState)
    ensures st'.tokens == RemoveFirst(st.tokens, "id", id)
    ensures st'.currentMap == st.currentMap && st'.settings == st.settings
  {
    st.(tokens := RemoveFirst(st.tokens, "id", id))
  }

  /** Removing a freshly added token, whose id no earlier token has,
      restores the token list. */
  lemma RemoveUndoesAdd(st: MapState, token: Js, t: Stamp)
    requires var id := Field(NewToken(token, t), "id");
      forall j :: 0 <= j < |st.tokens| ==> !Matches(st.tokens[j], "id", id)
    ensures var (st', o) := AddToken(st, token, t);
      RemoveToken(st', Field(o, "id")) == st
  {
    var o := NewToken(token, t);
    FindAfterMisses(st.tokens, o, "id", Field(o, "id"));
    assert (st.tokens + [o])[..|st.tokens|] == st.tokens;
  }

  /** `token[key] = value` on the first token with that id; no token, no
      change. */
  function SetTokenField(st: MapState, id: Js, key: string, value: Js): (st': MapState)
    ensures |st'.tokens| == |st.tokens|
    ensures forall j :: 0 <= j < |st.tokens| && j != FindIndex(st.tokens, "id", id) ==> st'.tokens[j] == st.tokens[j]
    ensures var i := FindIndex(st.tokens, "id", id);
      i >= 0 ==> st'.tokens[i] == st.tokens[i][key := value]
    ensures st'.currentMap == st.currentMap && st'.settings == st.settings
  {
    st.(tokens := UpdateFirst(st.tokens, "id", id, map[key := value]))
  }

  /** `updateTokenPosition`. */
  function UpdateTokenPosition(st: MapState, id: Js, position: Js): MapState {
    SetTokenField(st, id, "position", position)
  }

  /** `updateTokenSize`. */
  function UpdateTokenSize(st: MapState, id: Js, size: Js): MapState {
    SetTokenField(st, id, "size", size)
  }

  /** Moving a token does not resize it, and resizing does not move it. */
  lemma MoveKeepsSize(st: MapState, id: Js, position: Js)
    requires FindIndex(st.tokens, "id", id) >= 0
    ensures var i := FindIndex(st.tokens, "id", id);
      Field(UpdateTokenPosition(st, id, position).tokens[i], "size") == Field(st.tokens[i], "size") &&
      Field(UpdateTokenPosition(st, id, position).tokens[i], "position") == position
  {
  }

  lemma ResizeKeepsPosition(st: MapState, id: Js, size: Js)
    requires FindIndex(st.tokens, "id", id) >= 0
    ensures var i := FindIndex(st.tokens, "id", id);
      Field(UpdateTokenSize(st, id, size).tokens[i], "position") == Field(st.tokens[i], "position") &&
      Field(UpdateTokenSize(st, id, size).tokens[i], "size") == size
  {
  }

  /** `clearTokens`. */
  function ClearTokens(st: MapState): (st': MapState)
    ensures st'.tokens == [] && st'.currentMap == st.currentMap && st'.settings == st.settings
  {
    st.(tokens := [])
  }

  /** `updateMapSettings`: `Object.assign` overwrites the given keys only. */
  function UpdateMapSettings(st: MapState, settings: Js): (st': MapState)
    ensures forall k :: k in Spread(settings) ==> k in st'.settings && st'.settings[k] == Spread(settings)[k]
    ensures forall k :: k in st.settings && k !in Spread(settings) ==> k in st'.settings && st'.settings[k] == st.settings[k]
    ensures st'.settings.Keys == st.settings.Keys + Spread(settings).Keys
    ensures st'.tokens == st.tokens && st'.currentMap == st.currentMap
  {
    st.(settings := st.settings + Spread(settings))
  }

  /** `loadFromLocalStorage`: the stored map replaces the state, with []
      for missing tokens and the default grid for missing settings. Nothing
      happens without stored data, on a parse error (`parse` is
      `JSON.parse`), or when the data is null (reading its fields throws
      and the error is caught). The loaded fields are kept as raw values. */
  datatype Loaded = Loaded(currentMap: Js, tokens: Js, settings: Js) | Unchanged

  function LoadFromLocalStorage(saved: Option<string>, parse: string -> Option<Js>): (r: Loaded)
    ensures saved.None? || saved == Some("") ==> r.Unchanged?
    ensures r.Loaded? ==> Truthy(r.tokens) && Truthy(r.settings)
    ensures saved.Some? && saved.value != "" && parse(saved.value).Some? && !Nullish(parse(saved.value).value) ==>
      var data := parse(saved.value).value;
      r.Loaded? && r.currentMap == OptGet(data, "currentMap") &&
      (Truthy(OptGet(data, "tokens")) ==> r.tokens == OptGet(data, "tokens")) &&
      (!Truthy(OptGet(data, "tokens")) ==> r.tokens == JArr([])) &&
      (Truthy(OptGet(data, "mapSettings")) ==> r.settings == OptGet(data, "mapSettings")) &&
      (!Truthy(OptGet(data, "mapSettings")) ==> r.settings == JObj(DEFAULT_SETTINGS))
    ensures r.Unchanged? && saved.Some? && saved.value != "" ==>
              parse(saved.value).None? || Nullish(parse(saved.value).value)
  {
    if saved.None? || saved.value == "" then Unchanged
    else match parse(saved.value)
      case None => Unchanged
      case Some(data) =>
        if Nullish(data) then Unchanged
        else Loaded(OptGet(data, "currentMap"),
                    Or(OptGet(data, "tokens"), JArr([])),
                    Or(OptGet(data, "mapSettings"), JObj(DEFAULT_SETTINGS)))
  }
}

=== FILE: monster_store.dfy ===
/** The monster store: the bestiary list and the DM's current selection.
    Persistence to local storage is not part of this model. */
module MonsterStore {
  import opened Wrappers
  import opened JsValues

  datatype Monsters = Monsters(monsters: seq<Obj>, selected: seq<Obj>)

  /** `monsterCount` and `selectedCount`. */
  function MonsterCount(st: Monsters): nat { |st.monsters| }
  function SelectedCount(st: Monsters): nat { |st.selected| }

  /** The record `addMonster` builds: a generated id that the input's own
      properties override, and a creation time that they do not. */
  function NewMonster(monster: Js, t: Stamp): (m: Obj)
    ensures Field(m, "createdAt") == JStr(t.iso)
    ensures "id" in Spread(monster) ==> Field(m, "id") == Spread(monster)["id"]
    ensures "id" !in Spread(monster) ==> Field(m, "id") == NowId(t)
    ensures forall k :: k in Spread(monster) && k != "createdAt" ==> Field(m, k) == Spread(monster)[k]
  {
    (map["id" := NowId(t)] + Spread(monster))["createdAt" := JStr(t.iso)]
  }

  /** `addMonster`: exactly one record appended. */
  function AddMonster(st: Monsters, monster: Js, t: Stamp): (r: (Monsters, Obj))
    ensures r.0.monsters == st.monsters + [r.1] && r.0.selected == st.selected
    ensures r.1 == NewMonster(monster, t)
    ensures MonsterCount(r.0) == MonsterCount(st) + 1
  {
    var m := NewMonster(monster, t);
    (st.(monsters := st.monsters + [m]), m)
  }

  /** `removeMonster`: the first record with that id leaves both lists. */
  function RemoveMonster(st: Monsters, id: Js): (st': Monsters)
    ensures st'.monsters == RemoveFirst(st.monsters, "id", id)
    ensures st'.selected == RemoveFirst(st.selected, "id", id)
  {
    Monsters(RemoveFirst(st.monsters, "id", id), RemoveFirst(st.selected, "id", id))
  }

  /** Removing an id nobody has changes nothing. */
  lemma RemoveUnknownMonster(st: Monsters, id: Js)
    requires forall j :: 0 <= j < |st.monsters| ==> !Matches(st.monsters[j], "id", id)
    requires forall j :: 0 <= j < |st.selected| ==> !Matches(st.selected[j], "id", id)
    ensures RemoveMonster(st, id) == st
  {
    NoMatchNotFound(st.monsters, "id", id);
    NoMatchNotFound(st.selected, "id", id);
  }

  /** `updateMonster`: merges into the first record with that id. */
  function UpdateMonster(st: Monsters, id: Js, updates: Obj): (st': Monsters)
    ensures st'.selected == st.selected && |st'.monsters| == |st.monsters|
    ensures st'.monsters == UpdateFirst(st.monsters, "id", id, updates)
  {
    st.(monsters := UpdateFirst(st.monsters, "id", id, updates))
  }

  /** Whether some selected record has the monster's id. */
  predicate IsSelected(selected: seq<Obj>, id: Js) {
    exists j :: 0 <= j < |selected| && Matches(selected[j], "id", id)
  }

  /** `selectMonster`: appended unless a record with its id is selected. */
  function SelectMonster(st: Monsters, monster: Obj): (st': Monsters)
    ensures st'.monsters == st.monsters
    ensures IsSelected(st.selected, Field(monster, "id")) ==> st' == st
    ensures !IsSelected(st.selected, Field(monster, "id")) ==> st'.selected == st.selected + [monster]
    ensures IsSelected(st'.selected, Field(monster, "id"))
  {
    var id := Field(monster, "id");
    if FindIndex(st.selected, "id", id) >= 0 then st
    else
      assert !IsSelected(st.selected, id);
      var st' := st.(selected := st.selected + [monster]);
      assert Matches(st'.selected[|st.selected|], "id", id);
      st'
  }

  /** No two selected records share an id. */
  predicate DistinctIds(selected: seq<Obj>) {
    forall i, j :: 0 <= i < j < |selected| ==> Field(selected[i], "id") != Field(selected[j], "id")
  }

  /** Selecting twice is selecting once, and selection never duplicates
      an id. */
  lemma SelectIdempotent(st: Monsters, monster: Obj)
    ensures SelectMonster(SelectMonster(st, monster), monster) == SelectMonster(st, monster)
    ensures DistinctIds(st.selected) ==> DistinctIds(SelectMonster(st, monster).selected)
  {
  }

  /** `deselectMonster`: the first selected record with that id leaves. */
  function DeselectMonster(st: Monsters, id: Js): (st': Monsters)
    ensures st'.monsters == st.monsters
    ensures st'.selected == RemoveFirst(st.selected, "id", id)
  {
    st.(selected := RemoveFirst(st.selected, "id", id))
  }

  /** Deselecting undoes a selection that added the monster. */
  lemma DeselectUndoesSelect(st: Monsters, monster: Obj)
    requires !IsSelected(st.selected, Field(monster, "id"))
    ensures DeselectMonster(SelectMonster(st, monster), Field(monster, "id")) == st
  {
    var id := Field(monster, "id");
    var xs := st.selected + [monster];
    NoMatchNotFound(st.selected, "id", id);
    FindAfterMisses(st.selected, monster, "id", id);
    assert xs[..|st.selected|] == st.selected;
  }

  /** `clearSelected`. */
  function ClearSelected(st: Monsters): (st': Monsters)
    ensures st'.selected == [] && st'.monsters == st.monsters
  {
    st.(selected := [])
  }

  /** The two counts follow the actions: adding and importing grow the
      list, removing an existing id shrinks both lists by one where it is
      found, selecting adds one only when the id is not yet selected, and
      clearing empties the selection. */
  lemma CountsTrackActions(st: Monsters, monster: Js, t: Stamp, id: Js, m: Obj)
    ensures MonsterCount(AddMonster(st, monster, t).0) == MonsterCount(st) + 1
    ensures SelectedCount(AddMonster(st, monster, t).0) == SelectedCount(st)
    ensures MonsterCount(RemoveMonster(st, id)) ==
              MonsterCount(st) - (if FindIndex(st.monsters, "id", id) >= 0 then 1 else 0)
    ensures SelectedCount(RemoveMonster(st, id)) ==
              SelectedCount(st) - (if FindIndex(st.selected, "id", id) >= 0 then 1 else 0)
    ensures SelectedCount(SelectMonster(st, m)) ==
              SelectedCount(st) + (if IsSelected(st.selected, Field(m, "id")) then 0 else 1)
    ensures SelectedCount(DeselectMonster(st, id)) ==
              SelectedCount(st) - (if FindIndex(st.selected, "id", id) >= 0 then 1 else 0)
    ensures SelectedCount(ClearSelected(st)) == 0 && MonsterCount(ClearSelected(st)) == MonsterCount(st)
  {
  }

  /** The outcome `importMonsters` reports. */
  datatype ImportResult = Imported(count: nat) | ImportFailed

  /** The records an import adds: an array's elements, or the one value. */
  function ImportItems(data: Js): (items: seq<Js>)
    ensures data.JArr? ==> items == data.items
    ensures !data.JArr? ==> items == [data]
  {
    if data.JArr? then data.items else [data]
  }

  /** `monstersArray.forEach(addMonster)`; `clock(k)` is the time of the
      k-th addition. */
  function AddEach(st: Monsters, items: seq<Js>, clock: nat -> Stamp, k: nat): Monsters
    decreases |items|
  {
    if |items| == 0 then st
    else AddEach(AddMonster(st, items[0], clock(k)).0, items[1..], clock, k + 1)
  }

  /** The records for `items` added from the k-th addition on. */
  function NewMonsters(items: seq<Js>, clock: nat -> Stamp, k: nat): (ms: seq<Obj>)
    ensures |ms| == |items|
    ensures forall j :: 0 <= j < |items| ==> ms[j] == NewMonster(items[j], clock(k + j))
  {
    seq(|items|, j requires 0 <= j < |items| => NewMonster(items[j], clock(k + j)))
  }

  lemma NewMonstersShift(items: seq<Js>, clock: nat -> Stamp, k: nat)
    requires |items| > 0
    ensures NewMonsters(items, clock, k) == [NewMonster(items[0], clock(k))] + NewMonsters(items[1..], clock, k + 1)
  {
    var rest := NewMonsters(items[1..], clock, k + 1);
    var all := NewMonsters(items, clock, k);
    forall j | 0 <= j < |rest| ensures rest[j] == all[j + 1] {
      assert items[1..][j] == items[j + 1];
      assert rest[j] == NewMonster(items[j + 1], clock(k + 1 + j));
      assert all[j + 1] == NewMonster(items[j + 1], clock(k + (j + 1)));
      assert k + 1 + j == k + (j + 1);
    }
    assert all == [all[0]] + rest;
  }

  /** Adding each item in turn appends their records in order, touching
      nothing else. */
  lemma {:induction false} AddEachAppends(st: Monsters, items: seq<Js>, clock: nat -> Stamp, k: nat)
    ensures AddEach(st, items, clock, k) == st.(monsters := st.monsters + NewMonsters(items, clock, k))
    decreases |items|
  {
    if |items| > 0 {
      var next := AddMonster(st, items[0], clock(k));
      AddEachAppends(next.0, items[1..], clock, k + 1);
      NewMonstersShift(items, clock, k);
      AppendInTwo(st, next.0, next.1, NewMonsters(items[1..], clock, k + 1));
    }
  }

  /** Appending `x` and then `rest` is appending `[x] + rest`. */
  lemma AppendInTwo(st: Monsters, next: Monsters, x: Obj, rest: seq<Obj>)
    requires next.monsters == st.monsters + [x] && next.selected == st.selected
    ensures next.(monsters := next.monsters + rest) == st.(monsters := st.monsters + ([x] + rest))
  {
    assert (st.monsters + [x]) + rest == st.monsters + ([x] + rest);
  }

  /** `importMonsters`: a string is parsed first (`parse` is `JSON.parse`,
      None when it throws); every item is added and the count reported. */
  function ImportMonsters(st: Monsters, monsterData: Js, parse: string -> Option<Js>, clock: nat -> Stamp)
    : (r: (Monsters, ImportResult))
    ensures r.1.ImportFailed? <==> monsterData.JStr? && parse(monsterData.s).None?
    ensures r.1.ImportFailed? ==> r.0 == st
    ensures r.1.Imported? ==> r.0.selected == st.selected && |r.0.monsters| == |st.monsters| + r.1.count
    ensures r.1.Imported? ==> r.0.monsters[..|st.monsters|] == st.monsters
    ensures r.1.Imported? && monsterData.JArr? ==> r.1.count == |monsterData.items|
    ensures r.1.Imported? && !monsterData.JStr? && !monsterData.JArr? ==> r.1.count == 1
    ensures r.1.Imported? ==>
      var data := if monsterData.JStr? then parse(monsterData.s).value else monsterData;
      r.0 == st.(monsters := st.monsters + NewMonsters(ImportItems(data), clock, 0)) &&
      r.1.count == |ImportItems(data)|
  {
    var data := if monsterData.JStr? then parse(monsterData.s) else Some(monsterData);
    if data.None? then (st, ImportFailed)
    else
      var items := ImportItems(data.value);
      AddEachAppends(st, items, clock, 0);
      (AddEach(st, items, clock, 0), Imported(|items|))
  }
}

=== FILE: nodemcu_sketch.dfy ===
/** The NodeMCU sketch: the blink API of the standalone sketch plus direct
    LED control, LED-strip switches and modes, and the access-point
    switch, with a watchdog in `loop` that brings the access point back. */
module NodeMcuSketch {
  import opened Ints
  import BlinkSketch

  const AP_CHECK_INTERVAL_MS: nat := 5000

  /** `LedStripMode`. */
  datatype StripMode = Glow | Chase | Solid

  /** The Wi-Fi radio mode; the access point runs in `Ap` and `ApSta`. */
  datatype WifiMode = WifiOff | Sta | Ap | ApSta

  predicate ApEnabled(m: WifiMode) { m == Ap || m == ApSta }

  /** The sketch's statics. `apOffByApi` records an explicit switch-off
      through `/ap/toggle`; only the corrected watchdog reads it. */
  datatype Node = Node(led: BlinkSketch.Board, stripEnabled: bool, mode: StripMode,
                       wifi: WifiMode, apOffByApi: bool, lastApCheck: U32)

  /** The state once `setup` has run: not blinking, LED dark, strip on,
      access point only. The strip driver's starting mode is not part of
      this model, so it is a parameter. */
  function Boot(mode: StripMode): (n: Node)
    ensures !n.led.blinkEnabled && !n.led.ledOn && n.stripEnabled && n.wifi == Ap
    ensures PinMirrors(n)
  {
    Node(BlinkSketch.Board(false, 0, false, true), true, mode, Ap, false, 0)
  }

  /** The active-low pin always shows the logical LED state. */
  predicate PinMirrors(n: Node) { n.led.pinHigh == !n.led.ledOn }

  datatype Route =
    | BlinkOn | BlinkOff | BlinkToggle | Status
    | StripOn | StripOff | StripToggle | ModeToggle | ModeGlow | StripBlink | StripSolid
    | LedOn | LedOff
    | ApToggle(action: string)  // "" when the argument is absent
    | NotFound

  datatype Reply = Reply(code: int, body: string)

  function StatusBody(n: Node): string {
    "{\"blinking\":" + BlinkSketch.JsonBool(n.led.blinkEnabled) +
    ",\"ledOn\":" + BlinkSketch.JsonBool(n.led.ledOn) +
    ",\"strip\":" + BlinkSketch.JsonBool(n.stripEnabled) + "}"
  }

  /** `/strip/mode/toggle`: glow goes to chase, anything else to glow. */
  function NextMode(m: StripMode): (m': StripMode)
    ensures m == Glow <==> m' == Chase
    ensures m' != Solid
  {
    if m == Glow then Chase else Glow
  }

  function ModeName(m: StripMode): string {
    if m == Glow then "glow" else "chase"
  }

  /** Two mode toggles return to glow or chase, never to solid. */
  lemma ModeToggleTwice(m: StripMode)
    ensures NextMode(NextMode(m)) == (if m == Solid then Chase else m)
  {
  }

  /** Whether `/ap/toggle?action=...` changes the radio mode: "off" while
      the access point runs, "on" while it does not. */
  predicate ApSwitches(n: Node, action: string) {
    (action == "off" && ApEnabled(n.wifi)) || (action == "on" && !ApEnabled(n.wifi))
  }

  /** The handlers of the routes this model covers. */
  function Handle(n: Node, route: Route): (r: (Node, Reply))
    ensures route.NotFound? ==> r == (n, Reply(404, "Not Found"))
    ensures !route.NotFound? ==> r.1.code == 200
    ensures route in {BlinkOn, BlinkOff, BlinkToggle} ==>
      r.0 == n.(led := BlinkSketch.Handle(n.led, RouteOfBlink(route)).0)
    ensures route in {Status, StripBlink} ==> r.0 == n
    ensures route == LedOn ==> r.0 == n.(led := n.led.(blinkEnabled := false, ledOn := true, pinHigh := false))
    ensures route == LedOff ==> r.0 == n.(led := n.led.(blinkEnabled := false, ledOn := false, pinHigh := true))
    ensures route in {StripOn, StripSolid} ==> r.0 == n.(stripEnabled := true)
    ensures route == StripOff ==> r.0 == n.(stripEnabled := false)
    ensures route == StripToggle ==> r.0 == n.(stripEnabled := !n.stripEnabled)
    ensures route == ModeToggle ==> r.0 == n.(mode := NextMode(n.mode))
    ensures route == ModeGlow ==> r.0 == n.(mode := Glow)
    ensures route.ApToggle? ==> r.0.led == n.led && r.0.stripEnabled == n.stripEnabled && r.0.mode == n.mode
    ensures route == Status ==> r.1.body == StatusBody(n)
    ensures route.ApToggle? && route.action == "off" && ApEnabled(n.wifi) ==> r.0.wifi == Sta
    ensures route.ApToggle? && route.action == "on" && !ApEnabled(n.wifi) ==> r.0.wifi == ApSta
    ensures route.ApToggle? && !ApSwitches(n, route.action) ==> r.0 == n
    ensures route.ApToggle? ==> ApEnabled(r.0.wifi) == !r.0.apOffByApi || r.0.wifi == n.wifi
    ensures r.0.lastApCheck == n.lastApCheck && r.0.led.lastToggleMs == n.led.lastToggleMs
    ensures PinMirrors(n) ==> PinMirrors(r.0)
  {
    match route
    case BlinkOn => BlinkRoute(n, BlinkSketch.BlinkOn)
    case BlinkOff => BlinkRoute(n, BlinkSketch.BlinkOff)
    case BlinkToggle => BlinkRoute(n, BlinkSketch.BlinkToggle)
    case Status => (n, Reply(200, StatusBody(n)))
    case StripOn => (n.(stripEnabled := true), Reply(200, "{\"ok\":true,\"strip\":true}"))
    case StripOff => (n.(stripEnabled := false), Reply(200, "{\"ok\":true,\"strip\":false}"))
    case StripToggle =>
      var on := !n.stripEnabled;
      (n.(stripEnabled := on), Reply(200, "{\"ok\":true,\"strip\":" + BlinkSketch.JsonBool(on) + "}"))
    case ModeToggle =>
      var next := NextMode(n.mode);
      (n.(mode := next), Reply(200, "{\"ok\":true,\"mode\":\"" + ModeName(next) + "\"}"))
    case ModeGlow => (n.(mode := Glow), Reply(200, "{\"ok\":true,\"mode\":\"glow\"}"))
    case StripBlink => (n, Reply(200, "{\"ok\":true}"))
    case StripSolid => (n.(stripEnabled := true), Reply(200, "{\"ok\":true,\"strip\":true}"))
    case LedOn =>
      (n.(led := n.led.(blinkEnabled := false, ledOn := true, pinHigh := false)),
       Reply(200, "{\"ok\":true,\"led\":true}"))
    case LedOff =>
      (n.(led := n.led.(blinkEnabled := false, ledOn := false, pinHigh := true)),
       Reply(200, "{\"ok\":true,\"led\":false}"))
    case ApToggle(action) =>
      var enabled := ApEnabled(n.wifi);
      if action == "off" && enabled then
        (n.(wifi := Sta, apOffByApi := true), Reply(200, "{\"ok\":true,\"ap\":false}"))
      else if action == "on" && !enabled then
        (n.(wifi := ApSta, apOffByApi := false), Reply(200, "{\"ok\":true,\"ap\":true}"))
      else
        (n, Reply(200, "{\"ok\":true,\"ap\":" + BlinkSketch.JsonBool(enabled) + "}"))
    case NotFound => (n, Reply(404, "Not Found"))
  }

  /** The blink routes share the standalone sketch's handlers. */
  function RouteOfBlink(route: Route): BlinkSketch.Route
    requires route in {BlinkOn, BlinkOff, BlinkToggle}
  {
    match route
    case BlinkOn => BlinkSketch.BlinkOn
    case BlinkOff => BlinkSketch.BlinkOff
    case BlinkToggle => BlinkSketch.BlinkToggle
  }

  function BlinkRoute(n: Node, route: BlinkSketch.Route): (r: (Node, Reply))
    ensures r.0 == n.(led := BlinkSketch.Handle(n.led, route).0)
    ensures r.1.code == 200
  {
    var (led, reply) := BlinkSketch.Handle(n.led, route);
    (n.(led := led), Reply(reply.code, reply.body))
  }

  // ---------------------------------------------------------------------
  // loop

  /** The access-point watchdog as written: every 5 s, an access point that
      is off (or has no address) is switched back on in AP-only mode,
      including one switched off through `/ap/toggle`. */
  function WatchdogAsWritten(n: Node, now: U32, apIpLost: bool): (n': Node)
    ensures ElapsedU32(now, n.lastApCheck) <= AP_CHECK_INTERVAL_MS ==> n' == n
    ensures ElapsedU32(now, n.lastApCheck) > AP_CHECK_INTERVAL_MS ==>
      n'.lastApCheck == now && ApEnabled(n'.wifi)
  {
    if ElapsedU32(now, n.lastApCheck) <= AP_CHECK_INTERVAL_MS then n
    else if !ApEnabled(n.wifi) || apIpLost then n.(lastApCheck := now, wifi := Ap)
    else n.(lastApCheck := now)
  }

  /** Switching the access point off through the API lasts only until the
      next watchdog check. */
  lemma ApOffUndoneAsWritten(n: Node, now: U32, apIpLost: bool)
    requires ApEnabled(n.wifi)
    requires ElapsedU32(now, n.lastApCheck) > AP_CHECK_INTERVAL_MS
    ensures var off := Handle(n, ApToggle("off")).0;
      !ApEnabled(off.wifi) && ApEnabled(WatchdogAsWritten(off, now, apIpLost).wifi)
  {
  }

  /** The watchdog with the exception its comment describes: an access
      point switched off through the API stays off. */
  function Watchdog(n: Node, now: U32, apIpLost: bool): (n': Node)
    ensures n'.apOffByApi == n.apOffByApi && n'.led == n.led && n'.stripEnabled == n.stripEnabled
    ensures n.apOffByApi ==> n'.wifi == n.wifi
    ensures !n.apOffByApi ==> n' == WatchdogAsWritten(n, now, apIpLost)
  {
    if ElapsedU32(now, n.lastApCheck) <= AP_CHECK_INTERVAL_MS then n
    else if !n.apOffByApi && (!ApEnabled(n.wifi) || apIpLost) then n.(lastApCheck := now, wifi := Ap)
    else n.(lastApCheck := now)
  }

  /** One pass of `loop` as written: the watchdog, then the blinker of the
      standalone sketch. `apIpLost` says whether the access point reports
      no address. */
  function Loop(n: Node, now: U32, apIpLost: bool): (n': Node)
    ensures n'.led == BlinkSketch.Loop(n.led, now)
    ensures n'.stripEnabled == n.stripEnabled && n'.mode == n.mode && n'.apOffByApi == n.apOffByApi
    ensures ElapsedU32(now, n.lastApCheck) > AP_CHECK_INTERVAL_MS ==> ApEnabled(n'.wifi)
    ensures ElapsedU32(now, n.lastApCheck) <= AP_CHECK_INTERVAL_MS ==> n'.wifi == n.wifi
    ensures PinMirrors(n) ==> PinMirrors(n')
  {
    var w := WatchdogAsWritten(n, now, apIpLost);
    w.(led := BlinkSketch.Loop(w.led, now))
  }

  /** One pass of `loop` with the corrected watchdog. */
  function CorrectedLoop(n: Node, now: U32, apIpLost: bool): (n': Node)
    ensures n'.led == BlinkSketch.Loop(n.led, now)
    ensures n'.stripEnabled == n.stripEnabled && n'.mode == n.mode && n'.apOffByApi == n.apOffByApi
    ensures n.apOffByApi ==> n'.wifi == n.wifi
    ensures !n.apOffByApi ==> n' == Loop(n, now, apIpLost)
    ensures PinMirrors(n) ==> PinMirrors(n')
  {
    var w := Watchdog(n, now, apIpLost);
    w.(led := BlinkSketch.Loop(w.led, now))
  }

  datatype Event = Request(route: Route) | Tick(now: U32, apIpLost: bool)

  /** One event; `corrected` selects the loop pass with the corrected
      watchdog instead of the one as written. */
  function Step(n: Node, e: Event, corrected: bool): Node {
    match e
    case Request(route) => Handle(n, route).0
    case Tick(now, lost) => if corrected then CorrectedLoop(n, now, lost) else Loop(n, now, lost)
  }

  function Run(n: Node, events: seq<Event>, corrected: bool): Node
    decreases |events|
  {
    if |events| == 0 then n else Run(Step(n, events[0], corrected), events[1..], corrected)
  }

  /** Whatever happens, the pin shows the LED state, with either watchdog. */
  lemma {:induction false} RunPinMirrors(n: Node, events: seq<Event>, corrected: bool)
    requires PinMirrors(n)
    ensures PinMirrors(Run(n, events, corrected))
    decreases |events|
  {
    if |events| > 0 {
      var n' := Step(n, events[0], corrected);
      assert PinMirrors(n') by {
        match events[0]
        case Request(route) =>
        case Tick(now, lost) =>
      }
      RunPinMirrors(n', events[1..], corrected);
    }
  }

  /** As written, a pass of `loop` more than 5 s after the last check
      brings back an access point switched off through `/ap/toggle`. */
  lemma ApOffUndoneByLoop(n: Node, now: U32, apIpLost: bool)
    requires ApEnabled(n.wifi)
    requires ElapsedU32(now, n.lastApCheck) > AP_CHECK_INTERVAL_MS
    ensures var off := Step(n, Request(ApToggle("off")), false);
      !ApEnabled(off.wifi) && off.apOffByApi &&
      ApEnabled(Run(n, [Request(ApToggle("off")), Tick(now, apIpLost)], false).wifi)
  {
    var off := Step(n, Request(ApToggle("off")), false);
    assert Run(off, [Tick(now, apIpLost)], false) == Loop(off, now, apIpLost);
    assert [Request(ApToggle("off")), Tick(now, apIpLost)][1..] == [Tick(now, apIpLost)];
  }

  /** With the corrected watchdog, only requests to the API change the
      access point once it has been switched off through `/ap/toggle`:
      passes of `loop` keep it off. */
  lemma {:induction false} ApOffStaysOff(n: Node, ticks: seq<Event>)
    requires n.apOffByApi && !ApEnabled(n.wifi)
    requires forall k :: 0 <= k < |ticks| ==> ticks[k].Tick?
    ensures !ApEnabled(Run(n, ticks, true).wifi) && Run(n, ticks, true).apOffByApi
    decreases |ticks|
  {
    if |ticks| > 0 {
      var n' := Step(n, ticks[0], true);
      ApOffStaysOff(n', ticks[1..]);
    }
  }

  /** A LED switched on directly stays on through any passes of `loop`,
      with either watchdog. */
  lemma {:induction false} ManualLedHolds(n: Node, ticks: seq<Event>, corrected: bool)
    requires !n.led.blinkEnabled
    requires forall k :: 0 <= k < |ticks| ==> ticks[k].Tick?
    ensures Run(n, ticks, corrected).led == n.led
    decreases |ticks|
  {
    if |ticks| > 0 {
      ManualLedHolds(Step(n, ticks[0], corrected), ticks[1..], corrected);
    }
  }
}

=== FILE: overlay.dfy ===
/** The camera firmware's drawing helpers: a one-pixel rectangle outline,
    a 5x7 bitmap digit scaled by an integer factor, and a numeric label.
    Each is specified by the picture it produces: which pixels take the
    pen colour, every other pixel keeping its old value. */
module Overlay {
  import opened Ints
  import opened Frame
  import Decimal

  // ---------------------------------------------------------------------
  // Pixels

  /** The image with pixel (x, y) set to `c`. */
  function Paint(img: Image, x: int, y: int, c: Rgb): (out: Image)
    requires 0 <= y < |img| && 0 <= x < |img[y]|
    ensures |out| == |img| && forall r :: 0 <= r < |img| ==> |out[r]| == |img[r]|
    ensures out[y][x] == c
    ensures forall r, q :: 0 <= r < |img| && 0 <= q < |img[r]| && (r != y || q != x) ==> out[r][q] == img[r][q]
  {
    img[y := img[y][x := c]]
  }

  // ---------------------------------------------------------------------
  // drawRectRGB

  /** Pixel (px, py) lies on the outline with corners (x1, y1), (x2, y2):
      on the top or bottom row within the columns, or on the left or right
      column within the rows. */
  predicate OnOutline(px: int, py: int, x1: int, y1: int, x2: int, y2: int) {
    ((py == y1 || py == y2) && x1 <= px <= x2) || ((px == x1 || px == x2) && y1 <= py <= y2)
  }

  /** The outline drawn for the request (x, y, bw, bh) on a w x h image:
      both corners are clamped into the image. */
  predicate OnRect(px: int, py: int, w: int, h: int, x: int, y: int, bw: int, bh: int) {
    && bw > 0 && bh > 0
    && OnOutline(px, py, Clamp(x, 0, w - 1), Clamp(y, 0, h - 1),
                 Clamp(x + bw - 1, 0, w - 1), Clamp(y + bh - 1, 0, h - 1))
  }

  /** `drawRectRGB`: the outline takes the colour, nothing else changes; a
      request with a non-positive side draws nothing. The image must have at
      least one pixel (on an empty image the clamp yields -1 and the code
      writes out of bounds). */
  method DrawRect(img: Image, w: int, h: int, x: int, y: int, bw: int, bh: int, c: Rgb)
    returns (out: Image)
    requires IsFrame(img, w, h) && w >= 1 && h >= 1
    ensures IsFrame(out, w, h)
    ensures forall py, px :: 0 <= py < h && 0 <= px < w ==>
              out[py][px] == if OnRect(px, py, w, h, x, y, bw, bh) then c else img[py][px]
  {
    out := img;
    if bw <= 0 || bh <= 0 {
      return;
    }
    var x1 := Clamp(x, 0, w - 1);
    var y1 := Clamp(y, 0, h - 1);
    var x2 := Clamp(x + bw - 1, 0, w - 1);
    var y2 := Clamp(y + bh - 1, 0, h - 1);
    ClampMonotone(x, x + bw - 1, 0, w - 1);
    ClampMonotone(y, y + bh - 1, 0, h - 1);
    var i := x1;
    while i <= x2
      invariant x1 <= i <= x2 + 1
      invariant IsFrame(out, w, h)
      invariant forall py, px :: 0 <= py < h && 0 <= px < w ==>
                  out[py][px] == if (py == y1 || py == y2) && x1 <= px < i then c else img[py][px]
    {
      out := Paint(out, i, y1, c);
      out := Paint(out, i, y2, c);
      i := i + 1;
    }
    var j := y1;
    while j <= y2
      invariant y1 <= j <= y2 + 1
      invariant IsFrame(out, w, h)
      invariant forall py, px :: 0 <= py < h && 0 <= px < w ==>
                  out[py][px] == if ((py == y1 || py == y2) && x1 <= px <= x2)
                                    || ((px == x1 || px == x2) && y1 <= py < j) then c else img[py][px]
    {
      out := Paint(out, x1, j, c);
      out := Paint(out, x2, j, c);
      j := j + 1;
    }
  }

  /** A request lying inside the image is drawn exactly: the outline has
      corners (x, y) and (x + bw - 1, y + bh - 1). */
  lemma RectInsideIsExact(w: int, h: int, x: int, y: int, bw: int, bh: int, px: int, py: int)
    requires bw > 0 && bh > 0 && 0 <= x && x + bw <= w && 0 <= y && y + bh <= h
    ensures OnRect(px, py, w, h, x, y, bw, bh) <==> OnOutline(px, py, x, y, x + bw - 1, y + bh - 1)
  {
  }

  // ---------------------------------------------------------------------
  // drawDigitScaled

  /** `kDigitFont5x7` of the camera firmware: seven rows per digit, bit 4
      is the leftmost column. */
  const Font: seq<seq<int>> := [
    [0x0E, 0x11, 0x13, 0x15, 0x19, 0x11, 0x0E],
    [0x04, 0x0C, 0x04, 0x04, 0x04, 0x04, 0x0E],
    [0x0E, 0x11, 0x01, 0x02, 0x04, 0x08, 0x1F],
    [0x0E, 0x11, 0x01, 0x06, 0x01, 0x11, 0x0E],
    [0x02, 0x06, 0x0A, 0x12, 0x1F, 0x02, 0x02],
    [0x1F, 0x10, 0x1E, 0x01, 0x01, 0x11, 0x0E],
    [0x07, 0x08, 0x10, 0x1E, 0x11, 0x11, 0x0E],
    [0x1F, 0x01, 0x02, 0x04, 0x08, 0x08, 0x08],
    [0x0E, 0x11, 0x11, 0x0E, 0x11, 0x11, 0x0E],
    [0x0E, 0x11, 0x11, 0x0F, 0x01, 0x02, 0x1C]
  ]

  function Pow2(k: int): int
    requires 0 <= k < 5
  {
    [1, 2, 4, 8, 16][k]
  }

  /** `bits & (1 << k)` is non-zero. */
  predicate Bit(bits: int, k: int)
    requires 0 <= bits && 0 <= k < 5
  {
    (bits / Pow2(k)) % 2 == 1
  }

  /** Font cell (row, col) of digit d is set. */
  predicate FontBit(d: int, row: int, col: int)
    requires 0 <= d < 10 && 0 <= row < 7 && 0 <= col < 5
  {
    Bit(Font[d][row], 4 - col)
  }

  /** The pixel at offset (dx, dy) from the glyph's top-left corner is
      inked when digit d is drawn at the given scale: it lies within the
      5*scale x 7*scale glyph and the font cell holding it is set. */
  predicate Inked(d: int, scale: int, dx: int, dy: int) {
    && 0 <= d <= 9 && scale > 0
    && 0 <= dx < 5 * scale && 0 <= dy < 7 * scale
    && FontBit(d, dy / scale, dx / scale)
  }

  /** Pixel (px, py) lies in the s x s block whose corner is (left, top). */
  predicate InBlock(px: int, py: int, left: int, top: int, s: int) {
    left <= px < left + s && top <= py < top + s
  }

  /** One font cell: the s x s block at (left, top), clipped to the image. */
  method FillBlock(img: Image, w: int, h: int, left: int, top: int, s: int, c: Rgb)
    returns (out: Image)
    requires IsFrame(img, w, h)
    ensures IsFrame(out, w, h)
    ensures forall py, px :: 0 <= py < h && 0 <= px < w ==>
              out[py][px] == if InBlock(px, py, left, top, s) then c else img[py][px]
  {
    out := img;
    var sy := 0;
    while sy < s
      invariant 0 <= sy && (s > 0 ==> sy <= s)
      invariant IsFrame(out, w, h)
      invariant forall py, px :: 0 <= py < h && 0 <= px < w ==>
                  out[py][px] == if left <= px < left + s && top <= py < top + sy then c else img[py][px]
    {
      var sx := 0;
      while sx < s
        invariant 0 <= sx <= s
        invariant IsFrame(out, w, h)
        invariant forall py, px :: 0 <= py < h && 0 <= px < w ==>
                    out[py][px] == if (left <= px < left + s && top <= py < top + sy)
                                      || (py == top + sy && left <= px < left + sx) then c else img[py][px]
      {
        var px := left + sx;
        var py := top + sy;
        if 0 <= px < w && 0 <= py < h {
          out := Paint(out, px, py, c);
        }
        sx := sx + 1;
      }
      sy := sy + 1;
    }
  }

  /** Offset dx falls in cell k of size s exactly when dx / s == k. */
  lemma CellOf(dx: int, s: int, k: int)
    requires s > 0 && k >= 0
    ensures k * s <= dx < k * s + s <==> dx >= 0 && dx / s == k
  {
    if k * s <= dx < k * s + s {
      DivUnique(dx, s, k, dx - k * s);
    }
    if dx >= 0 && dx / s == k {
      DivMulLe(dx, s);
    }
  }

  /** The cells drawn before (row, col) in row-major order. */
  predicate InkedBefore(d: int, s: int, dx: int, dy: int, row: int, col: int) {
    Inked(d, s, dx, dy) && (dy / s < row || (dy / s == row && dx / s < col))
  }

  /** Drawing the block of cell (row, col) when its bit is set extends the
      drawn cells by that one cell. */
  lemma CellStep(d: int, s: int, dx: int, dy: int, row: int, col: int)
    requires 0 <= d <= 9 && s > 0 && 0 <= row < 7 && 0 <= col < 5
    ensures InkedBefore(d, s, dx, dy, row, col + 1) <==>
              InkedBefore(d, s, dx, dy, row, col)
              || (InBlock(dx, dy, col * s, row * s, s) && FontBit(d, row, col))
  {
    CellOf(dx, s, col);
    CellOf(dy, s, row);
    MulLeMono(col + 1, 5, s);
    MulLeMono(row + 1, 7, s);
    if dx >= 0 && dx / s < 5 {
      DivMulLe(dx, s);
      MulLeMono(dx / s + 1, 5, s);
    }
    if dy >= 0 && dy / s < 7 {
      DivMulLe(dy, s);
      MulLeMono(dy / s + 1, 7, s);
    }
    if 0 <= dx < 5 * s {
      DivLt(dx, s, 5);
    }
    if 0 <= dy < 7 * s {
      DivLt(dy, s, 7);
    }
  }

  /** Past the last column of a row, the drawn cells are those of the rows
      above the next one. */
  lemma RowStep(d: int, s: int, dx: int, dy: int, row: int)
    requires s > 0
    ensures InkedBefore(d, s, dx, dy, row, 5) <==> InkedBefore(d, s, dx, dy, row + 1, 0)
  {
    if 0 <= dx < 5 * s {
      DivLt(dx, s, 5);
    }
  }

  /** After all seven rows every inked pixel is drawn. */
  lemma AllRows(d: int, s: int, dx: int, dy: int)
    requires s > 0
    ensures InkedBefore(d, s, dx, dy, 7, 0) <==> Inked(d, s, dx, dy)
  {
    if 0 <= dy < 7 * s {
      DivLt(dy, s, 7);
    }
  }

  /** `drawDigitScaled`: the pixels of the scaled glyph that fall inside
      the image take the colour; a digit outside 0..9 or a scale below 1
      draws nothing. */
  method DrawDigitScaled(img: Image, w: int, h: int, x: int, y: int, digit: int, c: Rgb, scale: int)
    returns (out: Image)
    requires IsFrame(img, w, h)
    ensures IsFrame(out, w, h)
    ensures forall py, px :: 0 <= py < h && 0 <= px < w ==>
              out[py][px] == if Inked(digit, scale, px - x, py - y) then c else img[py][px]
  {
    out := img;
    if digit < 0 || digit > 9 || scale <= 0 {
      return;
    }
    var row := 0;
    while row < 7
      invariant 0 <= row <= 7
      invariant IsFrame(out, w, h)
      invariant forall py, px :: 0 <= py < h && 0 <= px < w ==>
                  out[py][px] == if InkedBefore(digit, scale, px - x, py - y, row, 0) then c else img[py][px]
    {
      var bits := Font[digit][row];
      var col := 0;
      while col < 5
        invariant 0 <= col <= 5
        invariant IsFrame(out, w, h)
        invariant forall py, px :: 0 <= py < h && 0 <= px < w ==>
                    out[py][px] == if InkedBefore(digit, scale, px - x, py - y, row, col) then c else img[py][px]
      {
        ghost var before := out;
        if Bit(bits, 4 - col) {
          out := FillBlock(out, w, h, x + col * scale, y + row * scale, scale, c);
        }
        forall py, px | 0 <= py < h && 0 <= px < w
          ensures out[py][px] == if InkedBefore(digit, scale, px - x, py - y, row, col + 1) then c else img[py][px]
        {
          CellStep(digit, scale, px - x, py - y, row, col);
        }
        col := col + 1;
      }
      forall py, px | 0 <= py < h && 0 <= px < w
        ensures out[py][px] == if InkedBefore(digit, scale, px - x, py - y, row + 1, 0) then c else img[py][px]
      {
        RowStep(digit, scale, px - x, py - y, row);
      }
      row := row + 1;
    }
    forall py, px | 0 <= py < h && 0 <= px < w
      ensures out[py][px] == if Inked(digit, scale, px - x, py - y) then c else img[py][px]
    {
      AllRows(digit, scale, px - x, py - y);
    }
  }

  // ---------------------------------------------------------------------
  // drawValueLabel

  /** The label text: "d20-" for -1, the decimal value otherwise. */
  function LabelText(value: int): (text: string)
    ensures 1 <= |text|
    ensures value >= 0 ==> forall i :: 0 <= i < |text| ==> Decimal.IsDigit(text[i])
  {
    if value == -1 then "d20-" else Decimal.Show(value)
  }

  /** Glyph j of the label, drawn 6*scale pixels right of glyph j-1, inks
      the pixel at offset (dx, dy) from the label's origin. Characters
      other than digits ink nothing. */
  predicate GlyphInk(text: string, s: int, j: int, dx: int, dy: int) {
    0 <= j < |text| && Inked(text[j] as int - '0' as int, s, dx - j * (6 * s), dy)
  }

  /** The label inks the pixel at offset (dx, dy) through one of its first
      k glyphs (the glyph slot holding dx is dx / (6*scale)). */
  predicate LabelInkBefore(text: string, s: int, dx: int, dy: int, k: int) {
    s > 0 && dx >= 0 && dx / (6 * s) < k && GlyphInk(text, s, dx / (6 * s), dx, dy)
  }

  predicate LabelInk(text: string, s: int, dx: int, dy: int) {
    LabelInkBefore(text, s, dx, dy, |text|)
  }

  /** Glyphs never overlap: a pixel inked by glyph j lies in slot j. */
  lemma GlyphSlot(text: string, s: int, j: int, dx: int, dy: int)
    requires s > 0 && GlyphInk(text, s, j, dx, dy)
    ensures dx >= 0 && dx / (6 * s) == j
  {
    DivUnique(dx, 6 * s, j, dx - j * (6 * s));
  }

  lemma GlyphStep(text: string, s: int, i: int, dx: int, dy: int)
    requires s > 0 && 0 <= i < |text|
    ensures LabelInkBefore(text, s, dx, dy, i + 1) <==>
              LabelInkBefore(text, s, dx, dy, i) || GlyphInk(text, s, i, dx, dy)
  {
    if GlyphInk(text, s, i, dx, dy) {
      GlyphSlot(text, s, i, dx, dy);
    }
  }

  /** Glyphs from slot k on start at or beyond offset `room`, so a pixel
      left of `room` is inked by the label only through the first k glyphs. */
  lemma SkippedGlyphsOutside(text: string, s: int, dx: int, dy: int, k: int, room: int)
    requires 0 <= k && k * (6 * s) >= room && dx < room
    ensures LabelInkBefore(text, s, dx, dy, k) <==> LabelInk(text, s, dx, dy)
  {
    if s > 0 && dx >= 0 {
      DivLt(dx, 6 * s, k);
    }
  }

  /** `drawValueLabel`: the label's glyphs take the colour where they fall
      inside the image. The loop stops once the cursor passes the right
      edge; every glyph it skips would start at or beyond that edge, so the
      picture is the whole label clipped to the image. */
  method DrawValueLabel(img: Image, w: int, h: int, x: int, y: int, value: int, c: Rgb, scale: int)
    returns (out: Image)
    requires IsFrame(img, w, h)
    ensures IsFrame(out, w, h)
    ensures forall py, px :: 0 <= py < h && 0 <= px < w ==>
              out[py][px] == if LabelInk(LabelText(value), scale, px - x, py - y) then c else img[py][px]
  {
    var text := LabelText(value);
    var digitWidth := 5 * scale;
    var spacing := scale;
    var cursorX := x;
    out := img;
    var i := 0;
    while i < |text|
      invariant 0 <= i <= |text|
      invariant cursorX == x + i * (6 * scale)
      invariant IsFrame(out, w, h)
      invariant forall py, px :: 0 <= py < h && 0 <= px < w ==>
                  out[py][px] == if LabelInkBefore(text, scale, px - x, py - y, i) then c else img[py][px]
    {
      var d := text[i] as int - '0' as int;
      var prev := out;
      out := DrawDigitScaled(out, w, h, cursorX, y, d, c, scale);
      LabelStep(img, prev, out, w, h, x, y, text, c, scale, i);
      cursorX := cursorX + digitWidth + spacing;
      assert (i + 1) * (6 * scale) == i * (6 * scale) + 6 * scale;
      i := i + 1;
      if cursorX >= w {
        LabelClipped(img, out, w, h, x, y, text, c, scale, i);
        return;
      }
    }
  }

  /** Drawing glyph i over the first i glyphs gives the first i + 1. */
  lemma LabelStep(img: Image, prev: Image, next: Image, w: int, h: int, x: int, y: int,
                  text: string, c: Rgb, scale: int, i: int)
    requires 0 <= i < |text| && IsFrame(img, w, h) && IsFrame(prev, w, h) && IsFrame(next, w, h)
    requires forall py, px :: 0 <= py < h && 0 <= px < w ==>
               prev[py][px] == if LabelInkBefore(text, scale, px - x, py - y, i) then c else img[py][px]
    requires forall py, px :: 0 <= py < h && 0 <= px < w ==>
               next[py][px] == if Inked(text[i] as int - '0' as int, scale, px - (x + i * (6 * scale)), py - y)
                               then c else prev[py][px]
    ensures forall py, px :: 0 <= py < h && 0 <= px < w ==>
              next[py][px] == if LabelInkBefore(text, scale, px - x, py - y, i + 1) then c else img[py][px]
  {
    forall py, px | 0 <= py < h && 0 <= px < w
      ensures next[py][px] == if LabelInkBefore(text, scale, px - x, py - y, i + 1) then c else img[py][px]
    {
      assert px - (x + i * (6 * scale)) == (px - x) - i * (6 * scale);
      if scale > 0 {
        GlyphStep(text, scale, i, px - x, py - y);
      }
    }
  }

  /** Once glyph k would start at or past the right edge, the first k
      glyphs are the whole label as far as the image shows. */
  lemma LabelClipped(img: Image, out: Image, w: int, h: int, x: int, y: int,
                     text: string, c: Rgb, scale: int, k: int)
    requires 0 <= k && x + k * (6 * scale) >= w && IsFrame(img, w, h) && IsFrame(out, w, h)
    requires forall py, px :: 0 <= py < h && 0 <= px < w ==>
               out[py][px] == if LabelInkBefore(text, scale, px - x, py - y, k) then c else img[py][px]
    ensures forall py, px :: 0 <= py < h && 0 <= px < w ==>
              out[py][px] == if LabelInk(text, scale, px - x, py - y) then c else img[py][px]
  {
    forall py, px | 0 <= py < h && 0 <= px < w
      ensures out[py][px] == if LabelInk(text, scale, px - x, py - y) then c else img[py][px]
    {
      SkippedGlyphsOutside(text, scale, px - x, py - y, k, w - x);
    }
  }

  /** The label of a non-negative value is its decimal digits, which read
      back as the value. */
  lemma LabelRoundTrip(value: int)
    requires value >= 0
    ensures Decimal.ParseNat(LabelText(value)) == value
  {
    Decimal.ParseShowNat(value);
  }
}

=== FILE: roll_broadcast.dfy ===
/** The roll-broadcast store: the DM's screen announces a roll in progress
    and its result; the player screen follows over a WebSocket. The HTTP
    posts and the socket itself are not part of this model. */
module RollBroadcast {
  import opened Wrappers
  import opened Text
  import opened Decimal
  import opened JsValues

  const DETECT: string := "/detect"
  const DETECT_BEST: string := "/detect/best"

  /** One trailing '/' removed. */
  function DropSlash(u: string): (v: string)
    ensures v == u || (EndsWith(u, "/") && u == v + "/")
    ensures EndsWith(u, "/") ==> u == v + "/"
    ensures !EndsWith(u, "/") ==> v == u
  {
    if EndsWith(u, "/") then u[..|u| - 1] else u
  }

  /** `baseUrl`: the server URL without a trailing "/detect" or
      "/detect/best", then without one trailing '/'. */
  function BaseUrl(serverUrl: string): (b: string)
    ensures |b| <= |serverUrl| && b == serverUrl[..|b|]
    ensures EndsWith(serverUrl, "/") ==> serverUrl == b + "/"
    ensures !EndsWith(serverUrl, "/") && !EndsWith(serverUrl, DETECT) && !EndsWith(serverUrl, DETECT_BEST) ==>
              b == serverUrl
  {
    assert EndsWith(serverUrl, "/") ==> !EndsWith(serverUrl, DETECT) && !EndsWith(serverUrl, DETECT_BEST) by {
      if EndsWith(serverUrl, "/") {
        assert serverUrl[|serverUrl| - 1] == '/';
        assert DETECT[|DETECT| - 1] == 't' && DETECT_BEST[|DETECT_BEST| - 1] == 't';
      }
    }
    var u := if EndsWith(serverUrl, DETECT_BEST) then serverUrl[..|serverUrl| - |DETECT_BEST|]
             else if EndsWith(serverUrl, DETECT) then serverUrl[..|serverUrl| - |DETECT|]
             else serverUrl;
    DropSlash(u)
  }

  lemma EndsWithAppended(u: string, suffix: string)
    ensures EndsWith(u + suffix, suffix) && (u + suffix)[..|u|] == u
  {
    assert (u + suffix)[|u|..] == suffix;
  }

  /** Either detection endpoint of a server gives that server's base. */
  lemma BaseUrlOfEndpoint(u: string)
    ensures BaseUrl(u + DETECT) == DropSlash(u)
    ensures BaseUrl(u + DETECT_BEST) == DropSlash(u)
  {
    EndsWithAppended(u, DETECT);
    EndsWithAppended(u, DETECT_BEST);
    var d := u + DETECT;
    assert !EndsWith(d, DETECT_BEST) by {
      assert d[|d| - 1] == 't';
      assert d[|d| - 2] == 'c';
      assert DETECT_BEST[|DETECT_BEST| - 2] == 's';
    }
  }

  /** A URL ending in '/' names no endpoint, so its base is the URL
      without that '/'. */
  lemma BaseUrlTrailingSlash(u: string)
    ensures BaseUrl(u + "/") == u
  {
    assert (u + "/")[|u|..] == "/";
  }

  /** A URL without a trailing '/' or endpoint is its own base. */
  lemma BaseUrlPlain(u: string)
    requires !EndsWith(u, "/") && !EndsWith(u, DETECT) && !EndsWith(u, DETECT_BEST)
    ensures BaseUrl(u) == u
  {
  }

  /** `wsUrl`: empty without a base; otherwise a leading "http" becomes
      "ws" and "/ws/roll" is appended. */
  function WsUrl(base: string): (w: string)
    ensures w == "" <==> base == ""
    ensures base != "" ==> EndsWith(w, "/ws/roll")
  {
    if base == "" then ""
    else
      var scheme := if StartsWith(base, "http") then "ws" + base[4..] else base;
      assert (scheme + "/ws/roll")[|scheme|..] == "/ws/roll";
      scheme + "/ws/roll"
  }

  /** https gives wss, http gives ws; the host part is kept. */
  lemma WsUrlSchemes(host: string)
    ensures WsUrl("https://" + host) == "wss://" + host + "/ws/roll"
    ensures WsUrl("http://" + host) == "ws://" + host + "/ws/roll"
  {
    WsUrlScheme("s://", host);
    WsUrlScheme("://", host);
  }

  lemma WsUrlScheme(rest: string, host: string)
    ensures WsUrl("http" + rest + host) == "ws" + rest + host + "/ws/roll"
  {
    var u := "http" + rest + host;
    assert u[..4] == "http";
    assert u[4..] == rest + host;
  }

  // ---------------------------------------------------------------------
  // Store state

  /** `currentRoll` (null or a roll record) and `serverUrl`. */
  datatype Broadcast = Broadcast(currentRoll: Js, serverUrl: Js)

  /** `setServerUrl`: a falsy value is stored as "". */
  function SetServerUrl(st: Broadcast, url: Js): (st': Broadcast)
    ensures !Truthy(url) ==> st'.serverUrl == JStr("")
    ensures Truthy(url) ==> st'.serverUrl == url
    ensures st'.currentRoll == st.currentRoll
  {
    st.(serverUrl := Or(url, JStr("")))
  }

  /** The base of the stored URL; None where `.replace` would throw
      because a truthy non-string was stored. */
  function BaseOf(st: Broadcast): (b: Option<string>)
    ensures !Truthy(st.serverUrl) ==> b == Some("")
    ensures st.serverUrl.JStr? ==> b == Some(BaseUrl(st.serverUrl.s))
  {
    var url := Or(st.serverUrl, JStr(""));
    if url.JStr? then Some(BaseUrl(url.s)) else None
  }

  /** The id of a roll started at time t. */
  function RollId(t: Stamp): Js { JStr("roll_" + ShowNat(t.ms)) }

  /** `startRolling`: a fresh roll in the "rolling" state with no dice yet. */
  function StartRolling(st: Broadcast, payload: Obj, t: Stamp): (st': Broadcast)
    ensures st'.serverUrl == st.serverUrl && st'.currentRoll.JObj?
    ensures var r := st'.currentRoll.fields;
      Field(r, "id") == RollId(t) && Field(r, "status") == JStr("rolling") &&
      Field(r, "dice") == Null && Field(r, "value") == Null && Field(r, "chosenValue") == Null &&
      Field(r, "total") == Null &&
      Field(r, "isNat1") == JBool(false) && Field(r, "isNat20") == JBool(false) &&
      Truthy(Field(r, "mode")) && !Nullish(Field(r, "modifier")) &&
      (Truthy(Field(payload, "mode")) ==> Field(r, "mode") == Field(payload, "mode")) &&
      (Nullish(Field(payload, "modifier")) ==> Field(r, "modifier") == JNum(0.0))
  {
    var data := map[
      "id" := RollId(t),
      "status" := JStr("rolling"),
      "mode" := Or(Field(payload, "mode"), JStr("normal")),
      "playerName" := Or(Field(payload, "playerName"), JStr("")),
      "label" := Or(Field(payload, "label"), JStr("")),
      "dice" := Null,
      "value" := Null,
      "chosenValue" := Null,
      "modifier" := Coalesce(Field(payload, "modifier"), JNum(0.0)),
      "total" := Null,
      "isNat1" := JBool(false),
      "isNat20" := JBool(false),
      "difficultyClass" := Coalesce(Field(payload, "difficultyClass"), Null)];
    st.(currentRoll := JObj(data))
  }

  /** The payload's fields a new roll takes over, and the defaults for
      those the payload leaves falsy or nullish. */
  lemma StartRollingDefaults(st: Broadcast, payload: Obj, t: Stamp)
    ensures var r := StartRolling(st, payload, t).currentRoll.fields;
      (!Truthy(Field(payload, "mode")) ==> Field(r, "mode") == JStr("normal")) &&
      (!Nullish(Field(payload, "modifier")) ==> Field(r, "modifier") == Field(payload, "modifier")) &&
      (Truthy(Field(payload, "playerName")) ==> Field(r, "playerName") == Field(payload, "playerName")) &&
      (!Truthy(Field(payload, "playerName")) ==> Field(r, "playerName") == JStr("")) &&
      (Truthy(Field(payload, "label")) ==> Field(r, "label") == Field(payload, "label")) &&
      (!Truthy(Field(payload, "label")) ==> Field(r, "label") == JStr("")) &&
      (Nullish(Field(payload, "difficultyClass")) ==> Field(r, "difficultyClass") == Null) &&
      (!Nullish(Field(payload, "difficultyClass")) ==> Field(r, "difficultyClass") == Field(payload, "difficultyClass"))
  {
  }

  /** `showResult`: the result record; it keeps the current roll's id, and
      falls back to the current roll for the names, modifier and DC. */
  function ShowResult(st: Broadcast, payload: Obj, t: Stamp): (st': Broadcast)
    ensures st'.serverUrl == st.serverUrl && st'.currentRoll.JObj?
    ensures var r := st'.currentRoll.fields;
      Field(r, "status") == JStr("result") &&
      (Truthy(OptGet(st.currentRoll, "id")) ==> Field(r, "id") == OptGet(st.currentRoll, "id")) &&
      (!Truthy(OptGet(st.currentRoll, "id")) ==> Field(r, "id") == RollId(t)) &&
      (Nullish(Field(payload, "chosenValue")) ==> Field(r, "chosenValue") == Coalesce(Field(payload, "value"), Null)) &&
      (!Nullish(Field(payload, "chosenValue")) ==> Field(r, "chosenValue") == Field(payload, "chosenValue"))
  {
    var current := st.currentRoll;
    var data := map[
      "id" := Or(OptGet(current, "id"), RollId(t)),
      "status" := JStr("result"),
      "mode" := Or(Field(payload, "mode"), JStr("normal")),
      "playerName" := Or(Field(payload, "playerName"), Or(OptGet(current, "playerName"), JStr(""))),
      "label" := Or(Field(payload, "label"), Or(OptGet(current, "label"), JStr(""))),
      "dice" := Or(Field(payload, "dice"), Null),
      "value" := Coalesce(Field(payload, "value"), Null),
      "chosenValue" := Coalesce(Field(payload, "chosenValue"), Coalesce(Field(payload, "value"), Null)),
      "modifier" := Coalesce(Field(payload, "modifier"), Coalesce(OptGet(current, "modifier"), JNum(0.0))),
      "total" := Coalesce(Field(payload, "total"), Null),
      "isNat1" := Coalesce(Field(payload, "isNat1"), JBool(false)),
      "isNat20" := Coalesce(Field(payload, "isNat20"), JBool(false)),
      "difficultyClass" := Coalesce(Field(payload, "difficultyClass"),
                                    Coalesce(OptGet(current, "difficultyClass"), Null))];
    st.(currentRoll := JObj(data))
  }

  /** A result shown after a start belongs to the same roll: same id, and
      names, modifier and DC carry over when the result does not give them. */
  lemma ResultContinuesRoll(st: Broadcast, start: Obj, result: Obj, t0: Stamp, t1: Stamp)
    requires Nullish(Field(result, "modifier")) && Nullish(Field(result, "difficultyClass"))
    requires !Truthy(Field(result, "playerName")) && !Truthy(Field(result, "label"))
    ensures var rolling := StartRolling(st, start, t0);
      var r := ShowResult(rolling, result, t1).currentRoll.fields;
      Field(r, "id") == RollId(t0) &&
      Field(r, "playerName") == Or(Field(start, "playerName"), JStr("")) &&
      Field(r, "label") == Or(Field(start, "label"), JStr("")) &&
      Field(r, "modifier") == Coalesce(Field(start, "modifier"), JNum(0.0)) &&
      Field(r, "difficultyClass") == Coalesce(Field(start, "difficultyClass"), Null)
  {
  }

  /** `clearRoll`. */
  function ClearRoll(st: Broadcast): (st': Broadcast)
    ensures st'.currentRoll == Null && st'.serverUrl == st.serverUrl
  {
    st.(currentRoll := Null)
  }

  /** The socket's message handler; `parsed` is `JSON.parse` of the
      message (None when it throws). A throw inside the handler is caught
      and changes nothing. */
  function OnMessage(st: Broadcast, parsed: Option<Js>): (st': Broadcast)
    ensures st'.serverUrl == st.serverUrl
    ensures st'.currentRoll == st.currentRoll || st'.currentRoll == Null ||
            (parsed.Some? && st'.currentRoll == OptGet(parsed.value, "data"))
    ensures parsed.Some? && OptGet(parsed.value, "type") == JStr("roll") && Truthy(OptGet(parsed.value, "data")) ==>
              st'.currentRoll == OptGet(parsed.value, "data")
    ensures parsed.Some? && OptGet(parsed.value, "type") == JStr("clear") ==> st'.currentRoll == Null
    ensures parsed.None? ==> st' == st
  {
    if parsed.None? || Nullish(parsed.value) then st
    else
      var kind := OptGet(parsed.value, "type");
      var data := OptGet(parsed.value, "data");
      if kind == JStr("roll") && Truthy(data) then st.(currentRoll := data)
      else if kind == JStr("clear") then st.(currentRoll := Null)
      else st
  }

  /** Messages of any other type, and "roll" messages without data, leave
      the roll as it is. */
  lemma OtherMessagesIgnored(st: Broadcast, msg: Js)
    requires OptGet(msg, "type") != JStr("clear")
    requires OptGet(msg, "type") != JStr("roll") || !Truthy(OptGet(msg, "data"))
    ensures OnMessage(st, Some(msg)) == st
  {
  }
}

=== FILE: text.dfy ===
/** Text helpers shared by the Python, C++ and JavaScript models. */
module Text {

  /** The ASCII whitespace characters `Strip` removes: the six (space,
      tab, line feed, carriage return, vertical tab, form feed) that
      Python's `str.strip` and JavaScript's `String.prototype.trim` both
      treat as space. Both also remove further control and Unicode space
      characters, which this model leaves out. */
  predicate IsSpace(c: char) {
    c == ' ' || c == '\t' || c == '\n' || c == '\r' || c == '\U{B}' || c == '\U{C}'
  }

  /** The number of leading whitespace characters. */
  function LeadingSpaces(s: string): (n: nat)
    ensures n <= |s|
    ensures forall i :: 0 <= i < n ==> IsSpace(s[i])
    ensures n < |s| ==> !IsSpace(s[n])
  {
    if |s| > 0 && IsSpace(s[0]) then 1 + LeadingSpaces(s[1..]) else 0
  }

  function StripRight(s: string): (t: string)
    ensures |t| <= |s| && t == s[..|t|]
    ensures |t| > 0 ==> !IsSpace(t[|t| - 1])
    ensures forall i :: |t| <= i < |s| ==> IsSpace(s[i])
  {
    if |s| > 0 && IsSpace(s[|s| - 1]) then StripRight(s[..|s| - 1]) else s
  }

  /** `str.strip()` / `trim()`: the text between the leading and trailing whitespace. */
  function Strip(s: string): (t: string)
    ensures |t| > 0 ==> !IsSpace(t[0]) && !IsSpace(t[|t| - 1])
    ensures LeadingSpaces(s) + |t| <= |s|
    ensures t == s[LeadingSpaces(s)..LeadingSpaces(s) + |t|]
    ensures forall i :: LeadingSpaces(s) + |t| <= i < |s| ==> IsSpace(s[i])
  {
    StripRight(s[LeadingSpaces(s)..])
  }

  /** Text already free of surrounding whitespace is left as it is. */
  lemma StripTrimmed(s: string)
    requires |s| > 0 && !IsSpace(s[0]) && !IsSpace(s[|s| - 1])
    ensures Strip(s) == s
  {
  }

  predicate StartsWith(s: string, prefix: string) {
    |prefix| <= |s| && s[..|prefix|] == prefix
  }

  predicate EndsWith(s: string, suffix: string) {
    |suffix| <= |s| && s[|s| - |suffix|..] == suffix
  }
}

=== FILE: tower_store.dfy ===
/** The tower store: the dice towers the DM has registered, each with its
    API address, online flag and last detection. */
module TowerStore {
  import opened Wrappers
  import opened Text
  import opened Decimal
  import opened JsValues

  /** Whether `t` is the tower `addOrUpdateTower` looks for: the same id,
      or the same API address when one is given. */
  predicate SameTower(t: Obj, id: Js, partial: Obj) {
    Field(t, "id") == id || (Truthy(Field(partial, "apiBase")) && Field(t, "apiBase") == Field(partial, "apiBase"))
  }

  function FindTower(towers: seq<Obj>, id: Js, partial: Obj): (i: int)
    ensures -1 <= i < |towers|
    ensures i >= 0 ==> SameTower(towers[i], id, partial)
    ensures forall j :: 0 <= j < |towers| && (i < 0 || j < i) ==> !SameTower(towers[j], id, partial)
  {
    if |towers| == 0 then -1
    else if SameTower(towers[0], id, partial) then 0
    else
      var i := FindTower(towers[1..], id, partial);
      if i < 0 then -1 else i + 1
  }

  /** The id a tower is registered under: its own, else its address, else
      the time. */
  function TowerId(partial: Obj, t: Stamp): (id: Js)
    ensures Truthy(Field(partial, "id")) ==> id == Field(partial, "id")
    ensures !Truthy(Field(partial, "id")) && Truthy(Field(partial, "apiBase")) ==> id == Field(partial, "apiBase")
    ensures !Truthy(Field(partial, "id")) && !Truthy(Field(partial, "apiBase")) ==> id == NowId(t)
  {
    Or(Or(Field(partial, "id"), Field(partial, "apiBase")), NowId(t))
  }

  /** A new tower record with its defaults. */
  function NewTower(partial: Obj, id: Js, count: nat, t: Stamp): (tw: Obj)
    ensures Field(tw, "id") == id
    ensures Field(tw, "lastStatus") == Null && Field(tw, "lastDetection") == Null
    ensures Field(tw, "lastSeenAt") == JStr(t.iso)
    ensures !Truthy(Field(partial, "playerName")) ==> Field(tw, "playerName") == JStr("Player")
    ensures !Truthy(Field(partial, "towerName")) ==> Field(tw, "towerName") == JStr("Tower " + ShowNat(count + 1))
    ensures !Truthy(Field(partial, "online")) ==> Field(tw, "online") == JBool(false)
  {
    map[
      "id" := id,
      "playerName" := Or(Field(partial, "playerName"), JStr("Player")),
      "towerName" := Or(Field(partial, "towerName"), JStr("Tower " + ShowNat(count + 1))),
      "apiBase" := Or(Field(partial, "apiBase"), JStr("")),
      "streamUrl" := Or(Field(partial, "streamUrl"), JStr("")),
      "online" := Or(Field(partial, "online"), JBool(false)),
      "lastSeenAt" := JStr(t.iso),
      "lastStatus" := Null,
      "lastDetection" := Null]
  }

  /** `addOrUpdateTower`: a known tower is merged in place; otherwise one
      new tower is appended. */
  function AddOrUpdateTower(towers: seq<Obj>, partial: Obj, t: Stamp): (r: (seq<Obj>, Obj))
    ensures var i := FindTower(towers, TowerId(partial, t), partial);
      (i >= 0 ==> |r.0| == |towers| && r.0 == towers[i := r.1] &&
                  r.1 == (towers[i] + partial)["lastSeenAt" := JStr(t.iso)]) &&
      (i < 0 ==> r.0 == towers + [r.1] && r.1 == NewTower(partial, TowerId(partial, t), |towers|, t))
  {
    var id := TowerId(partial, t);
    var i := FindTower(towers, id, partial);
    if i >= 0 then
      var merged := (towers[i] + partial)["lastSeenAt" := JStr(t.iso)];
      (towers[i := merged], merged)
    else
      var item := NewTower(partial, id, |towers|, t);
      (towers + [item], item)
  }

  /** Registering the same address twice keeps one tower. */
  lemma ReAddKeepsOne(towers: seq<Obj>, partial: Obj, t0: Stamp, t1: Stamp)
    requires Truthy(Field(partial, "apiBase"))
    ensures var once := AddOrUpdateTower(towers, partial, t0).0;
      |AddOrUpdateTower(once, partial, t1).0| == |once|
  {
    var once := AddOrUpdateTower(towers, partial, t0).0;
    var i := FindTower(towers, TowerId(partial, t0), partial);
    var k := if i >= 0 then i else |towers|;
    var id1 := TowerId(partial, t1);
    assert Field(once[k], "apiBase") == Field(partial, "apiBase");
    assert SameTower(once[k], id1, partial);
  }

  /** `setStatus`: an unknown id changes nothing; the online flag is the
      status's, and the last detection changes only with dice in it. */
  function SetStatus(towers: seq<Obj>, id: Js, status: Js, iso: string): (r: seq<Obj>)
    ensures |r| == |towers|
    ensures FindIndex(towers, "id", id) < 0 ==> r == towers
    ensures forall j :: 0 <= j < |towers| && j != FindIndex(towers, "id", id) ==> r[j] == towers[j]
    ensures var i := FindIndex(towers, "id", id);
      i >= 0 ==>
        Field(r[i], "online") == JBool(Truthy(OptGet(status, "online"))) &&
        Field(r[i], "lastSeenAt") == JStr(iso) &&
        Field(r[i], "lastStatus") == Or(status, Null) &&
        (Truthy(OptGet(status, "dice")) ==> Field(r[i], "lastDetection") == OptGet(status, "dice")) &&
        (!Truthy(OptGet(status, "dice")) ==> Field(r[i], "lastDetection") == Field(towers[i], "lastDetection")) &&
        (!Truthy(OptGet(status, "raw")) ==>
           Field(r[i], "lastStaIp") == Field(towers[i], "lastStaIp") &&
           Field(r[i], "lastApIp") == Field(towers[i], "lastApIp")) &&
        (forall k :: k in towers[i] && !IsStatusKey(k) ==> k in r[i] && r[i][k] == towers[i][k]) &&
        (forall k :: k in r[i] ==> k in towers[i] || IsStatusKey(k))
  {
    var i := FindIndex(towers, "id", id);
    if i < 0 then towers
    else towers[i := StatusUpdate(towers[i], status, iso)]
  }

  /** The found tower after `setStatus`. */
  function StatusUpdate(tw: Obj, status: Js, iso: string): (tw': Obj)
    ensures Field(tw', "online") == JBool(Truthy(OptGet(status, "online")))
    ensures Field(tw', "lastSeenAt") == JStr(iso)
    ensures Field(tw', "lastStatus") == Or(status, Null)
    ensures Field(tw', "lastDetection") ==
              (if Truthy(OptGet(status, "dice")) then OptGet(status, "dice") else Field(tw, "lastDetection"))
    ensures !Truthy(OptGet(status, "raw")) ==>
              Field(tw', "lastStaIp") == Field(tw, "lastStaIp") && Field(tw', "lastApIp") == Field(tw, "lastApIp")
    ensures forall k :: k in tw && !IsStatusKey(k) ==> k in tw' && tw'[k] == tw[k]
    ensures forall k :: k in tw' ==> k in tw || IsStatusKey(k)
  {
    var t1 := tw["online" := JBool(Truthy(OptGet(status, "online")))]
                ["lastSeenAt" := JStr(iso)]["lastStatus" := Or(status, Null)];
    var t2 := if Truthy(OptGet(status, "raw")) then NoteAddresses(t1, OptGet(status, "raw")) else t1;
    if Truthy(OptGet(status, "dice")) then t2["lastDetection" := OptGet(status, "dice")] else t2
  }

  /** The fields `setStatus` may write. */
  predicate IsStatusKey(k: string) {
    k in {"online", "lastSeenAt", "lastStatus", "lastDetection", "lastStaIp", "lastApIp"}
  }

  /** `setStatus` keeps every tower's id, so a tower is found at the same
      place before and after. */
  lemma SetStatusKeepsIds(towers: seq<Obj>, id: Js, status: Js, iso: string, other: Js)
    ensures var r := SetStatus(towers, id, status, iso);
      (forall j :: 0 <= j < |towers| ==> Field(r[j], "id") == Field(towers[j], "id")) &&
      FindIndex(r, "id", other) == FindIndex(towers, "id", other)
  {
    var r := SetStatus(towers, id, status, iso);
    assert !IsStatusKey("id");
    FindIndexSameKeys(r, towers, "id", other);
  }

  /** Two lists whose records agree on `key` have the same first match. */
  lemma {:induction false} FindIndexSameKeys(xs: seq<Obj>, ys: seq<Obj>, key: string, v: Js)
    requires |xs| == |ys|
    requires forall j :: 0 <= j < |xs| ==> Field(xs[j], key) == Field(ys[j], key)
    ensures FindIndex(xs, key, v) == FindIndex(ys, key, v)
  {
    if |xs| > 0 && !Matches(xs[0], key, v) {
      FindIndexSameKeys(xs[1..], ys[1..], key, v);
    }
  }

  /** The station and access-point addresses reported in `raw`, when
      present: the station address from `wifi.sta.ip`, else `sta_ip`. */
  function NoteAddresses(tw: Obj, raw: Js): (tw': Obj)
    ensures forall k :: k in tw && k != "lastStaIp" && k != "lastApIp" ==> k in tw' && tw'[k] == tw[k]
    ensures forall k :: k in tw' ==> k in tw || k == "lastStaIp" || k == "lastApIp"
    ensures var staIp := Or(OptGet(OptGet(OptGet(raw, "wifi"), "sta"), "ip"), OptGet(raw, "sta_ip"));
      Field(tw', "lastStaIp") == (if Truthy(staIp) then staIp else Field(tw, "lastStaIp"))
    ensures Field(tw', "lastApIp") == (if Truthy(OptGet(raw, "ap_ip")) then OptGet(raw, "ap_ip") else Field(tw, "lastApIp"))
  {
    var staIp := Or(OptGet(OptGet(OptGet(raw, "wifi"), "sta"), "ip"), OptGet(raw, "sta_ip"));
    var apIp := OptGet(raw, "ap_ip");
    var tw := if Truthy(staIp) then tw["lastStaIp" := staIp] else tw;
    if Truthy(apIp) then tw["lastApIp" := apIp] else tw
  }

  /** `removeTower`: the first tower with that id. */
  function RemoveTower(towers: seq<Obj>, id: Js): (r: seq<Obj>)
    ensures r == RemoveFirst(towers, "id", id)
    ensures |r| == |towers| - (if FindIndex(towers, "id", id) >= 0 then 1 else 0)
  {
    RemoveFirst(towers, "id", id)
  }

  /** The filter test of `cleanInvalidTowers`. */
  predicate KeepTower(t: Obj) {
    var a := Field(t, "apiBase");
    Truthy(a) && a.JStr? && Strip(a.s) != "" &&
    (StartsWith(a.s, "http://") || StartsWith(a.s, "https://"))
  }

  /** The blank test adds nothing: a tower is kept exactly when its
      address is a string starting with http:// or https://. */
  lemma KeepTowerIff(t: Obj)
    ensures KeepTower(t) <==>
      Field(t, "apiBase").JStr? &&
      (StartsWith(Field(t, "apiBase").s, "http://") || StartsWith(Field(t, "apiBase").s, "https://"))
  {
    var a := Field(t, "apiBase");
    if a.JStr? && (StartsWith(a.s, "http://") || StartsWith(a.s, "https://")) {
      assert a.s[0] == 'h';
    }
  }

  /** Whether `.trim()` would be called on a non-string address. */
  predicate Throws(t: Obj) {
    Truthy(Field(t, "apiBase")) && !Field(t, "apiBase").JStr?
  }

  function Filter(towers: seq<Obj>): (r: seq<Obj>)
    ensures |r| <= |towers|
    ensures forall j :: 0 <= j < |r| ==> KeepTower(r[j])
    ensures forall t :: t in r <==> t in towers && KeepTower(t)
  {
    if |towers| == 0 then []
    else if KeepTower(towers[0]) then [towers[0]] + Filter(towers[1..])
    else
      assert forall t :: t in towers <==> t == towers[0] || t in towers[1..];
      Filter(towers[1..])
  }

  /** `cleanInvalidTowers`; None when a truthy non-string address makes
      `.trim()` throw, leaving the list as it was. */
  function CleanInvalidTowers(towers: seq<Obj>): (r: Option<seq<Obj>>)
    ensures r.None? <==> exists j :: 0 <= j < |towers| && Throws(towers[j])
    ensures r.Some? ==> r.value == Filter(towers)
  {
    if exists j :: 0 <= j < |towers| && Throws(towers[j]) then None else Some(Filter(towers))
  }

  /** The filter works tower by tower: a single tower is kept or dropped
      by its own test, and filtering a concatenation concatenates the
      filtered parts, so the kept towers stay in their original order. */
  lemma {:induction false} FilterAppend(a: seq<Obj>, b: seq<Obj>)
    ensures Filter(a + b) == Filter(a) + Filter(b)
  {
    if |a| == 0 {
      assert a + b == b;
    } else {
      assert (a + b)[1..] == a[1..] + b;
      FilterAppend(a[1..], b);
    }
  }

  lemma FilterOne(t: Obj)
    ensures Filter([t]) == if KeepTower(t) then [t] else []
  {
    assert [t][1..] == [];
  }

  /** A list with only valid towers is kept whole, so cleaning twice is
      cleaning once. */
  lemma {:induction false} FilterKeepsValid(towers: seq<Obj>)
    requires forall j :: 0 <= j < |towers| ==> KeepTower(towers[j])
    ensures Filter(towers) == towers
  {
    if |towers| > 0 {
      FilterKeepsValid(towers[1..]);
    }
  }

  lemma CleanIdempotent(towers: seq<Obj>)
    requires CleanInvalidTowers(towers).Some?
    ensures CleanInvalidTowers(CleanInvalidTowers(towers).value) == CleanInvalidTowers(towers)
  {
    var r := Filter(towers);
    FilterKeepsValid(r);
    assert forall j :: 0 <= j < |r| ==> !Throws(r[j]);
  }

  /** `load`: the stored list, or [] when there is none, it does not
      parse, or it is not an array. `parse` is `JSON.parse`. */
  function Load(raw: Option<string>, parse: string -> Option<Js>): (towers: seq<Js>)
    ensures raw.None? || raw == Some("") ==> towers == []
    ensures raw.Some? && raw.value != "" && parse(raw.value).Some? && parse(raw.value).value.JArr? ==>
              towers == parse(raw.value).value.items
    ensures raw.Some? && raw.value != "" && (parse(raw.value).None? || !parse(raw.value).value.JArr?) ==>
              towers == []
  {
    if raw.None? || raw.value == "" then []
    else match parse(raw.value)
      case None => []
      case Some(v) => if v.JArr? then v.items else []
  }

  /** The loaded list as tower records, when every element is an object;
      the tower operations read fields of objects only. */
  function AsTowers(items: seq<Js>): (r: Option<seq<Obj>>)
    ensures r.Some? <==> forall j :: 0 <= j < |items| ==> items[j].JObj?
    ensures r.Some? ==> |r.value| == |items|
    ensures r.Some? ==> forall j :: 0 <= j < |items| ==> items[j] == JObj(r.value[j])
  {
    if |items| == 0 then Some([])
    else if !items[0].JObj? then None
    else match AsTowers(items[1..])
      case None => None
      case Some(rest) => Some([items[0].fields] + rest)
  }
}

=== FILE: ui_store.dfy ===
/** The UI store: whether the drawer is minimised, kept in local storage
    under one key as the text "true" or "false". */
module UiStore {
  import opened Wrappers
  import opened JsValues

  const STORAGE_KEY: string := "ui.drawerMinimized"

  /** Local storage, or None where the environment has none. */
  type Storage = Option<map<string, string>>

  /** `loadDrawerState`: only the exact text "true" reads as minimised. */
  function LoadDrawerState(storage: Storage): (r: bool)
    ensures storage.None? ==> !r
    ensures storage.Some? && STORAGE_KEY !in storage.value ==> !r
    ensures storage.Some? && STORAGE_KEY in storage.value ==> (r <==> storage.value[STORAGE_KEY] == "true")
  {
    storage.Some? && STORAGE_KEY in storage.value && storage.value[STORAGE_KEY] == "true"
  }

  /** `persistDrawerState`: stores the truthiness of the value; nothing
      else in storage changes. */
  function PersistDrawerState(storage: Storage, value: Js): (s: Storage)
    ensures storage.None? <==> s.None?
    ensures s.Some? ==> s.value.Keys == storage.value.Keys + {STORAGE_KEY}
    ensures s.Some? ==> forall k :: k in storage.value && k != STORAGE_KEY ==> s.value[k] == storage.value[k]
  {
    if storage.None? then None
    else Some(storage.value[STORAGE_KEY := if Truthy(value) then "true" else "false"])
  }

  /** What is persisted reads back as the value's truthiness. */
  lemma PersistLoadRoundTrip(storage: Storage, value: Js)
    requires storage.Some?
    ensures LoadDrawerState(PersistDrawerState(storage, value)) == Truthy(value)
  {
  }

  datatype Ui = Ui(drawerMinimized: Js, storage: Storage)

  /** The initial state reads storage. */
  function Init(storage: Storage): (u: Ui)
    ensures Synced(u)
  {
    Ui(JBool(LoadDrawerState(storage)), storage)
  }

  /** Storage, when there is any, agrees with the drawer state. */
  predicate Synced(u: Ui) {
    u.storage.Some? ==> LoadDrawerState(u.storage) == Truthy(u.drawerMinimized)
  }

  /** `setDrawerMinimized`: the value is kept as given and persisted. */
  function SetDrawerMinimized(u: Ui, value: Js): (u': Ui)
    ensures u'.drawerMinimized == value
    ensures Synced(u')
  {
    Ui(value, PersistDrawerState(u.storage, value))
  }

  /** `toggleDrawer`. */
  function ToggleDrawer(u: Ui): (u': Ui)
    ensures u'.drawerMinimized == JBool(!Truthy(u.drawerMinimized))
    ensures Synced(u')
  {
    SetDrawerMinimized(u, JBool(!Truthy(u.drawerMinimized)))
  }

  /** Two toggles restore a boolean drawer state, and what a reload reads. */
  lemma ToggleTwice(u: Ui)
    requires u.drawerMinimized.JBool?
    ensures ToggleDrawer(ToggleDrawer(u)).drawerMinimized == u.drawerMinimized
    ensures Init(ToggleDrawer(ToggleDrawer(u)).storage).drawerMinimized ==
              (if u.storage.Some? then u.drawerMinimized else JBool(false))
  {
  }
}

=== FILE: wrappers.dfy ===
/** Optional values: a null reference, a missing key, an absent field. */
module Wrappers {

  datatype Option<T> = None | Some(value: T) {
    function UnwrapOr(default: T): T {
      if Some? then value else default
    }
  }
}
